=== FILE: README.md ===
# notion-to-audio: a Dafny model of the content pipeline

notion-to-audio turns a Notion database into spoken lessons in three stages:

1. it exports every page of the database as a plain-text file (and, in a
   second exporter, as a PDF document) and merges the files into one;
2. it asks a language model to rewrite each text file as a conversational
   transcript, splitting long files into chunks;
3. it synthesises audio from the transcripts.

This project models the deterministic core of the first two stages and
proves properties about it. Each module below follows one source file:

- **Block-tree flattening** (`NotionService`). A page's blocks form a rose
  tree. It is flattened into an ordered list of blocks, each indented by
  its depth. Each block's text is chosen by a fixed precedence
  (`rich_text`, then `text`, then a child page's title). The page title
  falls back to `Untitled`.
- **The text renderer and merger** (`TxtGenerator`): title sanitising, the
  numbered file name, the per-kind line layout and blank-line rule, and the
  merge of several text files with an 80-`=` separator.
- **The document renderer's decisions** (`PdfGenerator`): style per block,
  indent clamping to ten levels, the `Kind: ` label, and the file name.
  Laying out the document is not modelled.
- **The two export drivers** (`Fanout`, `NotionToTxt`, `NotionToPdf`). They
  run one task per page and collect the results in completion order. Sorting
  by index restores page order. The successful files are then merged.
- **The transcript generators**:
  - the bounded retry loop around one model call (`Retry`);
  - the chunk prompt (`Prompt`);
  - the helpers the three generators share (`TranscriptCommon`): topic
    extraction, `.txt` listing and output naming;
  - the chunked generator (`TranscriptMaker`);
  - the thread-pool generator (`TranscriptParallel`);
  - the one-at-a-time generator, which stops after its first success
    (`TranscriptSequential`).

External services are parameters:

- the Notion listing is a tree of `Node`s, with `None` for a listing call
  that raised;
- a directory listing is `Option<seq<string>>`;
- a file's content is a string, with an unreadable file reading as `""`;
- the language model is an oracle sequence of responses per request; a
  chunk request records the arguments its prompt is built from, and
  `TranscriptMaker.PromptText` renders them;
- the library text splitter is the sequence of chunks it returns;
- the thread pool's completion order is any rearrangement (equal multiset)
  of the tasks' results;
- each page's document renderer runs two library steps, making the PDF
  font available and building the document; whether each step completes
  is a parameter, one pair of booleans per page.

## Model

| member | source | states |
|---|---|---|
| Text.RepeatChar | txt_generator.py:45 | `c * n` is exactly `n` copies of `c` |
| Text.Indent | txt_generator.py:50 | the indent of level `l` is `4*l` spaces and nothing else |
| Text.Capitalize | pdf_generator.py:70 | same length; first character upper-cased, every later character lower-cased |
| Text.NatToString | notion_to_txt.py:29 | the decimal text is a non-empty run of digits that starts with `0` only for zero, so no number is padded |
| Text.NatToStringRoundTrip | notion_to_txt.py:29 | the decimal text of an index reads back as that index, so distinct indices print differently |
| Text.Strip | transcript_generator.py:47 | the stripped text neither starts nor ends with whitespace; it is empty exactly when the input is all whitespace |
| Text.FirstLine | transcript_generator.py:47 | `split('\n')[0]` is a prefix with no newline, ending at the first newline or at the end of the input |
| Text.ReplaceChar | transcript_generator.py:52 | same length; every `_` becomes a space, every other character is kept |
| Text.PathJoin | txt_generator.py:39 | an absolute name replaces the directory; a relative name follows the directory and one `/`, and no `/` is added when the directory is empty or already ends in one |
| Text.PathJoinInjective | txt_generator.py:39 | under one directory, two relative names give the same path exactly when they are equal |
| Text.BaseName | transcript_generator.py:52 | the base name is the longest suffix of the path with no `/` in it: the whole path, or the part right after its last `/` |
| Text.Stem | transcript_generator.py:52 | `splitext(name)[0]` is a prefix of the name |
| NotionService.ExtractBlockContent | notion_extract/helper/notion_service.py:33-51 | a block without a payload under its type key has no text; a `rich_text` list gives its spans' plain texts joined by single spaces, else a `text` list does the same, else a child page gives its title (or nothing when it has none) and any other kind gives nothing; the text is empty exactly in the listed no-content cases (blank span lists, a missing or empty child-page title, any other kind without a span list) |
| NotionService.RichTextTakesPrecedence | notion_extract/helper/notion_service.py:42-47 | with a `rich_text` list, the `text` list never matters, and the content is the spans' plain texts joined by single spaces |
| NotionService.Emitted | notion_extract/helper/notion_service.py:63-69 | a node yields one block exactly when its extracted content is non-empty, and that block is the node's type, that content, the current depth and the node's `has_children` flag; otherwise it yields none |
| NotionService.ExtractBlocks | notion_extract/helper/notion_service.py:53-76 | every emitted block has non-empty content and an indent at least the starting indent |
| NotionService.EmptyParentStillDescends | notion_extract/helper/notion_service.py:71-74 | an empty block with `has_children` still contributes all of its children's blocks, one level deeper |
| NotionService.ChildrenIgnoredWithoutFlag | notion_extract/helper/notion_service.py:71-74 | without `has_children` a node's children never influence the output |
| NotionService.VisitsSound | notion_extract/helper/notion_service.py:58-74 | every node the walk visits is reachable at its path, and its depth is its nesting level |
| NotionService.VisitsComplete | notion_extract/helper/notion_service.py:58-74 | every reachable position is visited by the walk |
| NotionService.VisitsPreorder | notion_extract/helper/notion_service.py:58-76 | visits come in strictly increasing lexicographic path order: a parent before its descendants, descendants before later siblings, and no position twice |
| NotionService.ExtractIsEmitOfVisits | notion_extract/helper/notion_service.py:53-76 | the extracted list equals the reference walk with empty-content nodes dropped |
| NotionService.ExtractionIsPreorderWalk | notion_extract/helper/notion_service.py:53-76 | for a page: the blocks are exactly the non-empty reachable nodes, in pre-order, each at its depth (top level 0) |
| NotionService.PageTitle | notion_extract/helper/notion_service.py:82 | a missing key chain gives `Untitled`; an empty title list is the error case; otherwise the first span's text, or `Untitled` without one |
| NotionService.ExtractPageContent | notion_extract/helper/notion_service.py:78-94 | a page comes back exactly when id, title and block listing all succeed, with those fields and the page's flattened blocks |
| TxtGenerator.SafeTitle | txt_generator.py:38 | same length as the title; each alphanumeric character is kept and each other character becomes `_` |
| TxtGenerator.SafeTitleIsClean | txt_generator.py:38 | a sanitised title has no space and no `/`, and sanitising is idempotent |
| TxtGenerator.TxtFileName | txt_generator.py:38-39 | the name starts with the decimal index and ` - `, ends with the sanitised title and `.txt`, and is exactly as long as those parts together |
| TxtGenerator.TxtPath | txt_generator.py:34-39 | the path is the output directory, `/sources/` and the page's numbered file name (the `/` after the directory only when it does not already end in one) |
| TxtGenerator.TxtFileNameDeterminesIndex | txt_generator.py:39 | two pages share a file name only if they share an index, whatever their titles |
| TxtGenerator.TxtPathDeterminesIndex | txt_generator.py:34-39 | within one output directory, text paths of different indices never collide |
| TxtGenerator.Marker | txt_generator.py:62-73 | each marker kind gets a two-character marker: a non-space symbol and a space |
| TxtGenerator.Header | txt_generator.py:44-45 | the file opens with the title, a newline, an `=` underline as long as the title, and a blank line |
| TxtGenerator.BlockBody | txt_generator.py:49-75 | a block's lines end with a newline; a heading opens with a blank line; every other block opens with its indent, and every kind but code ends with its content on the last line; a kind that is neither a heading, a marked kind nor code is exactly its indent, its content and a newline |
| TxtGenerator.RenderBlock | txt_generator.py:48-79 | every block ends at the end of a line; every block except a list item ends in a blank line; a list item is exactly its single marker line |
| TxtGenerator.HeadingLayout | txt_generator.py:53-61 | a heading is a blank line, the text, and an underline as long as the text; `-` for levels 1-2, `~` for level 3; level 1 is not indented |
| TxtGenerator.HeadingOneIgnoresIndent | txt_generator.py:53-55 | a level-1 heading renders the same at every indent level |
| TxtGenerator.HeadingOneAndTwoCoincideAtTopLevel | txt_generator.py:53-58 | at level 0, level-1 and level-2 headings with the same text render identically |
| TxtGenerator.RenderBlocks | txt_generator.py:48-79 | the blocks' text is empty exactly when there are no blocks, and otherwise ends at the end of a line |
| TxtGenerator.RenderBlocksAppend | txt_generator.py:48-79 | block lists render piecewise: the text of `a + b` is the text of `a` then the text of `b` |
| TxtGenerator.RenderTxt | txt_generator.py:42-79 | the file is the header followed by exactly the blocks' rendering |
| TxtGenerator.ParseRenderRoundTrip | txt_generator.py:62-75 | reading back a marker or code block recovers its kind, depth and content, for any content |
| TxtGenerator.ParseMarkerRoundTrip | txt_generator.py:62-73 | the round trip for the five marker kinds |
| TxtGenerator.ParseCodeRoundTrip | txt_generator.py:70-71 | the round trip for fenced code blocks |
| TxtGenerator.MergeContents | txt_generator.py:89-98 | merging no file gives an empty file and one file copies it; otherwise the merge is exactly the inputs plus one 84-character separator per neighbouring pair, and ends with the last input |
| TxtGenerator.MergeSplits | txt_generator.py:91-98 | the merge of `a + b` is the merge of `a`, one separator, then the merge of `b`: the order is kept and a separator stands only between neighbours |
| TxtGenerator.MergeTxtFiles | txt_generator.py:83-98 | with every input readable, the output is the merge of all inputs in order; otherwise the first unreadable input is reported and the output holds the merge of the inputs before it plus the separator already written |
| TxtGenerator.PageToTxt | txt_generator.py:31-81 | the file goes to the page's numbered path under `sources/`, ending in `.txt`; its content opens with the title line and is the title header followed by the blocks' text |
| TxtGenerator.WorkedExample | txt_generator.py:31-79 | the full text of a concrete page with a heading, a paragraph and an indented bullet |
| TxtGenerator.ExampleSafeTitle | txt_generator.py:38 | `My Notes!` sanitises to `My_Notes_` |
| PdfGenerator.IndentStyles | pdf_generator.py:34-42 | ten indent styles, the i-th being level i |
| PdfGenerator.IndentStylesLayout | pdf_generator.py:34-42 | exactly ten styles with left indents 0, 20, ..., 180 points, strictly increasing with the level |
| PdfGenerator.BlockStyle | pdf_generator.py:56-66 | each heading kind gets its own heading style, exactly; every other kind gets one of the ten indent styles |
| PdfGenerator.IndentClamp | pdf_generator.py:63-66 | a non-heading block uses its own level up to 9 and level 9 beyond; its indent never exceeds 180 points and equals 20 per level exactly when the level is at most 9 |
| PdfGenerator.HeadingIgnoresLevel | pdf_generator.py:57-62 | a heading's style does not depend on its nesting level and has no left indent |
| PdfGenerator.BlockText | pdf_generator.py:69-70 | the shown text ends with the content; it is the bare content exactly when the kind is a heading or a paragraph, otherwise it is prefixed with the capitalised kind and `: ` |
| PdfGenerator.LabelExample | pdf_generator.py:69-70 | a quote block `x` is shown as `Quote: x` |
| PdfGenerator.BlockFlowables | pdf_generator.py:51-74 | each block contributes exactly two flowables |
| PdfGenerator.BlockFlowablesAt | pdf_generator.py:51-74 | block i's paragraph, with its own style and text, sits at position 2i, and its 6-point spacer at 2i+1 |
| PdfGenerator.Content | pdf_generator.py:44-74 | the content opens with the title paragraph and a 12-point spacer, then holds two flowables per block |
| PdfGenerator.ContentAt | pdf_generator.py:51-74 | block i of the page is at positions 2+2i and 3+2i of the content |
| PdfGenerator.BlockFlowablesParagraphs | pdf_generator.py:51-74 | the paragraphs of the block flowables are the blocks' texts, one per block, in order |
| PdfGenerator.ContentText | pdf_generator.py:44-74 | reading the paragraphs back gives the title and then every block's text in block order: nothing dropped, duplicated or reordered |
| PdfGenerator.PdfPath | pdf_generator.py:17-18 | the path is the output directory, `/`, the sanitised title and `.pdf` (no extra `/` after a directory that ends in one) |
| PdfGenerator.PdfNameRelative | pdf_generator.py:18 | the file name never starts with `/`, so it always lands inside the output directory |
| PdfGenerator.PdfPathCollision | pdf_generator.py:17-18 | two pages get the same document path exactly when their sanitised titles agree |
| PdfGenerator.PdfPathCollisionExample | pdf_generator.py:17-18 | the titles `a b` and `a?b` both go to `output/a_b.pdf` |
| PdfGenerator.PageToPdf | pdf_generator.py:11-80 | without the font the page fails with the font error; with the font but a failing build it fails with the build error; only when both complete is a document built, and then the document goes to the title's path, its paragraphs are the title and the block texts in order, and block i sits at positions 2+2i and 3+2i as its styled paragraph and a 6-point spacer |
| Fanout.Extracted | notion_to_txt.py:14 | one extraction outcome per listed page, in listing order |
| Fanout.FailureTitle | notion_to_txt.py:29 | the failure title is the fixed prefix followed by the page index in decimal, without padding: the digits read back as the index and start with `0` only for index 0 |
| Fanout.FailureTitleInjective | notion_to_txt.py:29 | distinct page indices give distinct failure titles |
| Fanout.Failure | notion_to_txt.py:24-30 | the failure record keeps the page's index and has no path |
| Fanout.SortByIndex | notion_to_txt.py:74 | the sorted list is ordered by index and is a permutation of its input |
| Fanout.SortedPermutationUnique | notion_to_txt.py:74 | a sorted rearrangement of a list with strictly increasing indices is that list |
| Fanout.SortRestoresPageOrder | notion_to_txt.py:59-74 | whatever order the tasks finish in, sorting the results by index gives the tasks' results in page order |
| Fanout.SuccessfulPaths | notion_to_txt.py:77 | the merge list holds a path exactly for the records that have one, and is empty exactly when every record failed |
| Fanout.SuccessfulPathsAppend | notion_to_txt.py:77 | paths are taken piecewise, so the merge list keeps the records' order |
| Fanout.SuccessfulPathsCount | notion_to_txt.py:77 | each successful record contributes exactly one path |
| Fanout.Drive | notion_to_txt.py:36-84 | with no database id there are no effects; with no pages only the clean; otherwise the results are the tasks in page order, and the clean is followed by a merge of exactly the successful paths when there are any |
| Fanout.ProcessedEffects | notion_to_txt.py:41-84 | the effects of a run, by case: none, clean only, or clean then merge of the successful paths |
| Fanout.MergeIffSomeSuccess | notion_to_txt.py:77-84 | a run merges exactly when it has a database id and some page succeeded |
| Fanout.MergedPathsAreSuccesses | notion_to_txt.py:77-81 | the merge targets the combined file and receives the successful paths in page order, one per successful page |
| NotionToTxt.Render | notion_to_txt.py:14-30 | corrected `process_page`: the record keeps its index; a path exactly when the page extracted, that path being the page's numbered file and the title the page's; otherwise the failure record |
| NotionToTxt.ProcessPage | notion_to_txt.py:11-30 | corrected `process_page`: the record keeps its index; it has a path exactly when the descriptor extracts, and then the path is the page's numbered file under `sources/` and the title is the extracted one; otherwise it is the failure record |
| NotionToTxt.ProcessPageAsWritten | notion_to_txt.py:11-30 | as written: every page, whatever it holds, gives the failure record for its index |
| NotionToTxt.Tasks | notion_to_txt.py:59-62 | one task per page, task i reporting index i |
| NotionToTxt.TasksAsWritten | notion_to_txt.py:59-62 | as written: one task per page, each reporting its index and no path |
| NotionToTxt.Pipeline | notion_to_txt.py:32-84 | corrected `main`: no id gives no effects; no pages gives only the clean; results are in page order; any merge goes to `output_txt/combined.txt` with the successful paths |
| NotionToTxt.PipelineAsWritten | notion_to_txt.py:32-84 | as written `main`: no id gives no effects; the results are the failed tasks in page order |
| NotionToTxt.AsWrittenNeverMerges | notion_to_txt.py:18 | as written, no run merges anything and every processed page reports failure |
| NotionToTxt.SuccessfulPathsOfTasks | notion_to_txt.py:59-77 | the tasks' paths are the numbered files of the pages that extract, in page order |
| NotionToTxt.MergedPathsInPageOrder | notion_to_txt.py:74-81 | corrected: the merge receives the numbered file of every page that extracts, in page order, whatever the completion order |
| NotionToTxt.MergesIffSomePageExtracts | notion_to_txt.py:77-84 | corrected: a run merges exactly when it has an id and at least one page extracts |
| NotionToTxt.SamplePageTasks | notion_to_txt.py:11-30 | for one cleanly extracted page, the corrected task reports its numbered file and the as-written task reports failure |
| NotionToTxt.OnePageAsWritten | notion_to_txt.py:18 | as written, a one-page database whose page extracts only cleans the output directory |
| NotionToTxt.OnePageFixed | notion_to_txt.py:18 | corrected, the same database merges `output_txt/sources/0 - T.txt` into `output_txt/combined.txt` |
| NotionToPdf.Render | notion_extract/notion_to_pdf.py:14-31 | the record keeps its index; it has a path exactly when the page extracted and its renderer completes (the font is available and the document builds), and then the path is the document named after the sanitised title and the title is the page's; otherwise it is the failure record |
| NotionToPdf.ProcessPage | notion_extract/notion_to_pdf.py:12-31 | `process_page`: the record keeps its index; it has a path exactly when the descriptor extracts and the page's renderer completes (font available and document built), that path being the document named after the extracted title; otherwise it is the failure record |
| NotionToPdf.Tasks | notion_extract/notion_to_pdf.py:60-63 | one task per page, task i reporting index i and rendering page i with that page's own renderer outcome |
| NotionToPdf.Pipeline | notion_extract/notion_to_pdf.py:33-85 | no id gives no effects; no pages gives only the clean; the results are in page order; any merge goes to `output/pdf/combined.pdf` with the successful paths |
| NotionToPdf.SuccessfulPathsOfTasks | notion_extract/notion_to_pdf.py:60-78 | the tasks' paths are the documents of exactly the pages that extract and whose renderer completes, in page order |
| NotionToPdf.MergedPathsInPageOrder | notion_extract/notion_to_pdf.py:75-82 | the merge receives the document of every page that extracts and whose renderer completes, in page order, whatever the completion order |
| NotionToPdf.MergesIffSomePageBuilt | notion_extract/notion_to_pdf.py:78-85 | a run merges exactly when it has an id and some page both extracts and has its renderer complete |
| NotionToPdf.BuildFailureIsFailure | pdf_generator.py:21-77 | a page whose font is missing, or whose document build raises, gives the failure record for its index |
| NotionToPdf.FontFailureDropsOnlyThatPage | pdf_generator.py:21-22 | a page whose font check fails is left out of the merge list while the next page's document stays in it |
| NotionToPdf.SharedTitleMergesOneFileTwice | notion_extract/notion_to_pdf.py:78 | two pages titled `a b` and `a?b` put the same document into the merge list twice |
| Retry.RetryFrom | transcript_maker/transcript_generator_parallel.py:102-114 | from any attempt the loop makes at least one more call and at most three in all, pauses once per call but the last, and every call but the last raised |
| Retry.Generate | transcript_maker/transcript_generator_parallel.py:102-114 | 1 to 3 calls and a pause after each raised call but the last; fewer than three calls only when the last one answered; a text comes back exactly when the last call answered with non-empty text, and it is that text |
| Retry.GenerateIsFirstAnswer | transcript_maker/transcript_generator_parallel.py:102-114 | the loop agrees with a plain search for the first answering call: one call more than the leading raised ones, and that answer's text when it is non-empty |
| Retry.EmptyAnswerIsFinal | transcript_maker/transcript_generator_parallel.py:105-107 | an empty first answer ends the loop at once, with no transcript and no pause |
| Retry.ThreeFailuresGiveUp | transcript_maker/transcript_generator_parallel.py:108-114 | three raised calls give no transcript after two pauses |
| Retry.PauseBound | transcript_maker/transcript_generator_parallel.py:109-111 | a request never pauses for more than four seconds in all |
| Prompt.CreatePrompt | transcript_maker/prompt.py:16-58 | the prompt is the template's lines joined by newlines and nothing else: its length is their total plus 41 separators |
| Prompt.PromptLines | transcript_maker/prompt.py:16-58 | the template has 42 lines |
| Prompt.PromptSplit | transcript_maker/prompt.py:16-58 | the prompt is the fixed opening and requirements, item 9's line, item 10's line, then the rules, fenced content and closing |
| Prompt.OpeningLines | transcript_maker/prompt.py:17-18 | the prompt starts with an empty line, then the line naming the topic, then the instruction line with the part note appended |
| Prompt.ContinueItemIff | transcript_maker/prompt.py:42 | item 9 stands at its line exactly when the part number is positive |
| Prompt.TransitionItemIff | transcript_maker/prompt.py:43 | item 10 stands before the rules exactly when the part is not the last |
| Prompt.SinglePartHasNoContinuity | transcript_maker/prompt.py:1-43 | with the defaults (part 0 of 1, no note) neither item 9 nor item 10 appears |
| Prompt.ContentFenced | transcript_maker/prompt.py:52-57 | the content sits on its own line between two `-----------` fences, followed only by the closing instruction |
| Prompt.FixedLines | transcript_maker/prompt.py:16-58 | every line except the topic, note, two continuity and content lines is the same for all arguments |
| TranscriptCommon.FileTopic | transcript_generator.py:52 | the fallback topic is the base name's stem with each `_` turned into a space and every other character kept, so it has no `_` and no `/` |
| TranscriptCommon.ExtractTopic | transcript_generator.py:44-52 | all-whitespace content gives the file topic; otherwise the topic is the first line of the text: non-empty, starting at the first non-blank character, free of newlines, and either followed by a newline with more text after it or ending at the last non-blank character with only whitespace after it; this description fits one string only |
| TranscriptCommon.LeadingLineUnique | transcript_generator.py:47 | the content's first line is determined by the content: two strings that both meet the first-line description are equal |
| TranscriptCommon.TopicFromContent | transcript_generator.py:47 | the first line of the stripped content is the content's leading line |
| TranscriptCommon.TextFiles | transcript_generator.py:23-33 | a missing directory is the error case; otherwise a path is listed exactly when it is the directory joined with a listed name ending in `.txt` |
| TranscriptCommon.TranscriptName | transcript_generator.py:126 | the name is `transcript_`, the stem of the input's base name and `.txt`: it starts and ends so and is exactly 15 characters longer than the stem |
| TranscriptCommon.TranscriptPath | transcript_generator.py:125-126 | the output path is the output directory, `/` and the transcript name (no extra `/` after a directory that ends in one) |
| TranscriptCommon.TranscriptPathCollision | transcript_generator.py:125-126 | two inputs share a transcript file exactly when their base names have the same stem, whatever their directories |
| TranscriptMaker.PartInfo | transcript_maker/transcript_generator_parallel.py:96-98 | the part note is empty exactly when there is at most one part; otherwise it starts with the fixed prefix, the one-based part number and ` of `, ends with the part count and the fixed suffix, and has nothing else between them |
| TranscriptMaker.PartInfoInjective | transcript_maker/transcript_generator_parallel.py:96-98 | for multi-part content, two notes are equal exactly when part number and part count are |
| TranscriptMaker.PartInfoExample | transcript_maker/transcript_generator_parallel.py:98 | the first of three parts is noted as `part 1 of 3` |
| TranscriptMaker.SplitContent | transcript_maker/transcript_generator_parallel.py:74-90 | content up to 6000 characters is one unchanged chunk; longer content is the library's split |
| TranscriptMaker.GenerateChunk | transcript_maker/transcript_generator_parallel.py:92-114 | a chunk request makes between one and three calls, and any text it returns is non-empty |
| TranscriptMaker.ChunkPromptOpening | transcript_maker/transcript_generator_parallel.py:96-101 | a chunk's prompt opens with the topic line and then the instruction line carrying the part note |
| TranscriptMaker.ChunkOutcome | transcript_maker/transcript_generator_parallel.py:105-107 | a chunk's returned text is never empty |
| TranscriptMaker.CombineFrom | transcript_maker/transcript_generator_parallel.py:130-144 | the loop requests at least the chunks it starts from and never more than there are |
| TranscriptMaker.FirstFailure | transcript_maker/transcript_generator_parallel.py:130-136 | reference search: the first chunk that brings no text, with every earlier one bringing one; or none at all |
| TranscriptMaker.CombineFromOutcome | transcript_maker/transcript_generator_parallel.py:128-144 | the loop stops right after the first failing chunk with no transcript; with no failure it requests every chunk and joins all texts with blank lines |
| TranscriptMaker.MultiChunkOutcome | transcript_maker/transcript_generator_parallel.py:116-144 | for multi-chunk content, chunk j is requested with its position and note; the first failing chunk ends the loop with no transcript and no later request; otherwise every chunk is requested and the parts are joined by blank lines |
| TranscriptMaker.GenerateTranscript | transcript_maker/transcript_generator_parallel.py:116-144 | a single chunk makes one request, on the original content with part 0 of 1 and no note, and its text is the transcript; otherwise at most one request per chunk, chunk j with its own content, position and note; every request's calls are the retry loop on its own responses |
| TranscriptMaker.ShortContentIsOneRequest | transcript_maker/transcript_generator_parallel.py:76-77 | content that fits costs exactly one chunk request, whatever the splitter would return |
| TranscriptMaker.TextsJoinNonEmpty | transcript_maker/transcript_generator_parallel.py:144 | joined non-empty parts are never the empty transcript |
| TranscriptMaker.ProcessFile | transcript_maker/transcript_generator_parallel.py:155-186 | empty content is never saved; a saved transcript is non-empty and goes to `output/transcripts-parallel/transcript_<stem>.txt` |
| TranscriptMaker.ShortFileSavedIff | transcript_maker/transcript_generator_parallel.py:155-182 | a short file is saved exactly when it has content and its one request brings a text, and that text is what is saved |
| TranscriptMaker.LongFileSavedIff | transcript_maker/transcript_generator_parallel.py:155-182 | a long file is saved exactly when no chunk fails, and the saved transcript is the chunks' texts joined by blank lines |
| TranscriptParallel.ProcessFile | transcript_generator_parallel.py:103-138 | the record always carries the file's index and path; success holds exactly when there is an output path, and exactly when the content is non-empty and the retry loop brought a text; the path is the transcript path |
| TranscriptParallel.Tasks | transcript_generator_parallel.py:163-166 | one task per listed file, task i reporting index i and file i |
| TranscriptParallel.SuccessCount | transcript_generator_parallel.py:173 | the count never exceeds the number of records |
| TranscriptParallel.SuccessCountPermutation | transcript_generator_parallel.py:168-173 | the count is the same for every completion order |
| TranscriptParallel.Pipeline | transcript_generator_parallel.py:140-180 | a missing input directory is the only error outcome; the run reports no files exactly when the listing has no `.txt` file, and otherwise processes them with the total being the number of listed files; the reported count never exceeds that total |
| TranscriptParallel.SuccessCountOfTasks | transcript_generator_parallel.py:173 | the successes among the tasks from a position on are the files there that have content and bring a text |
| TranscriptParallel.CountIsSuccessfulFiles | transcript_generator_parallel.py:140-173 | with at least one listed `.txt` file the run processes them all, the total is their number, and the reported count is the number of listed files that have content and bring a text, whatever order the tasks finish in |
| TranscriptSequential.ProcessFile | transcript_generator.py:103-134 | a file is saved exactly when it has content and the retry loop brings a text, under its transcript path with that text |
| TranscriptSequential.FirstSuccess | transcript_generator.py:155-159 | reference search: the first file that is saved, every earlier one failing; or none |
| TranscriptSequential.Pipeline | transcript_generator.py:136-164 | a missing directory and an empty listing process nothing, and the run processes files exactly when the listing has a `.txt` file; otherwise the files are processed in order up to and including the first success, which is the only transcript written; the count is 1 then, and 0 with every file processed when none succeeds |

## Left out

- The Notion client, environment loading and `get_database_pages`: network and configuration. The page list is a sequence, the block listing a tree, and a failed listing call is `None`.
- Block ids and pagination: only the first page of children is read, and a node carries its children inline.
- `clean_output_directory`, `os.makedirs` and every file read or write. They are effects: the drivers report `Clean` and `Merge` effects, a written file is a path with a content, and write failures are not modelled.
- `save_transcript` raising inside `process_file`, which would make the file count as failed: writes always succeed in the model.
- The reportlab document building, `merge_pdfs` and the font download of `notion_extract/helper/font_manager.py`: foreign libraries. The content list handed to the builder is modelled; whether each page's font check and document build complete are parameters.
- `notion_extract/helper/pdf_generator.py` is not part of this model. The document driver is modelled with the renderer of `pdf_generator.py`.
- Thread pools, `as_completed` and thread-local models: the completion order is any rearrangement of the task results.
- Gemini calls and `time.sleep`: the model's answers are an oracle sequence per request. Pauses are counted, not taken, and the one-second pause between chunks is not modelled.
- LangChain's recursive splitter: for long content its output is a parameter.
- The inline prompts of `transcript_generator.py` and `transcript_generator_parallel.py`: each is one fixed template around the topic and content, and what the model answers is the oracle.
- `main` of `transcript_maker/transcript_generator_parallel.py` (its thread pool, failed-file list and report): only `process_file` and what it calls are modelled.
- Timing output, logging and every `print`.
- `print_page` of `notion_service.py`.
- The root `notion_service` module that `notion_to_txt.py` imports is not part of this model: it is taken to behave as `notion_extract/helper/notion_service.py`, which `NotionService` follows and `NotionToTxt` uses.
- `tts_generator.py`, `audio_maker/transcript_to_audio.py` and `main.py`: audio synthesis and the interactive menu.
- The root `notion_to_pdf.py`: sequential glue around modules that are not part of this model.
- `dto.py` and `notion_extract/dto/notion_dto.py`: mirrored as the `Dto` datatypes, which have no behaviour.
- TxtGenerator.SafeTitle: `str.isalnum` is taken to be ASCII letters and digits, so a non-ASCII letter becomes `_` here and is kept by Python.
- Text.Capitalize: upper- and lower-casing is ASCII only; other characters are kept as they are.
- TranscriptCommon.TextFiles: states which paths are listed, not their order. The model keeps the listing order, which Python leaves to `os.listdir`.
- Text.Stem: states only that the stem is a prefix of the name. The leading-dot rule of `os.path.splitext` is in the definition, not in a contract.
- Negative indent levels and negative part numbers: depths and positions are natural numbers here, as they are in every call the source makes.

## Findings

| source | as written | input that shows it | evidently intended | confidence | as-written member | corrected member |
|---|---|---|---|---|---|---|
| notion_to_txt.py:18 | `process_page` calls `page_to_txt(page, OUTPUT_DIR)` with two arguments, but the renderer (txt_generator.py:31) requires a third, `index`. Every call raises `TypeError`, the handler records a failure, and nothing is ever merged | a database with one page whose extraction succeeds (id `p1`, title `T`, no blocks) | pass the task's index: the page is written to `output_txt/sources/0 - T.txt` and merged into `output_txt/combined.txt` | high; not executed | NotionToTxt.ProcessPageAsWritten, NotionToTxt.AsWrittenNeverMerges, NotionToTxt.OnePageAsWritten | NotionToTxt.Render, NotionToTxt.MergedPathsInPageOrder, NotionToTxt.OnePageFixed |

Notes on how the model reads the code:

- `merge_txt_files` opens the output before reading any input. It writes the separator before it opens the next input. So a missing input leaves a partial merge on disk: the earlier files and one separator.
- The renderer of `pdf_generator.py` names files by sanitised title only. Two pages whose titles sanitise alike write the same document, and the merge list names it twice (`NotionToPdf.SharedTitleMergesOneFileTwice`).
- The chunk loop's test for a falsy part only ever sees a missing text. The retry loop never returns an empty one (`Retry.Generate`).

=== FILE: dto.dfy ===
/** The two record types every stage passes around (`NotionBlock`,
    `NotionPage`), one flattened content node and one page. */
module Dto {

  /** One emitted content node: its `type` tag as given by the source, its
      non-empty plain text, its nesting depth and the source's
      `has_children` flag. */
  datatype NotionBlock = NotionBlock(kind: string, content: string, indentLevel: nat, hasChildren: bool)

  /** A page: opaque id, display title, blocks in pre-order. */
  datatype NotionPage = NotionPage(id: string, title: string, blocks: seq<NotionBlock>)
}

=== FILE: fanout.dfy ===
/** The shared shape of the two export drivers (`notion_to_txt.py` and
    `notion_extract/notion_to_pdf.py`): one task per page carrying its
    position, results gathered in whatever order the tasks finish, put back
    in page order by their index, and the successful output paths handed
    to a merger. The thread pool itself is not modelled: the completion
    order is any rearrangement of the task results. */
module Fanout {
  import opened Text
  import opened Dto
  import NotionService

  /** What `process_page` returns: the page's position, the file it wrote
      (`None` on failure) and a title for the log. */
  datatype PageResult = PageResult(index: nat, path: Option<string>, title: string)

  /** One entry of the database listing: the page object and its block
      forest as the block listing would deliver it. */
  datatype PageData = PageData(descriptor: NotionService.PageDescriptor, source: Option<seq<NotionService.Node>>)

  /** `extract_page_content` for one listed page. */
  function Extract(data: PageData): Option<NotionPage>
  {
    NotionService.ExtractPageContent(data.descriptor, data.source)
  }

  /** The extraction outcome of every listed page, in listing order. */
  function Extracted(pages: seq<PageData>): (r: seq<Option<NotionPage>>)
    ensures |r| == |pages|
    ensures forall i :: 0 <= i < |pages| ==> r[i] == Extract(pages[i])
  {
    seq(|pages|, i requires 0 <= i < |pages| => Extract(pages[i]))
  }

  const ErrorPrefix := "Error processing page "

  /** The log title of a page whose processing raised: a fixed prefix and
      the page's position in decimal. */
  function FailureTitle(index: nat): (r: string)
    ensures |r| > |ErrorPrefix| && StartsWith(r, ErrorPrefix)
    ensures forall i :: |ErrorPrefix| <= i < |r| ==> IsDigit(r[i])
    ensures DigitsValue(r[|ErrorPrefix|..]) == index
    ensures r[|ErrorPrefix|..] == NatToString(index)
    ensures r[|ErrorPrefix|] == '0' <==> index == 0
  {
    var r := ErrorPrefix + NatToString(index);
    assert r[|ErrorPrefix|..] == NatToString(index);
    NatToStringRoundTrip(index);
    r
  }

  /** Distinct pages fail under distinct titles. */
  lemma FailureTitleInjective(i: nat, j: nat)
    ensures FailureTitle(i) == FailureTitle(j) ==> i == j
  {
  }

  /** The record the exception handler of `process_page` returns. */
  function Failure(index: nat): (r: PageResult)
    ensures r.index == index && r.path.None?
  {
    PageResult(index, None, FailureTitle(index))
  }

  /** Task results listed by position: task i reports index i. */
  predicate InPageOrder(rs: seq<PageResult>)
  {
    forall i :: 0 <= i < |rs| ==> rs[i].index == i
  }

  // ---------------------------------------------------------------------
  // `results.sort(key=lambda x: x["index"])`

  predicate SortedByIndex(s: seq<PageResult>)
  {
    forall i, j :: 0 <= i < j < |s| ==> s[i].index <= s[j].index
  }

  function Insert(x: PageResult, s: seq<PageResult>): (r: seq<PageResult>)
    requires SortedByIndex(s)
    ensures SortedByIndex(r)
    ensures multiset(r) == multiset(s) + multiset{x}
    ensures |r| == |s| + 1
    ensures r[0] == x || (|s| > 0 && r[0] == s[0])
  {
    if |s| == 0 then [x]
    else if x.index <= s[0].index then [x] + s
    else
      var rest := Insert(x, s[1..]);
      assert s == [s[0]] + s[1..];
      [s[0]] + rest
  }

  /** Sorting by index; it keeps every record and puts them in ascending
      index order. */
  function SortByIndex(s: seq<PageResult>): (r: seq<PageResult>)
    ensures SortedByIndex(r)
    ensures multiset(r) == multiset(s)
  {
    if |s| == 0 then []
    else
      var r := Insert(s[0], SortByIndex(s[1..]));
      assert s == [s[0]] + s[1..];
      r
  }

  /** In a list sorted by index, the first element has the least index of
      all its elements. */
  lemma SortedHeadIsLeast(s: seq<PageResult>, x: PageResult)
    requires SortedByIndex(s) && |s| > 0 && x in multiset(s)
    ensures s[0].index <= x.index
  {
    var k :| 0 <= k < |s| && s[k] == x;
    if k > 0 {
      assert s[0].index <= s[k].index;
    }
  }

  /** Under the hypotheses of `SortedPermutationUnique`, both lists start
      with the same record. */
  lemma SameHead(a: seq<PageResult>, b: seq<PageResult>)
    requires SortedByIndex(a)
    requires forall i, j :: 0 <= i < j < |b| ==> b[i].index < b[j].index
    requires multiset(a) == multiset(b)
    requires |a| > 0
    ensures |b| == |a| && b[0] == a[0]
  {
    assert |multiset(a)| == |a| && |multiset(b)| == |b|;
    assert a[0] in multiset(b);
    assert b[0] in multiset(a) by {
      assert b[0] in multiset(b);
    }
    SortedHeadIsLeast(a, b[0]);
    var k :| 0 <= k < |b| && b[k] == a[0];
  }

  /** A sorted rearrangement of a list whose indices strictly increase is
      that list itself. */
  lemma {:induction false} SortedPermutationUnique(a: seq<PageResult>, b: seq<PageResult>)
    requires SortedByIndex(a)
    requires forall i, j :: 0 <= i < j < |b| ==> b[i].index < b[j].index
    requires multiset(a) == multiset(b)
    ensures a == b
  {
    if |a| > 0 {
      SameHead(a, b);
      SameHeadTails(a, b);
      SortedPermutationUnique(a[1..], b[1..]);
      assert a == [a[0]] + a[1..];
      assert b == [b[0]] + b[1..];
    } else {
      assert |multiset(b)| == 0;
    }
  }

  /** Order restoration: however the tasks finish, sorting the collected
      results by index gives them back in page order. */
  lemma SortRestoresPageOrder(completed: seq<PageResult>, tasks: seq<PageResult>)
    requires InPageOrder(tasks)
    requires multiset(completed) == multiset(tasks)
    ensures SortByIndex(completed) == tasks
  {
    SortedPermutationUnique(SortByIndex(completed), tasks);
  }

  // ---------------------------------------------------------------------
  // `[r["path"] for r in results if r["path"] is not None]`

  function SuccessfulPaths(rs: seq<PageResult>): (r: seq<string>)
    ensures |r| <= |rs|
    ensures forall i :: 0 <= i < |rs| && rs[i].path.Some? ==> rs[i].path.value in r
    ensures forall p :: p in r ==> exists i :: 0 <= i < |rs| && rs[i].path == Some(p)
    ensures r == [] <==> forall i :: 0 <= i < |rs| ==> rs[i].path.None?
  {
    if |rs| == 0 then []
    else
      var rest := SuccessfulPaths(rs[1..]);
      assert forall i :: 1 <= i < |rs| ==> rs[i] == rs[1..][i - 1];
      if rs[0].path.Some? then [rs[0].path.value] + rest else rest
  }

  /** Paths are taken block by block: the paths of a concatenation are the
      paths of the first part followed by those of the second, which is what
      keeps them in ascending index order. */
  lemma {:induction false} SuccessfulPathsAppend(a: seq<PageResult>, b: seq<PageResult>)
    ensures SuccessfulPaths(a + b) == SuccessfulPaths(a) + SuccessfulPaths(b)
  {
    if |a| > 0 {
      assert (a + b)[1..] == a[1..] + b;
      SuccessfulPathsAppend(a[1..], b);
    } else {
      assert a + b == b;
    }
  }

  /** Counting: every successful page contributes exactly one path. */
  function SuccessCount(rs: seq<PageResult>): nat
  {
    if |rs| == 0 then 0 else (if rs[0].path.Some? then 1 else 0) + SuccessCount(rs[1..])
  }

  lemma {:induction false} SuccessfulPathsCount(rs: seq<PageResult>)
    ensures |SuccessfulPaths(rs)| == SuccessCount(rs)
  {
    if |rs| > 0 {
      SuccessfulPathsCount(rs[1..]);
    }
  }

  // ---------------------------------------------------------------------
  // The driver skeleton shared by both `main`s.

  /** The side effects a run performs, in order: cleaning the output
      directory, and merging a list of files into a target. */
  datatype Effect = Clean(dir: string) | Merge(paths: seq<string>, target: string)

  /** How a run ends: the database id was missing or empty, the database
      had no pages, or the pages were processed. */
  datatype Status = MissingDatabaseId | NoPages | Processed

  /** A run: its end, its effects, and the results in the order `main`
      keeps them after sorting. */
  datatype Run = Run(status: Status, effects: seq<Effect>, results: seq<PageResult>)

  /** `not database_id` for an environment value that may be unset. */
  predicate HasDatabaseId(databaseId: Option<string>)
  {
    databaseId.Some? && databaseId.value != ""
  }

  /** The body of `main` after the tasks ran. `tasks` are the results in
      page order, `completed` the same results in completion order. */
  function Drive(databaseId: Option<string>, tasks: seq<PageResult>, completed: seq<PageResult>,
                 outputDir: string, target: string): (r: Run)
    requires HasDatabaseId(databaseId) ==> InPageOrder(tasks) && multiset(completed) == multiset(tasks)
    ensures r.status == MissingDatabaseId <==> !HasDatabaseId(databaseId)
    ensures r.status == MissingDatabaseId ==> r.effects == [] && r.results == []
    ensures r.status == NoPages <==> HasDatabaseId(databaseId) && |tasks| == 0
    ensures r.status == NoPages ==> r.effects == [Clean(outputDir)]
    ensures r.status == Processed ==> r.results == tasks
    ensures r.status == Processed ==>
              var paths := SuccessfulPaths(tasks);
              r.effects == [Clean(outputDir)] + (if paths == [] then [] else [Merge(paths, target)])
  {
    if !HasDatabaseId(databaseId) then Run(MissingDatabaseId, [], [])
    else if |tasks| == 0 then Run(NoPages, [Clean(outputDir)], [])
    else
      var results := SortByIndex(completed);
      SortRestoresPageOrder(completed, tasks);
      var paths := SuccessfulPaths(results);
      Run(Processed, [Clean(outputDir)] + (if paths == [] then [] else [Merge(paths, target)]), results)
  }

  /** Whether a run merges anything. */
  predicate Merges(r: Run)
  {
    exists e :: e in r.effects && e.Merge?
  }

  /** The effects of a run that got past the page listing. */
  lemma ProcessedEffects(databaseId: Option<string>, tasks: seq<PageResult>, completed: seq<PageResult>,
                         outputDir: string, target: string)
    requires HasDatabaseId(databaseId) ==> InPageOrder(tasks) && multiset(completed) == multiset(tasks)
    ensures var r := Drive(databaseId, tasks, completed, outputDir, target);
            r.effects == if !HasDatabaseId(databaseId) then []
                         else if SuccessfulPaths(tasks) == [] then [Clean(outputDir)]
                         else [Clean(outputDir), Merge(SuccessfulPaths(tasks), target)]
  {
    if HasDatabaseId(databaseId) && |tasks| == 0 {
      assert SuccessfulPaths(tasks) == [];
    }
  }

  /** Nothing is merged unless at least one page produced a file. */
  lemma MergeIffSomeSuccess(databaseId: Option<string>, tasks: seq<PageResult>, completed: seq<PageResult>,
                            outputDir: string, target: string)
    requires HasDatabaseId(databaseId) ==> InPageOrder(tasks) && multiset(completed) == multiset(tasks)
    ensures Merges(Drive(databaseId, tasks, completed, outputDir, target))
            <==> HasDatabaseId(databaseId) && exists i :: 0 <= i < |tasks| && tasks[i].path.Some?
  {
    ProcessedEffects(databaseId, tasks, completed, outputDir, target);
    var r := Drive(databaseId, tasks, completed, outputDir, target);
    if HasDatabaseId(databaseId) && SuccessfulPaths(tasks) != [] {
      assert r.effects[1] in r.effects;
    }
  }

  /** What is merged is exactly the successful files, in page order, one
      per successful page. */
  lemma MergedPathsAreSuccesses(databaseId: Option<string>, tasks: seq<PageResult>, completed: seq<PageResult>,
                                outputDir: string, target: string)
    requires HasDatabaseId(databaseId) ==> InPageOrder(tasks) && multiset(completed) == multiset(tasks)
    ensures forall e :: e in Drive(databaseId, tasks, completed, outputDir, target).effects && e.Merge? ==>
              e == Merge(SuccessfulPaths(tasks), target) && |e.paths| == SuccessCount(tasks)
  {
    ProcessedEffects(databaseId, tasks, completed, outputDir, target);
    SuccessfulPathsCount(tasks);
  }
}

=== FILE: notion_service.dfy ===
/** Flattening a page's block tree into the ordered, indented block list
    (`extract_block_content`, `extract_blocks`, the title logic of
    `extract_page_content`). The remote children listing is replaced by a
    rose tree whose nodes carry their own first page of children. */
module NotionService {
  import opened Text
  import opened Dto

  /** A rich-text span; only its `plain_text` key is read. */
  datatype Span = Span(plainText: Option<string>)

  /** The object stored under a block's type-named key: its optional
      `rich_text` and `text` span lists and its optional `title`. */
  datatype Payload = Payload(richText: Option<seq<Span>>, text: Option<seq<Span>>, title: Option<string>)

  /** A block as the children listing returns it. `kind` is the `type`
      value ("" when absent); `payload` is the value under the key named by
      `kind`, if the block has such a key; `children` is the first page of
      results of the listing call for this block, and is read only when
      `hasChildren` is set. */
  datatype Node = Node(kind: string, payload: Option<Payload>, hasChildren: bool, children: seq<Node>)

  /** `span.get("plain_text", "")` */
  function SpanText(s: Span): string
  {
    if s.plainText.Some? then s.plainText.value else ""
  }

  /** The spans' plain texts joined with single spaces. */
  function JoinSpans(spans: seq<Span>): string
  {
    Join(" ", seq(|spans|, i requires 0 <= i < |spans| => SpanText(spans[i])))
  }

  /** When a span list yields no text: no spans, or a single span whose
      text is empty. Two empty spans already give the one-space string. */
  predicate SpansBlank(spans: seq<Span>)
  {
    |spans| == 0 || (|spans| == 1 && SpanText(spans[0]) == "")
  }

  /** The cases in which a block has no content, stated case by case from
      the precedence rich_text, then text, then a child page's title. */
  predicate HasNoContent(n: Node)
  {
    match n.payload
    case None => true
    case Some(p) =>
      if p.richText.Some? then SpansBlank(p.richText.value)
      else if p.text.Some? then SpansBlank(p.text.value)
      else n.kind != "child_page" || p.title.None? || p.title.value == ""
  }

  /** The text of one block. */
  function ExtractBlockContent(n: Node): (r: string)
    ensures n.payload.None? ==> r == ""
    ensures r == "" <==> HasNoContent(n)
    ensures n.payload.Some? && n.payload.value.richText.Some? ==> r == JoinSpans(n.payload.value.richText.value)
    ensures n.payload.Some? && n.payload.value.richText.None? && n.payload.value.text.Some? ==>
              r == JoinSpans(n.payload.value.text.value)
    ensures n.payload.Some? && n.payload.value.richText.None? && n.payload.value.text.None? ==>
              r == (if n.kind == "child_page" && n.payload.value.title.Some? then n.payload.value.title.value else "")
  {
    match n.payload
    case None => ""
    case Some(p) =>
      if p.richText.Some? then
        JoinEmptyIff(" ", seq(|p.richText.value|, i requires 0 <= i < |p.richText.value| => SpanText(p.richText.value[i])));
        JoinSpans(p.richText.value)
      else if p.text.Some? then
        JoinEmptyIff(" ", seq(|p.text.value|, i requires 0 <= i < |p.text.value| => SpanText(p.text.value[i])));
        JoinSpans(p.text.value)
      else if n.kind == "child_page" then
        (if p.title.Some? then p.title.value else "")
      else ""
  }

  /** `rich_text` wins over `text`: whatever the `text` list holds, a block
      with a `rich_text` list gets the same content. */
  lemma RichTextTakesPrecedence(n: Node, other: Option<seq<Span>>)
    requires n.payload.Some? && n.payload.value.richText.Some?
    ensures ExtractBlockContent(n) == ExtractBlockContent(n.(payload := Some(n.payload.value.(text := other))))
    ensures ExtractBlockContent(n) == JoinSpans(n.payload.value.richText.value)
  {
  }

  /** The block emitted for one node at a given depth: exactly one when its
      content is non-empty, carrying that content, the node's type and its
      `has_children` flag; none otherwise. */
  function Emitted(n: Node, depth: nat): (r: seq<NotionBlock>)
    ensures |r| <= 1
    ensures |r| == 1 <==> ExtractBlockContent(n) != ""
    ensures |r| == 1 ==> r[0].content != "" && r[0].indentLevel == depth && r[0].kind == n.kind
    ensures |r| == 1 ==> r[0] == NotionBlock(n.kind, ExtractBlockContent(n), depth, n.hasChildren)
  {
    var c := ExtractBlockContent(n);
    if c != "" then [NotionBlock(n.kind, c, depth, n.hasChildren)] else []
  }

  /** `extract_blocks`: each node's own block, then (when it has children)
      its children's blocks one level deeper, then the following siblings. */
  function ExtractBlocks(ns: seq<Node>, indent: nat): (r: seq<NotionBlock>)
    ensures forall i :: 0 <= i < |r| ==> r[i].content != ""
    ensures forall i :: 0 <= i < |r| ==> r[i].indentLevel >= indent
    decreases ns
  {
    if |ns| == 0 then []
    else
      var n := ns[0];
      var own := Emitted(n, indent);
      var below := if n.hasChildren then ExtractBlocks(n.children, indent + 1) else [];
      var rest := ExtractBlocks(ns[1..], indent);
      BlocksAppend(own, below, rest, indent);
      own + below + rest
  }

  /** Non-empty blocks at or below a level stay so when concatenated. */
  lemma BlocksAppend(a: seq<NotionBlock>, b: seq<NotionBlock>, c: seq<NotionBlock>, indent: nat)
    requires forall i :: 0 <= i < |a| ==> a[i].content != "" && a[i].indentLevel >= indent
    requires forall i :: 0 <= i < |b| ==> b[i].content != "" && b[i].indentLevel >= indent
    requires forall i :: 0 <= i < |c| ==> c[i].content != "" && c[i].indentLevel >= indent
    ensures forall i :: 0 <= i < |a + b + c| ==> (a + b + c)[i].content != "" && (a + b + c)[i].indentLevel >= indent
  {
  }

  /** A node whose own content is empty still contributes its children, one
      level deeper. */
  lemma EmptyParentStillDescends(n: Node, indent: nat)
    requires ExtractBlockContent(n) == "" && n.hasChildren
    ensures ExtractBlocks([n], indent) == ExtractBlocks(n.children, indent + 1)
  {
    assert Emitted(n, indent) == [];
    assert [n][1..] == [];
    assert ExtractBlocks([n][1..], indent) == [];
  }

  /** Without `has_children` the children are never listed. */
  lemma ChildrenIgnoredWithoutFlag(n: Node, indent: nat, others: seq<Node>)
    requires !n.hasChildren
    ensures ExtractBlocks([n], indent) == ExtractBlocks([n.(children := others)], indent)
    ensures ExtractBlocks([n], indent) == Emitted(n, indent)
  {
    assert [n][1..] == [];
    assert [n.(children := others)][1..] == [];
  }

  // ---------------------------------------------------------------------
  // Reference traversal: every node the walk reaches, with its path.

  /** A position in the forest: `[i]` is the i-th top-level node, `[i] + q`
      is position `q` among the children of the i-th node. A path is
      reached when every node strictly above its end has `has_children`. */
  predicate Reached(ns: seq<Node>, p: seq<nat>)
    decreases ns
  {
    |p| > 0 && p[0] < |ns|
    && (|p| == 1 || (ns[p[0]].hasChildren && Reached(ns[p[0]].children, p[1..])))
  }

  function NodeAt(ns: seq<Node>, p: seq<nat>): Node
    requires Reached(ns, p)
    decreases ns
  {
    if |p| == 1 then ns[p[0]] else NodeAt(ns[p[0]].children, p[1..])
  }

  /** Lexicographic order on paths, which is pre-order on positions: an
      ancestor (a proper prefix) comes first, earlier siblings come first. */
  predicate LexLess(p: seq<nat>, q: seq<nat>)
  {
    |q| > 0 && (|p| == 0 || p[0] < q[0] || (p[0] == q[0] && LexLess(p[1..], q[1..])))
  }

  lemma {:induction false} LexLessIrreflexive(p: seq<nat>)
    ensures !LexLess(p, p)
  {
    if |p| > 0 {
      LexLessIrreflexive(p[1..]);
    }
  }

  datatype Visit = Visit(path: seq<nat>, node: Node, depth: nat)

  function Bump(p: seq<nat>): seq<nat>
  {
    if |p| == 0 then p else [p[0] + 1] + p[1..]
  }

  /** Paths relative to a child list, re-rooted under the i-th node. */
  function Under(i: nat, vs: seq<Visit>): (r: seq<Visit>)
    ensures |r| == |vs|
    ensures forall k :: 0 <= k < |vs| ==> r[k] == vs[k].(path := [i] + vs[k].path)
  {
    seq(|vs|, k requires 0 <= k < |vs| => vs[k].(path := [i] + vs[k].path))
  }

  /** Paths relative to `ns[1..]`, re-rooted at `ns`. */
  function Shift(vs: seq<Visit>): (r: seq<Visit>)
    ensures |r| == |vs|
    ensures forall k :: 0 <= k < |vs| ==> r[k] == vs[k].(path := Bump(vs[k].path))
  {
    seq(|vs|, k requires 0 <= k < |vs| => vs[k].(path := Bump(vs[k].path)))
  }

  /** Every node the walk reaches, in visiting order, with its path and the
      depth the walk assigns it. */
  function Visits(ns: seq<Node>, depth: nat): seq<Visit>
    decreases ns
  {
    if |ns| == 0 then []
    else
      var n := ns[0];
      [Visit([0], n, depth)]
      + (if n.hasChildren then Under(0, Visits(n.children, depth + 1)) else [])
      + Shift(Visits(ns[1..], depth))
  }

  /** What a visit entry must satisfy: its path is reached, names its node,
      and its depth is the starting depth plus the number of levels below
      the top of the forest. */
  predicate SoundVisit(ns: seq<Node>, depth: nat, v: Visit)
  {
    Reached(ns, v.path) && NodeAt(ns, v.path) == v.node && v.depth == depth + |v.path| - 1
  }

  lemma ReachedBump(ns: seq<Node>, p: seq<nat>)
    requires |ns| > 0 && Reached(ns[1..], p)
    ensures Reached(ns, Bump(p)) && NodeAt(ns, Bump(p)) == NodeAt(ns[1..], p)
  {
    var q := Bump(p);
    assert q[0] == p[0] + 1 && q[1..] == p[1..];
    assert ns[q[0]] == ns[1..][p[0]];
  }

  /** Every entry of the walk is a reached node at the right depth. */
  lemma {:induction false} VisitsSound(ns: seq<Node>, depth: nat)
    ensures forall k :: 0 <= k < |Visits(ns, depth)| ==> SoundVisit(ns, depth, Visits(ns, depth)[k])
    decreases ns
  {
    if |ns| > 0 {
      var n := ns[0];
      var inner := if n.hasChildren then Visits(n.children, depth + 1) else [];
      var rest := Visits(ns[1..], depth);
      assert Visits(ns, depth) == [Visit([0], n, depth)] + Under(0, inner) + Shift(rest);
      if n.hasChildren {
        VisitsSound(n.children, depth + 1);
      }
      VisitsSound(ns[1..], depth);
      SoundStep(ns, depth, inner, rest);
    }
  }

  /** Every entry of `vs` is sound for the forest `ns`. */
  predicate AllSound(ns: seq<Node>, depth: nat, vs: seq<Visit>)
  {
    forall k :: 0 <= k < |vs| ==> SoundVisit(ns, depth, vs[k])
  }

  lemma AllSoundAppend(ns: seq<Node>, depth: nat, a: seq<Visit>, b: seq<Visit>)
    requires AllSound(ns, depth, a) && AllSound(ns, depth, b)
    ensures AllSound(ns, depth, a + b)
  {
    forall k | 0 <= k < |a + b|
      ensures SoundVisit(ns, depth, (a + b)[k])
    {
      if k < |a| {
        assert (a + b)[k] == a[k];
      } else {
        assert (a + b)[k] == b[k - |a|];
      }
    }
  }

  /** One step of the walk keeps every entry sound: the node itself, its
      subtree re-rooted under position 0, the later siblings shifted by one. */
  lemma SoundStep(ns: seq<Node>, depth: nat, inner: seq<Visit>, rest: seq<Visit>)
    requires |ns| > 0
    requires !ns[0].hasChildren ==> inner == []
    requires AllSound(ns[0].children, depth + 1, inner)
    requires AllSound(ns[1..], depth, rest)
    ensures AllSound(ns, depth, [Visit([0], ns[0], depth)] + Under(0, inner) + Shift(rest))
  {
    var head := [Visit([0], ns[0], depth)];
    assert AllSound(ns, depth, head);
    forall k | 0 <= k < |inner|
      ensures SoundVisit(ns, depth, Under(0, inner)[k])
    {
      SoundBelow(ns, depth, inner[k]);
    }
    forall k | 0 <= k < |rest|
      ensures SoundVisit(ns, depth, Shift(rest)[k])
    {
      SoundRest(ns, depth, rest[k]);
    }
    AllSoundAppend(ns, depth, head, Under(0, inner));
    AllSoundAppend(ns, depth, head + Under(0, inner), Shift(rest));
  }

  /** A sound entry of the first node's subtree, re-rooted under position 0. */
  lemma SoundBelow(ns: seq<Node>, depth: nat, w: Visit)
    requires |ns| > 0 && ns[0].hasChildren && SoundVisit(ns[0].children, depth + 1, w)
    ensures SoundVisit(ns, depth, w.(path := [0] + w.path))
  {
    assert ([0] + w.path)[1..] == w.path;
  }

  /** A sound entry of the later siblings, shifted one sibling on. */
  lemma SoundRest(ns: seq<Node>, depth: nat, w: Visit)
    requires |ns| > 0 && SoundVisit(ns[1..], depth, w)
    ensures SoundVisit(ns, depth, w.(path := Bump(w.path)))
  {
    ReachedBump(ns, w.path);
  }

  /** Every reached node appears in the walk. */
  lemma {:induction false} VisitsComplete(ns: seq<Node>, depth: nat, p: seq<nat>)
    requires Reached(ns, p)
    ensures exists k :: 0 <= k < |Visits(ns, depth)| && Visits(ns, depth)[k].path == p
    decreases ns
  {
    if p[0] == 0 && |p| == 1 {
      assert Visits(ns, depth)[0].path == p;
    } else if p[0] == 0 {
      VisitsCompleteBelow(ns, depth, p);
    } else {
      VisitsCompleteRest(ns, depth, p);
    }
  }

  lemma {:induction false} VisitsCompleteBelow(ns: seq<Node>, depth: nat, p: seq<nat>)
    requires Reached(ns, p) && p[0] == 0 && |p| > 1
    ensures exists k :: 0 <= k < |Visits(ns, depth)| && Visits(ns, depth)[k].path == p
    decreases ns, 0
  {
    var n := ns[0];
    var inner := Visits(n.children, depth + 1);
    var vs := Visits(ns, depth);
    assert vs == [Visit([0], n, depth)] + Under(0, inner) + Shift(Visits(ns[1..], depth));
    VisitsComplete(n.children, depth + 1, p[1..]);
    var j :| 0 <= j < |inner| && inner[j].path == p[1..];
    UnderAtFront(Visit([0], n, depth), inner, Shift(Visits(ns[1..], depth)), j);
    assert [0] + p[1..] == p;
  }

  lemma UnderAtFront(first: Visit, inner: seq<Visit>, tail: seq<Visit>, j: nat)
    requires j < |inner|
    ensures ([first] + Under(0, inner) + tail)[1 + j].path == [0] + inner[j].path
  {
  }

  lemma {:induction false} VisitsCompleteRest(ns: seq<Node>, depth: nat, p: seq<nat>)
    requires Reached(ns, p) && p[0] > 0
    ensures exists k :: 0 <= k < |Visits(ns, depth)| && Visits(ns, depth)[k].path == p
    decreases ns, 0
  {
    var q := [p[0] - 1] + p[1..];
    ReachedRest(ns, p);
    VisitsComplete(ns[1..], depth, q);
    RestInWhole(ns, depth, q);
    BumpBack(p);
  }

  /** A position listed by the walk of the later siblings is listed, moved
      one sibling on, by the walk of the whole forest. */
  lemma RestInWhole(ns: seq<Node>, depth: nat, q: seq<nat>)
    requires |ns| > 0
    requires exists j :: 0 <= j < |Visits(ns[1..], depth)| && Visits(ns[1..], depth)[j].path == q
    ensures exists k :: 0 <= k < |Visits(ns, depth)| && Visits(ns, depth)[k].path == Bump(q)
  {
    var rest := Visits(ns[1..], depth);
    var j :| 0 <= j < |rest| && rest[j].path == q;
    VisitsRestAt(ns, depth, j);
  }

  lemma ReachedRest(ns: seq<Node>, p: seq<nat>)
    requires Reached(ns, p) && p[0] > 0
    ensures Reached(ns[1..], [p[0] - 1] + p[1..])
  {
    var q := [p[0] - 1] + p[1..];
    assert q[1..] == p[1..];
    assert ns[1..][q[0]] == ns[p[0]];
  }

  /** The walk of the later siblings sits at the end of the walk, each path
      moved one sibling on. */
  lemma VisitsRestAt(ns: seq<Node>, depth: nat, j: nat)
    requires |ns| > 0 && j < |Visits(ns[1..], depth)|
    ensures var vs := Visits(ns, depth);
            var rest := Visits(ns[1..], depth);
            |rest| <= |vs| && vs[|vs| - |rest| + j].path == Bump(rest[j].path)
  {
    var n := ns[0];
    var below := if n.hasChildren then Under(0, Visits(n.children, depth + 1)) else [];
    var rest := Visits(ns[1..], depth);
    var vs := Visits(ns, depth);
    var head := [Visit([0], n, depth)] + below;
    assert vs == head + Shift(rest);
    ShiftAtEnd(head, rest, j);
  }

  lemma ShiftAtEnd(head: seq<Visit>, rest: seq<Visit>, j: nat)
    requires j < |rest|
    ensures (head + Shift(rest))[|head| + j].path == Bump(rest[j].path)
  {
  }

  lemma BumpBack(p: seq<nat>)
    requires |p| > 0 && p[0] > 0
    ensures Bump([p[0] - 1] + p[1..]) == p
  {
    var q := [p[0] - 1] + p[1..];
    assert q[1..] == p[1..];
  }

  lemma LexLessUnder(i: nat, p: seq<nat>, q: seq<nat>)
    requires LexLess(p, q)
    ensures LexLess([i] + p, [i] + q)
  {
    assert ([i] + p)[1..] == p && ([i] + q)[1..] == q;
  }

  lemma LexLessBump(p: seq<nat>, q: seq<nat>)
    requires LexLess(p, q)
    ensures LexLess(Bump(p), Bump(q))
  {
    if |p| > 0 {
      assert Bump(p)[1..] == p[1..] && Bump(q)[1..] == q[1..];
    }
  }

  /** Every path the walk lists is non-empty. */
  lemma VisitPathsNonEmpty(ns: seq<Node>, depth: nat)
    ensures forall k :: 0 <= k < |Visits(ns, depth)| ==> |Visits(ns, depth)[k].path| > 0
  {
    VisitsSound(ns, depth);
  }

  predicate PathsIncrease(vs: seq<Visit>)
  {
    forall i, j :: 0 <= i < j < |vs| ==> LexLess(vs[i].path, vs[j].path)
  }

  predicate PathsNonEmpty(vs: seq<Visit>)
  {
    forall k :: 0 <= k < |vs| ==> |vs[k].path| > 0
  }

  /** One step of the walk keeps paths increasing: the node itself, then its
      subtree under position 0, then the later siblings shifted by one. */
  lemma PreorderStep(n: Node, depth: nat, inner: seq<Visit>, rest: seq<Visit>)
    requires PathsIncrease(inner) && PathsNonEmpty(inner)
    requires PathsIncrease(rest) && PathsNonEmpty(rest)
    ensures PathsIncrease([Visit([0], n, depth)] + Under(0, inner) + Shift(rest))
  {
    var below := Under(0, inner);
    var vs := [Visit([0], n, depth)] + below + Shift(rest);
    var b := 1 + |below|;
    forall i, j | 0 <= i < j < |vs|
      ensures LexLess(vs[i].path, vs[j].path)
    {
      if j < b {
        var wj := inner[j - 1];
        assert vs[j].path == [0] + wj.path;
        if i == 0 {
          assert vs[j].path[1..] == wj.path;
        } else {
          assert vs[i].path == [0] + inner[i - 1].path;
          LexLessUnder(0, inner[i - 1].path, wj.path);
        }
      } else {
        var wj := rest[j - b];
        assert vs[j].path == Bump(wj.path);
        if i == 0 {
        } else if i < b {
          assert vs[i].path == [0] + inner[i - 1].path;
        } else {
          assert vs[i].path == Bump(rest[i - b].path);
          LexLessBump(rest[i - b].path, wj.path);
        }
      }
    }
  }

  /** The walk lists paths in strictly increasing lexicographic order: it is
      a pre-order walk, and no position is listed twice. */
  lemma {:induction false} VisitsPreorder(ns: seq<Node>, depth: nat)
    ensures forall i, j :: 0 <= i < j < |Visits(ns, depth)| ==>
              LexLess(Visits(ns, depth)[i].path, Visits(ns, depth)[j].path)
    decreases ns
  {
    if |ns| > 0 {
      var n := ns[0];
      var inner := if n.hasChildren then Visits(n.children, depth + 1) else [];
      var rest := Visits(ns[1..], depth);
      assert Visits(ns, depth) == [Visit([0], n, depth)] + Under(0, inner) + Shift(rest);
      if n.hasChildren {
        VisitsPreorder(n.children, depth + 1);
        VisitPathsNonEmpty(n.children, depth + 1);
      }
      VisitsPreorder(ns[1..], depth);
      VisitPathsNonEmpty(ns[1..], depth);
      PreorderStep(n, depth, inner, rest);
    }
  }

  /** The blocks a sequence of visits emits, in order. */
  function Emit(vs: seq<Visit>): seq<NotionBlock>
  {
    if |vs| == 0 then [] else Emitted(vs[0].node, vs[0].depth) + Emit(vs[1..])
  }

  lemma {:induction false} EmitAppend(a: seq<Visit>, b: seq<Visit>)
    ensures Emit(a + b) == Emit(a) + Emit(b)
  {
    if |a| == 0 {
      assert a + b == b;
    } else {
      assert (a + b)[0] == a[0];
      assert (a + b)[1..] == a[1..] + b;
      EmitAppend(a[1..], b);
    }
  }

  /** Emission looks at nodes and depths only, never at paths. */
  lemma {:induction false} EmitIgnoresPaths(vs: seq<Visit>, ws: seq<Visit>)
    requires |vs| == |ws|
    requires forall k :: 0 <= k < |vs| ==> vs[k].node == ws[k].node && vs[k].depth == ws[k].depth
    ensures Emit(vs) == Emit(ws)
  {
    if |vs| > 0 {
      EmitIgnoresPaths(vs[1..], ws[1..]);
    }
  }

  /** `extract_blocks` is exactly the walk with empty-content nodes dropped. */
  lemma {:induction false} ExtractIsEmitOfVisits(ns: seq<Node>, depth: nat)
    ensures ExtractBlocks(ns, depth) == Emit(Visits(ns, depth))
    decreases ns
  {
    if |ns| > 0 {
      var n := ns[0];
      var inner := if n.hasChildren then Visits(n.children, depth + 1) else [];
      var below := if n.hasChildren then Under(0, inner) else [];
      var rest := Visits(ns[1..], depth);
      var head := [Visit([0], n, depth)];
      assert Visits(ns, depth) == head + below + Shift(rest);
      EmitAppend(head + below, Shift(rest));
      EmitAppend(head, below);
      assert Emit(head) == Emitted(n, depth) by {
        assert head[1..] == [];
      }
      EmitIgnoresPaths(below, inner);
      EmitIgnoresPaths(Shift(rest), rest);
      if n.hasChildren {
        ExtractIsEmitOfVisits(n.children, depth + 1);
      }
      ExtractIsEmitOfVisits(ns[1..], depth);
    }
  }

  /** The whole flattening contract for a page's forest: the emitted blocks
      are the non-empty nodes among exactly the reached positions, listed in
      pre-order, each at its nesting depth (top level 0). */
  lemma ExtractionIsPreorderWalk(ns: seq<Node>)
    ensures ExtractBlocks(ns, 0) == Emit(Visits(ns, 0))
    ensures forall k :: 0 <= k < |Visits(ns, 0)| ==>
              Reached(ns, Visits(ns, 0)[k].path)
              && NodeAt(ns, Visits(ns, 0)[k].path) == Visits(ns, 0)[k].node
              && Visits(ns, 0)[k].depth == |Visits(ns, 0)[k].path| - 1
    ensures forall p :: Reached(ns, p) ==>
              exists k :: 0 <= k < |Visits(ns, 0)| && Visits(ns, 0)[k].path == p
    ensures forall i, j :: 0 <= i < j < |Visits(ns, 0)| ==>
              LexLess(Visits(ns, 0)[i].path, Visits(ns, 0)[j].path)
  {
    ExtractIsEmitOfVisits(ns, 0);
    VisitsSound(ns, 0);
    VisitsPreorder(ns, 0);
    forall p | Reached(ns, p)
      ensures exists k :: 0 <= k < |Visits(ns, 0)| && Visits(ns, 0)[k].path == p
    {
      VisitsComplete(ns, 0, p);
    }
  }

  // ---------------------------------------------------------------------
  // Pages.

  /** The `Name` property: its `title` span list, when present. */
  datatype NameProperty = NameProperty(title: Option<seq<Span>>)

  /** The page's `properties` object: its `Name` entry, when present. */
  datatype Properties = Properties(name: Option<NameProperty>)

  /** A database page descriptor: its `id` and `properties`, either of
      which may be missing. */
  datatype PageDescriptor = PageDescriptor(id: Option<string>, properties: Option<Properties>)

  const DefaultTitle := "Untitled"

  /** True when the whole key chain properties / Name / title is present
      (and the title list is what gets indexed). */
  predicate HasTitleList(d: PageDescriptor)
  {
    d.properties.Some? && d.properties.value.name.Some? && d.properties.value.name.value.title.Some?
  }

  /** The title lookup. `None` is the exception raised by indexing an empty
      title list. */
  function PageTitle(d: PageDescriptor): (r: Option<string>)
    ensures r.None? <==> HasTitleList(d) && |d.properties.value.name.value.title.value| == 0
    ensures !HasTitleList(d) ==> r == Some(DefaultTitle)
    ensures HasTitleList(d) && |d.properties.value.name.value.title.value| > 0 ==>
              var first := d.properties.value.name.value.title.value[0];
              r == Some(if first.plainText.Some? then first.plainText.value else DefaultTitle)
  {
    // a missing key anywhere on the chain yields the one-element list [{}]
    var spans := if HasTitleList(d) then d.properties.value.name.value.title.value else [Span(None)];
    if |spans| == 0 then None
    else Some(if spans[0].plainText.Some? then spans[0].plainText.value else DefaultTitle)
  }

  /** `extract_page_content`. `source` is the page's child forest, or
      `None` when a listing call raised; every exception (a missing `id`,
      an empty title list, a failed listing) turns into `None`. */
  function ExtractPageContent(d: PageDescriptor, source: Option<seq<Node>>): (r: Option<NotionPage>)
    ensures r.Some? <==> d.id.Some? && PageTitle(d).Some? && source.Some?
    ensures r.Some? ==> r.value.id == d.id.value && r.value.title == PageTitle(d).value
    ensures r.Some? ==> r.value.blocks == ExtractBlocks(source.value, 0)
    ensures r.Some? ==> forall i :: 0 <= i < |r.value.blocks| ==> r.value.blocks[i].content != ""
  {
    if d.id.None? then None
    else
      match PageTitle(d)
      case None => None
      case Some(title) =>
        match source
        case None => None
        case Some(ns) => Some(NotionPage(d.id.value, title, ExtractBlocks(ns, 0)))
  }
}

=== FILE: notion_to_pdf.dfy ===
/** The document export driver (`notion_extract/notion_to_pdf.py`): each
    database page is rendered to a document by a task of its own, the
    results are put back in page order and the written documents are merged
    into `output/pdf/combined.pdf`. The renderer is the one of
    `pdf_generator.py`; what the libraries behind it do for each page (the
    font check and the document build) is a parameter, one per page. */
module NotionToPdf {
  import opened Text
  import opened Dto
  import PdfGenerator
  import TxtGenerator
  import opened Fanout

  const OutputDir := "output/pdf"

  /** Where the merged document goes. */
  const CombinedPath := OutputDir + "/combined.pdf"

  /** What the libraries do while one page is rendered: whether its font
      check passes, and whether the document builder accepts its content. */
  datatype RenderRun = RenderRun(fontAvailable: bool, builds: bool)

  /** The renderer returns normally: the font is there and the document
      is built. */
  predicate Completes(run: RenderRun)
  {
    run.fontAvailable && run.builds
  }

  /** The `try` block of `process_page` after extraction. `None` has no
      title, so the renderer raises on it; a missing font and a failed
      build raise too; all of them land in the handler as the failure
      record. */
  function Render(page: Option<NotionPage>, index: nat, run: RenderRun): (r: PageResult)
    ensures r.index == index
    ensures r.path.Some? <==> page.Some? && Completes(run)
    ensures r.path.Some? ==> r.title == page.value.title
    ensures r.path.Some? ==> r.path.value == PdfGenerator.PdfPath(OutputDir, page.value.title)
    ensures r.path.None? ==> r == Failure(index)
  {
    match page
    case None => Failure(index)
    case Some(p) =>
      match PdfGenerator.PageToPdf(p, OutputDir, run.fontAvailable, run.builds)
      case FontMissing => Failure(index)
      case BuildFailed => Failure(index)
      case Built(path, _) => PageResult(index, Some(path), p.title)
  }

  /** `process_page`: the page is extracted and, when that works and its
      renderer completes, written to the document named after its
      sanitised title; every other outcome is the failure record. */
  function ProcessPage(data: PageData, index: nat, run: RenderRun): (r: PageResult)
    ensures r.index == index
    ensures r.path.Some? <==> Extract(data).Some? && Completes(run)
    ensures r.path.Some? ==> r.path.value == PdfGenerator.PdfPath(OutputDir, Extract(data).value.title)
                             && r.title == Extract(data).value.title
    ensures r.path.None? ==> r == Failure(index)
  {
    Render(Extract(data), index, run)
  }

  /** A page that extracts but whose document fails to build gets the
      failure record, just as one whose font is missing. */
  lemma BuildFailureIsFailure(page: NotionPage, index: nat)
    ensures Render(Some(page), index, RenderRun(true, false)) == Failure(index)
    ensures Render(Some(page), index, RenderRun(false, true)) == Failure(index)
  {
  }

  /** One task per page, submitted with the page's position. `runs[i]` is
      what the libraries do while page i is rendered: every page's renderer
      checks the font and builds its document on its own. */
  function Tasks(pages: seq<Option<NotionPage>>, runs: seq<RenderRun>): (r: seq<PageResult>)
    requires |runs| == |pages|
    ensures |r| == |pages| && InPageOrder(r)
    ensures forall i :: 0 <= i < |pages| ==> r[i] == Render(pages[i], i, runs[i])
  {
    TasksFrom(pages, runs, 0)
  }

  /** The tasks for `pages` when the first of them sits at position `from`. */
  function TasksFrom(pages: seq<Option<NotionPage>>, runs: seq<RenderRun>, from: nat): (r: seq<PageResult>)
    requires |runs| == |pages|
    ensures |r| == |pages|
    ensures forall i :: 0 <= i < |pages| ==> r[i] == Render(pages[i], from + i, runs[i])
  {
    seq(|pages|, i requires 0 <= i < |pages| => RenderAt(pages, runs, from, i))
  }

  /** Task `i` of those starting at position `from`. */
  function RenderAt(pages: seq<Option<NotionPage>>, runs: seq<RenderRun>, from: nat, i: nat): PageResult
    requires i < |pages| == |runs|
  {
    Render(pages[i], from + i, runs[i])
  }

  /** The first page's task, then the tasks of the rest one position on. */
  lemma TasksFromCons(pages: seq<Option<NotionPage>>, runs: seq<RenderRun>, from: nat)
    requires |runs| == |pages| > 0
    ensures TasksFrom(pages, runs, from)
            == [Render(pages[0], from, runs[0])] + TasksFrom(pages[1..], runs[1..], from + 1)
  {
    var r := TasksFrom(pages, runs, from);
    var rest := TasksFrom(pages[1..], runs[1..], from + 1);
    forall i | 1 <= i < |r|
      ensures r[i] == rest[i - 1]
    {
      TasksFromShift(pages, runs, from, i);
    }
    ConsOf(r, Render(pages[0], from, runs[0]), rest);
  }

  lemma TasksFromShift(pages: seq<Option<NotionPage>>, runs: seq<RenderRun>, from: nat, i: nat)
    requires |runs| == |pages| && 1 <= i < |pages|
    ensures TasksFrom(pages, runs, from)[i] == TasksFrom(pages[1..], runs[1..], from + 1)[i - 1]
  {
    assert pages[1..][i - 1] == pages[i];
    assert runs[1..][i - 1] == runs[i];
  }

  /** `main`. `runs` holds what the libraries do for each page;
      `completed` is the order in which the tasks finished: any
      rearrangement of their results. */
  function Pipeline(databaseId: Option<string>, pages: seq<PageData>, runs: seq<RenderRun>,
                completed: seq<PageResult>): (r: Run)
    requires |runs| == |pages|
    requires HasDatabaseId(databaseId) ==> multiset(completed) == multiset(Tasks(Extracted(pages), runs))
    ensures !HasDatabaseId(databaseId) ==> r.status == MissingDatabaseId && r.effects == []
    ensures HasDatabaseId(databaseId) && |pages| == 0 ==> r.status == NoPages && r.effects == [Clean(OutputDir)]
    ensures r.status == Processed ==> r.results == Tasks(Extracted(pages), runs)
    ensures forall e :: e in r.effects && e.Merge? ==>
              e.target == CombinedPath && e.paths == SuccessfulPaths(Tasks(Extracted(pages), runs))
              && e.paths != []
  {
    var tasks := Tasks(Extracted(pages), runs);
    MergedPathsAreSuccesses(databaseId, tasks, completed, OutputDir, CombinedPath);
    Drive(databaseId, tasks, completed, OutputDir, CombinedPath)
  }

  /** The document paths of the pages that extract and whose renderer
      completes, in page order: an independent statement of what the merge
      receives. */
  function BuiltPaths(pages: seq<Option<NotionPage>>, runs: seq<RenderRun>): seq<string>
    requires |runs| == |pages|
  {
    if |pages| == 0 then []
    else
      (if pages[0].Some? && Completes(runs[0]) then [PdfGenerator.PdfPath(OutputDir, pages[0].value.title)] else [])
      + BuiltPaths(pages[1..], runs[1..])
  }

  lemma OneTaskPaths(page: Option<NotionPage>, index: nat, run: RenderRun)
    ensures SuccessfulPaths([Render(page, index, run)])
            == (if page.Some? && Completes(run) then [PdfGenerator.PdfPath(OutputDir, page.value.title)] else [])
  {
    assert [Render(page, index, run)][1..] == [];
  }

  lemma {:induction false} SuccessfulPathsOfTasks(pages: seq<Option<NotionPage>>, runs: seq<RenderRun>, from: nat)
    requires |runs| == |pages|
    ensures SuccessfulPaths(TasksFrom(pages, runs, from)) == BuiltPaths(pages, runs)
  {
    if |pages| > 0 {
      TasksFromCons(pages, runs, from);
      SuccessfulPathsAppend([Render(pages[0], from, runs[0])], TasksFrom(pages[1..], runs[1..], from + 1));
      OneTaskPaths(pages[0], from, runs[0]);
      SuccessfulPathsOfTasks(pages[1..], runs[1..], from + 1);
    }
  }

  /** The merge receives the document of every page that extracts and
      whose renderer completes, in page order, whatever the completion
      order. */
  lemma MergedPathsInPageOrder(databaseId: Option<string>, pages: seq<PageData>, runs: seq<RenderRun>,
                               completed: seq<PageResult>)
    requires |runs| == |pages|
    requires HasDatabaseId(databaseId) ==> multiset(completed) == multiset(Tasks(Extracted(pages), runs))
    ensures forall e :: e in Pipeline(databaseId, pages, runs, completed).effects && e.Merge? ==>
              e.paths == BuiltPaths(Extracted(pages), runs)
  {
    SuccessfulPathsOfTasks(Extracted(pages), runs, 0);
  }

  /** A run merges exactly when it has an id and some listed page both
      extracts and has its renderer complete. */
  lemma MergesIffSomePageBuilt(databaseId: Option<string>, pages: seq<PageData>, runs: seq<RenderRun>,
                               completed: seq<PageResult>)
    requires |runs| == |pages|
    requires HasDatabaseId(databaseId) ==> multiset(completed) == multiset(Tasks(Extracted(pages), runs))
    ensures Merges(Pipeline(databaseId, pages, runs, completed)) <==>
              HasDatabaseId(databaseId) && exists i :: 0 <= i < |pages| && Extracted(pages)[i].Some? && Completes(runs[i])
  {
    var tasks := Tasks(Extracted(pages), runs);
    MergeIffSomeSuccess(databaseId, tasks, completed, OutputDir, CombinedPath);
    assert forall i :: 0 <= i < |pages| ==>
             (tasks[i].path.Some? <==> Extracted(pages)[i].Some? && Completes(runs[i]));
  }

  /** A page whose font check fails is missing from the merge while the
      pages around it stay: the checks are independent per page. */
  lemma FontFailureDropsOnlyThatPage()
    ensures BuiltPaths([Some(NotionPage("a", "A", [])), Some(NotionPage("b", "B", []))],
                       [RenderRun(false, true), RenderRun(true, true)])
            == ["output/pdf/B.pdf"]
  {
    assert TxtGenerator.SafeTitle("B") == "B";
    assert PdfGenerator.PdfPath(OutputDir, "B") == "output/pdf/B.pdf";
    var ps := [Some(NotionPage("a", "A", [])), Some(NotionPage("b", "B", []))];
    var fs := [RenderRun(false, true), RenderRun(true, true)];
    assert ps[1..] == [Some(NotionPage("b", "B", []))] && fs[1..] == [RenderRun(true, true)];
    assert ps[1..][1..] == [] && fs[1..][1..] == [];
    assert BuiltPaths(ps[1..], fs[1..]) == ["output/pdf/B.pdf"];
  }

  /** Documents are named by title alone, so two pages whose titles
      sanitise alike are written to one file, and the merge list names that
      file twice: the later page's document appears twice in the merge and
      the earlier one not at all. */
  lemma SharedTitleMergesOneFileTwice()
    ensures BuiltPaths([Some(NotionPage("a", "a b", [])), Some(NotionPage("b", "a?b", []))],
                       [RenderRun(true, true), RenderRun(true, true)])
            == ["output/pdf/a_b.pdf", "output/pdf/a_b.pdf"]
  {
    assert TxtGenerator.SafeTitle("a b") == "a_b";
    assert TxtGenerator.SafeTitle("a?b") == "a_b";
    assert PdfGenerator.PdfPath(OutputDir, "a b") == "output/pdf/a_b.pdf";
    assert PdfGenerator.PdfPath(OutputDir, "a?b") == "output/pdf/a_b.pdf";
    var ps := [Some(NotionPage("a", "a b", [])), Some(NotionPage("b", "a?b", []))];
    var fs := [RenderRun(true, true), RenderRun(true, true)];
    assert ps[1..] == [Some(NotionPage("b", "a?b", []))] && fs[1..] == [RenderRun(true, true)];
    assert ps[1..][1..] == [] && fs[1..][1..] == [];
    assert BuiltPaths(ps[1..], fs[1..]) == ["output/pdf/a_b.pdf"];
  }
}

=== FILE: notion_to_txt.dfy ===
/** The text export driver (`notion_to_txt.py`): each database page is
    rendered to a text file by a task of its own, the results are put back
    in page order and the written files are merged into
    `output_txt/combined.txt`.

    `process_page` calls the renderer with two arguments where it takes
    three (the page's index is missing), so as written every call raises
    and every page ends up as a failure record. `ProcessPageAsWritten` and
    `PipelineAsWritten` model that code; `ProcessPage` and `Pipeline` pass the index
    along, which is what the renderer's signature and file naming expect. */
module NotionToTxt {
  import opened Text
  import opened Dto
  import NotionService
  import TxtGenerator
  import opened Fanout

  const OutputDir := "output_txt"

  /** Where the merged file goes. */
  const CombinedPath := OutputDir + "/combined.txt"

  /** The `try` block of `process_page` after extraction, with the index
      passed to the renderer: an extracted page is written to its numbered
      file under `sources/`; `None` (which has no title) lands in the
      handler and becomes the failure record. */
  function Render(page: Option<NotionPage>, index: nat): (r: PageResult)
    ensures r.index == index
    ensures r.path.Some? <==> page.Some?
    ensures page.Some? ==> r.title == page.value.title
    ensures page.Some? ==> r.path.value == TxtGenerator.TxtPath(OutputDir, index, page.value.title)
    ensures page.None? ==> r == Failure(index)
  {
    match page
    case None => Failure(index)
    case Some(p) => PageResult(index, Some(TxtGenerator.PageToTxt(p, OutputDir, index).path), p.title)
  }

  /** `process_page`, corrected: the page is extracted and, when that
      works, written to its numbered file; a descriptor that does not
      extract gives the failure record. */
  function ProcessPage(data: PageData, index: nat): (r: PageResult)
    ensures r.index == index
    ensures r.path.Some? <==> Extract(data).Some?
    ensures r.path.Some? ==> r.path.value == TxtGenerator.TxtPath(OutputDir, index, Extract(data).value.title)
                             && r.title == Extract(data).value.title
    ensures r.path.None? ==> r == Failure(index)
  {
    Render(Extract(data), index)
  }

  /** `process_page` as written: the page is extracted, then the renderer is
      called without its `index` argument, which raises before anything is
      written; the handler turns that into the failure record whatever the
      page was. */
  function ProcessPageAsWritten(data: PageData, index: nat): (r: PageResult)
    ensures r.index == index && r.path.None? && r.title == FailureTitle(index)
  {
    var _ := Extract(data);
    Failure(index)
  }

  /** One task per page, submitted with the page's position. */
  function Tasks(pages: seq<Option<NotionPage>>): (r: seq<PageResult>)
    ensures |r| == |pages| && InPageOrder(r)
    ensures forall i :: 0 <= i < |pages| ==> r[i] == Render(pages[i], i)
  {
    TasksFrom(pages, 0)
  }

  /** The tasks for `pages` when the first of them sits at position `from`. */
  function TasksFrom(pages: seq<Option<NotionPage>>, from: nat): (r: seq<PageResult>)
    ensures |r| == |pages|
    ensures forall i :: 0 <= i < |pages| ==> r[i] == Render(pages[i], from + i)
  {
    seq(|pages|, i requires 0 <= i < |pages| => RenderAt(pages, from, i))
  }

  /** Task `i` of those starting at position `from`. */
  function RenderAt(pages: seq<Option<NotionPage>>, from: nat, i: nat): PageResult
    requires i < |pages|
  {
    Render(pages[i], from + i)
  }

  /** The first page's task, then the tasks of the rest one position on. */
  lemma TasksFromCons(pages: seq<Option<NotionPage>>, from: nat)
    requires |pages| > 0
    ensures TasksFrom(pages, from) == [Render(pages[0], from)] + TasksFrom(pages[1..], from + 1)
  {
    var r := TasksFrom(pages, from);
    var rest := TasksFrom(pages[1..], from + 1);
    forall i | 1 <= i < |r|
      ensures r[i] == rest[i - 1]
    {
      TasksFromShift(pages, from, i);
    }
    ConsOf(r, Render(pages[0], from), rest);
  }

  lemma TasksFromShift(pages: seq<Option<NotionPage>>, from: nat, i: nat)
    requires 1 <= i < |pages|
    ensures TasksFrom(pages, from)[i] == TasksFrom(pages[1..], from + 1)[i - 1]
  {
    assert pages[1..][i - 1] == pages[i];
  }

  /** Every task fails when written as in the source. */
  function TasksAsWritten(pages: seq<PageData>): (r: seq<PageResult>)
    ensures |r| == |pages| && InPageOrder(r)
    ensures forall i :: 0 <= i < |pages| ==> r[i].path.None?
  {
    seq(|pages|, i requires 0 <= i < |pages| => ProcessPageAsWritten(pages[i], i))
  }

  /** `main` with the index passed along. `completed` is the order in which
      the tasks finished: any rearrangement of their results. */
  function Pipeline(databaseId: Option<string>, pages: seq<PageData>, completed: seq<PageResult>): (r: Run)
    requires HasDatabaseId(databaseId) ==> multiset(completed) == multiset(Tasks(Extracted(pages)))
    ensures !HasDatabaseId(databaseId) ==> r.status == MissingDatabaseId && r.effects == []
    ensures HasDatabaseId(databaseId) && |pages| == 0 ==> r.status == NoPages && r.effects == [Clean(OutputDir)]
    ensures r.status == Processed ==> r.results == Tasks(Extracted(pages))
    ensures forall e :: e in r.effects && e.Merge? ==>
              e.target == CombinedPath && e.paths == SuccessfulPaths(Tasks(Extracted(pages))) && e.paths != []
  {
    var tasks := Tasks(Extracted(pages));
    MergedPathsAreSuccesses(databaseId, tasks, completed, OutputDir, CombinedPath);
    Drive(databaseId, tasks, completed, OutputDir, CombinedPath)
  }

  /** `main` as written. */
  function PipelineAsWritten(databaseId: Option<string>, pages: seq<PageData>, completed: seq<PageResult>): (r: Run)
    requires HasDatabaseId(databaseId) ==> multiset(completed) == multiset(TasksAsWritten(pages))
    ensures !HasDatabaseId(databaseId) ==> r.status == MissingDatabaseId && r.effects == []
    ensures r.status == Processed ==> r.results == TasksAsWritten(pages)
  {
    Drive(databaseId, TasksAsWritten(pages), completed, OutputDir, CombinedPath)
  }

  /** As written, no run ever merges anything, and every processed page is
      reported as failed, whatever the database holds. */
  lemma AsWrittenNeverMerges(databaseId: Option<string>, pages: seq<PageData>, completed: seq<PageResult>)
    requires HasDatabaseId(databaseId) ==> multiset(completed) == multiset(TasksAsWritten(pages))
    ensures !Merges(PipelineAsWritten(databaseId, pages, completed))
    ensures forall x :: x in PipelineAsWritten(databaseId, pages, completed).results ==> x.path.None?
  {
    MergeIffSomeSuccess(databaseId, TasksAsWritten(pages), completed, OutputDir, CombinedPath);
  }

  /** The path one extracted page contributes. */
  function PageSuccessPath(page: Option<NotionPage>, index: nat): seq<string>
  {
    match page
    case None => []
    case Some(p) => [TxtGenerator.TxtPath(OutputDir, index, p.title)]
  }

  /** The text paths of the pages that extract, in page order: an
      independent statement of what the merge receives. */
  function ExtractedPaths(pages: seq<Option<NotionPage>>, from: nat): seq<string>
    decreases |pages|
  {
    if |pages| == 0 then []
    else PageSuccessPath(pages[0], from) + ExtractedPaths(pages[1..], from + 1)
  }

  lemma OneTaskPaths(page: Option<NotionPage>, index: nat)
    ensures SuccessfulPaths([Render(page, index)]) == PageSuccessPath(page, index)
  {
    assert [Render(page, index)][1..] == [];
  }

  lemma {:induction false} SuccessfulPathsOfTasks(pages: seq<Option<NotionPage>>, from: nat)
    ensures SuccessfulPaths(TasksFrom(pages, from)) == ExtractedPaths(pages, from)
    decreases |pages|
  {
    if |pages| > 0 {
      TasksFromCons(pages, from);
      SuccessfulPathsAppend([Render(pages[0], from)], TasksFrom(pages[1..], from + 1));
      OneTaskPaths(pages[0], from);
      SuccessfulPathsOfTasks(pages[1..], from + 1);
    }
  }

  /** With the index passed along, the merge receives the numbered file of
      every page that extracts, in page order. */
  lemma MergedPathsInPageOrder(databaseId: Option<string>, pages: seq<PageData>, completed: seq<PageResult>)
    requires HasDatabaseId(databaseId) ==> multiset(completed) == multiset(Tasks(Extracted(pages)))
    ensures forall e :: e in Pipeline(databaseId, pages, completed).effects && e.Merge? ==>
              e.paths == ExtractedPaths(Extracted(pages), 0)
  {
    SuccessfulPathsOfTasks(Extracted(pages), 0);
  }

  /** A run merges exactly when at least one listed page extracts. */
  lemma MergesIffSomePageExtracts(databaseId: Option<string>, pages: seq<PageData>, completed: seq<PageResult>)
    requires HasDatabaseId(databaseId) ==> multiset(completed) == multiset(Tasks(Extracted(pages)))
    ensures Merges(Pipeline(databaseId, pages, completed)) <==>
              HasDatabaseId(databaseId) && exists i :: 0 <= i < |pages| && Extracted(pages)[i].Some?
  {
    var tasks := Tasks(Extracted(pages));
    MergeIffSomeSuccess(databaseId, tasks, completed, OutputDir, CombinedPath);
    assert forall i :: 0 <= i < |pages| ==> (tasks[i].path.Some? <==> Extracted(pages)[i].Some?);
  }

  /** A descriptor with id `p1` and title `T`. */
  function SamplePage(): PageData
  {
    PageData(NotionService.PageDescriptor(Some("p1"),
               Some(NotionService.Properties(Some(NotionService.NameProperty(Some([NotionService.Span(Some("T"))])))))),
             Some([]))
  }

  lemma SampleExtracts()
    ensures Extract(SamplePage()) == Some(NotionPage("p1", "T", []))
  {
  }

  lemma SampleFileName()
    ensures TxtGenerator.TxtFileName(0, "T") == "0 - T.txt"
  {
    TxtGenerator.SafeTitleOfAlnum("T");
    assert NatToString(0) == "0";
  }

  lemma SamplePath()
    ensures TxtGenerator.TxtPath(OutputDir, 0, "T") == "output_txt/sources/0 - T.txt"
  {
    SampleFileName();
    SampleSourcesDir();
    SampleJoin();
  }

  lemma SampleSourcesDir()
    ensures PathJoin(OutputDir, "sources") == "output_txt/sources"
  {
  }

  lemma SampleJoin()
    ensures PathJoin("output_txt/sources", "0 - T.txt") == "output_txt/sources/0 - T.txt"
  {
  }

  lemma SamplePageTasks()
    ensures Tasks(Extracted([SamplePage()])) == [PageResult(0, Some("output_txt/sources/0 - T.txt"), "T")]
    ensures TasksAsWritten([SamplePage()]) == [Failure(0)]
  {
    SampleExtracts();
    SamplePath();
    assert Extracted([SamplePage()]) == [Some(NotionPage("p1", "T", []))];
  }

  /** A one-page database whose page extracts cleanly: as written the run
      only cleans the output directory. */
  lemma OnePageAsWritten()
    ensures PipelineAsWritten(Some("db"), [SamplePage()], TasksAsWritten([SamplePage()])).effects
            == [Clean("output_txt")]
  {
    var asWritten := TasksAsWritten([SamplePage()]);
    assert asWritten[0].path.None?;
    assert SuccessfulPaths(asWritten) == [] by {
      assert asWritten[1..] == [];
    }
    ProcessedEffects(Some("db"), asWritten, asWritten, OutputDir, CombinedPath);
  }

  /** A run whose one task succeeded cleans the directory and merges that
      task's file. */
  lemma OneSuccessDrive(path: string, title: string)
    ensures var t := [PageResult(0, Some(path), title)];
            Drive(Some("db"), t, t, OutputDir, CombinedPath).effects
            == [Clean(OutputDir), Merge([path], CombinedPath)]
  {
    var t := [PageResult(0, Some(path), title)];
    assert SuccessfulPaths(t) == [path] by {
      assert t[1..] == [];
    }
    ProcessedEffects(Some("db"), t, t, OutputDir, CombinedPath);
  }

  lemma CombinedPathValue()
    ensures CombinedPath == "output_txt/combined.txt"
  {
  }

  /** The same database with the index passed along: the page's numbered
      file is merged. */
  lemma OnePageFixed()
    ensures Pipeline(Some("db"), [SamplePage()], Tasks(Extracted([SamplePage()]))).effects
            == [Clean("output_txt"), Merge(["output_txt/sources/0 - T.txt"], "output_txt/combined.txt")]
  {
    SamplePageTasks();
    OneSuccessDrive("output_txt/sources/0 - T.txt", "T");
    CombinedPathValue();
    var fixed := Tasks(Extracted([SamplePage()]));
    assert Pipeline(Some("db"), [SamplePage()], fixed) == Drive(Some("db"), fixed, fixed, OutputDir, CombinedPath);
  }
}

=== FILE: pdf_generator.dfy ===
/** The document renderer's decisions in `page_to_pdf`: which paragraph
    style each block gets, how far it is indented, what text it shows, and
    the file it goes to. Laying the document out is the renderer library's
    business and is not modelled; what is modelled is the list of
    flowables handed to it. */
module PdfGenerator {
  import opened Text
  import opened Dto
  import TxtGenerator

  /** The paragraph styles a page uses. `Indent(l)` is the style named
      `Indent{l}`; the heading and title styles come from the library's
      sample sheet. */
  datatype Style = TitleStyle | Heading1 | Heading2 | Heading3 | Indent(level: nat)

  /** Number of indent styles built for a page. */
  const IndentStyleCount: nat := 10

  /** Points of left indent per nesting level. */
  const IndentStep: nat := 20

  /** The indent styles, in the order they are built. */
  function IndentStyles(): (r: seq<Style>)
    ensures |r| == IndentStyleCount
    ensures forall i :: 0 <= i < |r| ==> r[i] == Indent(i)
  {
    seq(IndentStyleCount, i requires 0 <= i => Indent(i))
  }

  /** Left indent of a style in points. The sample heading and title styles
      have none. */
  function LeftIndent(s: Style): nat
  {
    match s
    case Indent(l) => IndentStep * l
    case _ => 0
  }

  /** There are exactly ten indent styles, at 0, 20, ..., 180 points. */
  lemma IndentStylesLayout()
    ensures |IndentStyles()| == 10
    ensures forall i :: 0 <= i < 10 ==> LeftIndent(IndentStyles()[i]) == 20 * i
    ensures forall i, j :: 0 <= i < j < 10 ==>
              LeftIndent(IndentStyles()[i]) < LeftIndent(IndentStyles()[j])
  {
  }

  function Min(a: nat, b: nat): nat
  {
    if a <= b then a else b
  }

  /** Style of one block: the three heading kinds get their heading style,
      every other kind the indent style of its level, clamped to the last
      one. */
  function BlockStyle(b: NotionBlock): (s: Style)
    ensures b.kind == "heading_1" <==> s == Heading1
    ensures b.kind == "heading_2" <==> s == Heading2
    ensures b.kind == "heading_3" <==> s == Heading3
    ensures !TxtGenerator.IsHeading(b.kind) <==> s.Indent?
    ensures s.Indent? ==> s.level < IndentStyleCount && s in IndentStyles()
  {
    if b.kind == "heading_1" then Heading1
    else if b.kind == "heading_2" then Heading2
    else if b.kind == "heading_3" then Heading3
    else IndentStyles()[Min(b.indentLevel, IndentStyleCount - 1)]
  }

  /** Non-heading blocks keep their own level up to 9; anything deeper
      shares the level-9 style and never falls off the end of the table. */
  lemma IndentClamp(b: NotionBlock)
    requires !TxtGenerator.IsHeading(b.kind)
    ensures b.indentLevel <= 9 ==> BlockStyle(b) == Indent(b.indentLevel)
    ensures b.indentLevel >= 9 ==> BlockStyle(b) == Indent(9)
    ensures LeftIndent(BlockStyle(b)) <= 180
    ensures LeftIndent(BlockStyle(b)) == 20 * b.indentLevel <==> b.indentLevel <= 9
  {
  }

  /** Headings ignore the nesting level entirely. */
  lemma HeadingIgnoresLevel(b: NotionBlock, level: nat)
    requires TxtGenerator.IsHeading(b.kind)
    ensures BlockStyle(b.(indentLevel := level)) == BlockStyle(b)
    ensures LeftIndent(BlockStyle(b)) == 0
  {
  }

  /** Kinds shown with a type label: everything except the three headings
      and plain paragraphs. */
  predicate NeedsLabel(kind: string)
  {
    !(TxtGenerator.IsHeading(kind) || kind == "paragraph")
  }

  /** The text of a block's paragraph: its content, after a
      `Kind: ` label for labelled kinds. */
  function BlockText(b: NotionBlock): (r: string)
    ensures EndsWith(r, b.content)
    ensures r == b.content <==> !NeedsLabel(b.kind)
    ensures NeedsLabel(b.kind) ==>
              |r| == |b.kind| + 2 + |b.content|
              && r[..|b.kind|] == Capitalize(b.kind)
              && r[|b.kind|..|b.kind| + 2] == ": "
  {
    if NeedsLabel(b.kind) then Capitalize(b.kind) + ": " + b.content else b.content
  }

  /** A labelled kind shows its type tag with the first letter raised. */
  lemma LabelExample()
    ensures BlockText(NotionBlock("quote", "x", 0, false)) == "Quote: x"
  {
    assert Capitalize("quote") == "Quote" by {
      var c := Capitalize("quote");
      assert c[0] == 'Q' && c[1] == 'u' && c[2] == 'o' && c[3] == 't' && c[4] == 'e';
    }
    assert NeedsLabel("quote");
  }

  // ---------------------------------------------------------------------
  // The flowable list.

  /** What is handed to the document builder: a styled paragraph or a
      fixed-size spacer. */
  datatype Flowable = Para(text: string, style: Style) | Spacer(width: nat, height: nat)

  /** The styled paragraph of one block. */
  function BlockPara(b: NotionBlock): Flowable
  {
    Para(BlockText(b), BlockStyle(b))
  }

  /** Each element followed by `sep`, in order. */
  function Interleave<T>(xs: seq<T>, sep: T): (r: seq<T>)
    ensures |r| == 2 * |xs|
  {
    if |xs| == 0 then [] else [xs[0], sep] + Interleave(xs[1..], sep)
  }

  /** Element i sits at position 2i, with `sep` right after it. */
  lemma {:induction false} InterleaveAt<T>(xs: seq<T>, sep: T, i: nat)
    requires i < |xs|
    ensures Interleave(xs, sep)[2 * i] == xs[i] && Interleave(xs, sep)[2 * i + 1] == sep
  {
    if i > 0 {
      InterleaveAt(xs[1..], sep, i - 1);
      assert xs[1..][i - 1] == xs[i];
    }
  }

  /** The styled paragraphs of the blocks, in block order. */
  function BlockParas(bs: seq<NotionBlock>): (r: seq<Flowable>)
    ensures |r| == |bs|
    ensures forall i :: 0 <= i < |bs| ==> r[i] == BlockPara(bs[i])
  {
    if |bs| == 0 then [] else [BlockPara(bs[0])] + BlockParas(bs[1..])
  }

  /** The paragraph and spacer of each block, in block order. */
  function BlockFlowables(bs: seq<NotionBlock>): (r: seq<Flowable>)
    ensures |r| == 2 * |bs|
  {
    Interleave(BlockParas(bs), Spacer(1, 6))
  }

  /** Block i owns positions 2i (its paragraph) and 2i+1 (its 6-point
      spacer). */
  lemma BlockFlowablesAt(bs: seq<NotionBlock>, i: nat)
    requires i < |bs|
    ensures BlockFlowables(bs)[2 * i] == BlockPara(bs[i])
    ensures BlockFlowables(bs)[2 * i + 1] == Spacer(1, 6)
  {
    InterleaveAt(BlockParas(bs), Spacer(1, 6), i);
  }

  /** Dropping the first block drops its paragraph and spacer. */
  lemma BlockFlowablesCons(bs: seq<NotionBlock>)
    requires |bs| > 0
    ensures BlockFlowables(bs) == [BlockPara(bs[0]), Spacer(1, 6)] + BlockFlowables(bs[1..])
  {
    var ps := BlockParas(bs);
    assert ps == [BlockPara(bs[0])] + BlockParas(bs[1..]);
    assert ps[1..] == BlockParas(bs[1..]);
  }

  /** The whole content list: title paragraph, a 12-point spacer, then one
      paragraph and one 6-point spacer per block. */
  function Content(page: NotionPage): (r: seq<Flowable>)
    ensures |r| == 2 + 2 * |page.blocks|
    ensures r[0] == Para(page.title, TitleStyle) && r[1] == Spacer(1, 12)
  {
    [Para(page.title, TitleStyle), Spacer(1, 12)] + BlockFlowables(page.blocks)
  }

  /** Block i of the page is rendered at positions 2+2i and 3+2i, with its
      own style and text. */
  lemma ContentAt(page: NotionPage, i: nat)
    requires i < |page.blocks|
    ensures Content(page)[2 + 2 * i] == Para(BlockText(page.blocks[i]), BlockStyle(page.blocks[i]))
    ensures Content(page)[3 + 2 * i] == Spacer(1, 6)
  {
    BlockFlowablesAt(page.blocks, i);
  }

  lemma ContentEveryBlock(page: NotionPage)
    ensures forall i :: 0 <= i < |page.blocks| ==>
              Content(page)[2 + 2 * i] == Para(BlockText(page.blocks[i]), BlockStyle(page.blocks[i]))
              && Content(page)[3 + 2 * i] == Spacer(1, 6)
  {
    forall i | 0 <= i < |page.blocks|
      ensures Content(page)[2 + 2 * i] == Para(BlockText(page.blocks[i]), BlockStyle(page.blocks[i]))
              && Content(page)[3 + 2 * i] == Spacer(1, 6)
    {
      ContentAt(page, i);
    }
  }

  /** The paragraphs of a flowable list, spacers dropped. */
  function Paragraphs(fs: seq<Flowable>): seq<string>
  {
    if |fs| == 0 then []
    else (if fs[0].Para? then [fs[0].text] else []) + Paragraphs(fs[1..])
  }

  lemma {:induction false} ParagraphsAppend(a: seq<Flowable>, b: seq<Flowable>)
    ensures Paragraphs(a + b) == Paragraphs(a) + Paragraphs(b)
  {
    if |a| > 0 {
      assert (a + b)[1..] == a[1..] + b;
      ParagraphsAppend(a[1..], b);
    } else {
      assert a + b == b;
    }
  }

  /** The paragraph texts of a block list, one per block. */
  function BlockTexts(bs: seq<NotionBlock>): (r: seq<string>)
    ensures |r| == |bs|
    ensures forall i :: 0 <= i < |bs| ==> r[i] == BlockText(bs[i])
  {
    seq(|bs|, i requires 0 <= i < |bs| => BlockText(bs[i]))
  }

  /** The first block contributes exactly its own text. */
  lemma BlockFlowablesHead(bs: seq<NotionBlock>)
    requires |bs| > 0
    ensures Paragraphs(BlockFlowables(bs)) == [BlockText(bs[0])] + Paragraphs(BlockFlowables(bs[1..]))
  {
    var head := [BlockPara(bs[0]), Spacer(1, 6)];
    BlockFlowablesCons(bs);
    ParagraphsAppend(head, BlockFlowables(bs[1..]));
    assert Paragraphs(head) == [BlockText(bs[0])] by {
      assert head[1..][1..] == [];
    }
  }

  lemma {:induction false} BlockFlowablesParagraphs(bs: seq<NotionBlock>)
    ensures Paragraphs(BlockFlowables(bs)) == BlockTexts(bs)
  {
    if |bs| > 0 {
      BlockFlowablesHead(bs);
      BlockFlowablesParagraphs(bs[1..]);
      BlockTextsCons(bs);
    }
  }

  lemma BlockTextsCons(bs: seq<NotionBlock>)
    requires |bs| > 0
    ensures BlockTexts(bs) == [BlockText(bs[0])] + BlockTexts(bs[1..])
  {
    forall i | 1 <= i < |bs|
      ensures BlockTexts(bs)[i] == BlockTexts(bs[1..])[i - 1]
    {
      assert bs[1..][i - 1] == bs[i];
    }
    ConsOf(BlockTexts(bs), BlockText(bs[0]), BlockTexts(bs[1..]));
  }

  /** Reading the text back out of the content list gives the title and then
      each block's text in block order: nothing is dropped, duplicated or
      reordered. */
  lemma ContentText(page: NotionPage)
    ensures Paragraphs(Content(page)) == [page.title] + BlockTexts(page.blocks)
  {
    var head := [Para(page.title, TitleStyle), Spacer(1, 12)];
    ParagraphsAppend(head, BlockFlowables(page.blocks));
    assert Paragraphs(head) == [page.title] by {
      assert head[1..][1..] == [];
    }
    BlockFlowablesParagraphs(page.blocks);
  }

  // ---------------------------------------------------------------------
  // The file.

  /** `os.path.join(output_dir, f"{safe_title}.pdf")`, with the same
      sanitising as the text renderer. */
  function PdfPath(outputDir: string, title: string): (r: string)
    ensures r == DirPrefix(outputDir) + TxtGenerator.SafeTitle(title) + ".pdf"
    ensures NeedsSlash(outputDir) ==> r == outputDir + "/" + TxtGenerator.SafeTitle(title) + ".pdf"
    ensures EndsWith(r, TxtGenerator.SafeTitle(title) + ".pdf")
  {
    PdfNameRelative(title);
    var name := TxtGenerator.SafeTitle(title) + ".pdf";
    assert DirPrefix(outputDir) + name == DirPrefix(outputDir) + TxtGenerator.SafeTitle(title) + ".pdf";
    assert outputDir + "/" + name == outputDir + "/" + TxtGenerator.SafeTitle(title) + ".pdf";
    PathJoin(outputDir, name)
  }

  /** A sanitised file name never starts with `/`, so it is always joined
      under the output directory. */
  lemma PdfNameRelative(title: string)
    ensures |TxtGenerator.SafeTitle(title) + ".pdf"| > 0
    ensures (TxtGenerator.SafeTitle(title) + ".pdf")[0] != '/'
  {
    TxtGenerator.SafeTitleIsClean(title);
    var s := TxtGenerator.SafeTitle(title);
    if |s| > 0 {
      assert (s + ".pdf")[0] == s[0];
    }
  }

  /** Within one output directory two pages get the same file exactly when
      their sanitised titles agree; there is no index to keep them apart. */
  lemma PdfPathCollision(dir: string, t: string, u: string)
    ensures PdfPath(dir, t) == PdfPath(dir, u) <==> TxtGenerator.SafeTitle(t) == TxtGenerator.SafeTitle(u)
  {
    var a := TxtGenerator.SafeTitle(t);
    var b := TxtGenerator.SafeTitle(u);
    PdfNameRelative(t);
    PdfNameRelative(u);
    PathJoinInjective(dir, a + ".pdf", b + ".pdf");
    if a + ".pdf" == b + ".pdf" {
      assert a == (a + ".pdf")[..|a|];
      assert b == (b + ".pdf")[..|b|];
    }
  }

  /** Two different titles that land on one file: the second page written
      overwrites the first. */
  lemma PdfPathCollisionExample()
    ensures PdfPath("output", "a b") == PdfPath("output", "a?b") == "output/a_b.pdf"
  {
    assert TxtGenerator.SafeTitle("a b") == "a_b";
    assert TxtGenerator.SafeTitle("a?b") == "a_b";
  }

  /** Outcome of `page_to_pdf`: the font check failed and nothing was built;
      the document builder raised on the content; or the document at `path`
      was built from `content`. */
  datatype PdfOutcome = FontMissing | BuildFailed | Built(path: string, content: seq<Flowable>)

  /** `page_to_pdf`. Whether the font can be made available is decided by
      the font manager, and whether the document builder accepts the
      content by the document library; both are outside the model and are
      parameters. The font is checked first, so a missing font is reported
      whatever the builder would have done. */
  function PageToPdf(page: NotionPage, outputDir: string, fontAvailable: bool, builds: bool): (r: PdfOutcome)
    ensures r.FontMissing? <==> !fontAvailable
    ensures r.BuildFailed? <==> fontAvailable && !builds
    ensures r.Built? <==> fontAvailable && builds
    ensures r.Built? ==> r.path == PdfPath(outputDir, page.title) && EndsWith(r.path, ".pdf")
    ensures r.Built? ==> Paragraphs(r.content) == [page.title] + BlockTexts(page.blocks)
    ensures r.Built? ==> |r.content| == 2 + 2 * |page.blocks|
    ensures r.Built? ==> r.content == Content(page)
    ensures r.Built? ==> forall i :: 0 <= i < |page.blocks| ==>
              r.content[2 + 2 * i] == Para(BlockText(page.blocks[i]), BlockStyle(page.blocks[i]))
              && r.content[3 + 2 * i] == Spacer(1, 6)
  {
    if !fontAvailable then FontMissing
    else if !builds then BuildFailed
    else
      ContentText(page);
      ContentEveryBlock(page);
      var path := PdfPath(outputDir, page.title);
      var name := TxtGenerator.SafeTitle(page.title);
      EndsWithConcat(name, ".pdf");
      EndsWithTrans(path, name + ".pdf", ".pdf");
      Built(path, Content(page))
  }
}

=== FILE: prompt.dfy ===
/** The instruction text sent with every chunk
    (`create_educational_transcript_prompt` in
    `transcript_maker/prompt.py`). The prompt is one triple-quoted template:
    a newline, then forty template lines each carrying the template's
    eight-space margin, then the margin before the closing quotes. Four
    lines depend on the arguments: the opening line (the topic), the
    instruction line (the part note), the two continuity items (the part's
    position) and the content line. */
module Prompt {
  import opened Text

  /** The template's left margin. */
  const Margin := "        "

  const OpeningText := "You're creating an educational transcript for a video or podcast about: "

  const InstructionText :=
    "Please convert the following technical content into a natural, conversational transcript format. "

  /** Item 9, present on every part but the first. */
  const ContinueItem := "9. " + "Continue from the previous part in a natural way."

  /** Item 10, present on every part but the last. */
  const TransitionItem := "10. " + "End in a way that transitions to the next part" + "."

  const Fence := Margin + "-----------"

  const ClosingText := "Begin the transcript now:"

  /** The blank line, the requirements heading and items 1 to 8. */
  const Requirements: seq<string> := [
      "",
      "        REQUIREMENTS:",
      "        1.  Include all key information from the original content.",
      "        2.  Use a friendly, educational tone that's easy to understand.  Speak like you're explaining it to a friend, not lecturing. Use contractions, informal phrasing where appropriate, and a friendly tone.",
      "        3.  Add natural transitions, questions, and explanations between concepts.  Use phrases like:",
      "            *   \"So, what does that actually mean?\"",
      "            *   \"Now, let's move on to...\"",
      "            *   \"Think of it like this...\"",
      "            *   \"But here's the interesting part...\"",
      "            *   \"Okay, that might sound a little complicated, so let's break it down.\"",
      "            *   \"You might be wondering...\"",
      "            *   \"A good example of this is...\"",
      "            *   \"In other words...\"",
      "            *   Add some interjection sounds such as \"umm\", \"uh-ha\", \"wow\", \"ok\".",
      "        4.  For *every* major concept or step, include at least one \"Why\" question to prompt explanation of the underlying reasons or importance. Examples:",
      "            *   \"Why is this important?\"",
      "            *   \"Why does this work?\"",
      "            *   \"Why choose this method?\"",
      "            * \"But why is that the case?\"",
      "        5.  Make the transcript feel like a real conversation, not just reading facts.",
      "        6.  The transcript must be written in English.",
      "        7.  Remove any code snippets and focus on the *explanation* of the concepts. If code is mentioned, give a *brief, high-level* description of what it does, *not* the code itself.",
      "        8.  Start explaining with the question WHY."
    ]

  /** Items 11 to 16 and the lead-in to the content. */
  const Rules: seq<string> := [
      "        11. Keep sentences short and easy to understand.",
      "        12. The format must be a conversational way, not instructure that focus for reading, no actual heading or subheading.",
      "        13. Do not include the code snippets, but explain code flow and its component meaning.",
      "        14. Do not use markdown, HTML, or any other formatting in the transcript. Please keep it plain text.",
      "        15. Do not include any URLs or external references in the transcript.",
      "        16. Convert numerical values to words (e.g., \"5\" becomes \"five\").",
      "",
      "        Here is the source content to convert:"
    ]

  const ClosingLines: seq<string> := ["", Margin + ClosingText, Margin]

  /** The empty first line, then the opening and instruction lines. */
  function Opening(topic: string, partInfo: string): seq<string>
  {
    ["", Margin + OpeningText + topic, Margin + InstructionText + partInfo]
  }

  function ContinueLine(partNumber: int): string
  {
    Margin + (if partNumber > 0 then ContinueItem else "")
  }

  function TransitionLine(partNumber: int, totalParts: int): string
  {
    Margin + (if partNumber < totalParts - 1 then TransitionItem else "")
  }

  /** The content between two fence lines. */
  function Fenced(content: string): seq<string>
  {
    [Fence, Margin + content, Fence]
  }

  /** The template's lines, in order. */
  function PromptLines(topic: string, content: string, partNumber: int, totalParts: int, partInfo: string)
    : (r: seq<string>)
    ensures |r| == 42
  {
    Opening(topic, partInfo) + Requirements + [ContinueLine(partNumber), TransitionLine(partNumber, totalParts)]
    + Rules + Fenced(content) + ClosingLines
  }

  /** `create_educational_transcript_prompt`: the template's 42 lines with
      a newline between each two and nothing else. */
  function CreatePrompt(topic: string, content: string, partNumber: int, totalParts: int, partInfo: string): (r: string)
    ensures |r| == TotalLength(PromptLines(topic, content, partNumber, totalParts, partInfo)) + 41
  {
    JoinLength("\n", PromptLines(topic, content, partNumber, totalParts, partInfo));
    Join("\n", PromptLines(topic, content, partNumber, totalParts, partInfo))
  }

  // ---------------------------------------------------------------------
  // Where the arguments land.

  /** Everything from the closing of item 10's line to the end: the rules,
      the fenced content and the closing instruction. */
  function RulesTail(content: string): string
  {
    "\n" + Join("\n", Rules + Fenced(content) + ClosingLines)
  }

  /** Where item 9's line starts: just after the eight requirements, a
      position fixed by the topic and the part note. */
  function ContinueOffset(topic: string, partInfo: string): nat
  {
    |Join("\n", Opening(topic, partInfo) + Requirements)| + 1
  }

  /** The prompt around the two continuity lines. */
  lemma PromptSplit(topic: string, content: string, partNumber: int, totalParts: int, partInfo: string)
    ensures CreatePrompt(topic, content, partNumber, totalParts, partInfo)
            == Join("\n", Opening(topic, partInfo) + Requirements) + "\n"
               + (ContinueLine(partNumber) + ("\n" + (TransitionLine(partNumber, totalParts) + RulesTail(content))))
  {
    JoinAround("\n", Opening(topic, partInfo) + Requirements, ContinueLine(partNumber),
               TransitionLine(partNumber, totalParts), Rules, Fenced(content), ClosingLines);
  }

  lemma JoinAround(sep: string, a: seq<string>, cl: string, tl: string, r: seq<string>, f: seq<string>, c: seq<string>)
    requires |a| > 0 && |r| > 0
    ensures Join(sep, a + [cl, tl] + r + f + c)
            == Join(sep, a) + sep + (cl + (sep + (tl + (sep + Join(sep, r + f + c)))))
  {
    var z := r + f + c;
    var t := [tl] + z;
    var u := [cl] + t;
    assert a + [cl, tl] + r + f + c == a + u;
    JoinAppend(sep, a, u);
    JoinCons(sep, cl, t);
    JoinCons(sep, tl, z);
    RegroupFive(Join(sep, a), sep, cl, tl, Join(sep, z));
  }

  lemma JoinCons(sep: string, x: string, t: seq<string>)
    requires |t| > 0
    ensures Join(sep, [x] + t) == x + sep + Join(sep, t)
  {
    JoinAppend(sep, [x], t);
  }

  lemma RegroupFive(ja: string, sep: string, cl: string, tl: string, jz: string)
    ensures ja + sep + (cl + sep + (tl + sep + jz)) == ja + sep + (cl + (sep + (tl + (sep + jz))))
  {
  }

  /** The prompt opens with an empty line, then the line naming the topic,
      then the instruction line with the part note appended to it. */
  lemma OpeningLines(topic: string, content: string, partNumber: int, totalParts: int, partInfo: string)
    ensures StartsWith(CreatePrompt(topic, content, partNumber, totalParts, partInfo),
                       "\n" + (Margin + OpeningText + topic) + "\n" + (Margin + InstructionText + partInfo) + "\n")
  {
    var rest := Requirements + [ContinueLine(partNumber), TransitionLine(partNumber, totalParts)]
                + Rules + Fenced(content) + ClosingLines;
    assert PromptLines(topic, content, partNumber, totalParts, partInfo)
           == ["", Margin + OpeningText + topic, Margin + InstructionText + partInfo] + rest;
    JoinOpening("\n", Margin, OpeningText, topic, InstructionText, partInfo, rest);
  }

  lemma JoinOpening(sep: string, m: string, o: string, topic: string, i: string, info: string, rest: seq<string>)
    requires |rest| > 0
    ensures StartsWith(Join(sep, ["", m + o + topic, m + i + info] + rest),
                       sep + (m + o + topic) + sep + (m + i + info) + sep)
  {
    JoinAppend(sep, ["", m + o + topic, m + i + info], rest);
    Join3(sep, "", m + o + topic, m + i + info);
    assert "" + sep == sep;
    var w := sep + (m + o + topic) + sep + (m + i + info) + sep;
    assert Join(sep, ["", m + o + topic, m + i + info] + rest) == w + Join(sep, rest);
  }

  /** Item 9 stands at its place exactly when the part is not the first. */
  lemma ContinueItemIff(topic: string, content: string, partNumber: int, totalParts: int, partInfo: string)
    ensures ContinueOffset(topic, partInfo) <= |CreatePrompt(topic, content, partNumber, totalParts, partInfo)|
    ensures StartsWith(CreatePrompt(topic, content, partNumber, totalParts, partInfo)[ContinueOffset(topic, partInfo)..],
                       Margin + ContinueItem)
            <==> partNumber > 0
  {
    PromptSplit(topic, content, partNumber, totalParts, partInfo);
    var front := Join("\n", Opening(topic, partInfo) + Requirements) + "\n";
    var after := "\n" + (TransitionLine(partNumber, totalParts) + RulesTail(content));
    DropFront(front, ContinueLine(partNumber) + after);
    if partNumber <= 0 {
      assert ContinueLine(partNumber) == Margin;
      StartsDiffer(Margin + after, Margin + ContinueItem, 8);
    }
  }

  /** Item 10 stands just before the rules exactly when the part is not
      the last. */
  lemma TransitionItemIff(topic: string, content: string, partNumber: int, totalParts: int, partInfo: string)
    ensures EndsWith(CreatePrompt(topic, content, partNumber, totalParts, partInfo),
                     Margin + TransitionItem + RulesTail(content))
            <==> partNumber < totalParts - 1
  {
    PromptSplit(topic, content, partNumber, totalParts, partInfo);
    var front := Join("\n", Opening(topic, partInfo) + Requirements) + "\n";
    var tl := TransitionLine(partNumber, totalParts);
    var tail := RulesTail(content);
    RegroupThree(front, ContinueLine(partNumber), "\n", tl + tail);
    var before := front + ContinueLine(partNumber) + "\n";
    if partNumber < totalParts - 1 {
      EndsWithSuffix(before, tl + tail);
    } else {
      assert tl == Margin;
      RegroupTwo(before, Margin, tail);
      EndsDiffer(before + Margin, tail, Margin + TransitionItem);
    }
  }

  lemma DropFront(x: string, y: string)
    ensures (x + y)[|x|..] == y
  {
  }

  lemma StartsDiffer(s: string, p: string, k: nat)
    requires k < |s| && k < |p| && s[k] != p[k]
    ensures !StartsWith(s, p)
  {
    if |p| <= |s| {
      assert s[..|p|][k] == s[k];
    }
  }

  lemma EndsWithSuffix(x: string, y: string)
    ensures EndsWith(x + y, y)
  {
    assert (x + y)[|x|..] == y;
  }

  lemma EndsDiffer(pre: string, tail: string, w: string)
    requires |pre| > 0 && |w| > 0 && pre[|pre| - 1] != w[|w| - 1]
    ensures !EndsWith(pre + tail, w + tail)
  {
    var s := pre + tail;
    var v := w + tail;
    if |v| <= |s| {
      assert s[|s| - |v|..][|w| - 1] == s[|pre| - 1] == pre[|pre| - 1];
      assert v[|w| - 1] == w[|w| - 1];
    }
  }

  lemma RegroupTwo(x: string, y: string, z: string)
    ensures x + (y + z) == x + y + z
  {
  }

  lemma RegroupThree(x: string, c: string, s: string, w: string)
    ensures x + (c + (s + w)) == x + c + s + w
  {
  }

  /** A prompt built with the defaults (part 0 of 1, no part note) carries
      neither continuity item. */
  lemma SinglePartHasNoContinuity(topic: string, content: string)
    ensures ContinueOffset(topic, "") <= |CreatePrompt(topic, content, 0, 1, "")|
    ensures !StartsWith(CreatePrompt(topic, content, 0, 1, "")[ContinueOffset(topic, "")..], Margin + ContinueItem)
    ensures !EndsWith(CreatePrompt(topic, content, 0, 1, ""), Margin + TransitionItem + RulesTail(content))
  {
    ContinueItemIff(topic, content, 0, 1, "");
    TransitionItemIff(topic, content, 0, 1, "");
  }

  /** The content sits on its own line between two fences, followed only
      by a blank line, the closing instruction and the closing margin. */
  lemma ContentFenced(topic: string, content: string, partNumber: int, totalParts: int, partInfo: string)
    ensures EndsWith(CreatePrompt(topic, content, partNumber, totalParts, partInfo),
                     Fence + "\n" + (Margin + content) + "\n" + Fence + "\n"
                     + ("\n" + (Margin + ClosingText) + "\n" + Margin))
  {
    var front := Opening(topic, partInfo) + Requirements
                 + [ContinueLine(partNumber), TransitionLine(partNumber, totalParts)] + Rules;
    assert PromptLines(topic, content, partNumber, totalParts, partInfo)
           == front + [Fence, Margin + content, Fence] + ["", Margin + ClosingText, Margin];
    JoinClosing("\n", front, Fence, Margin, content, ClosingText);
  }

  lemma JoinClosing(sep: string, front: seq<string>, f: string, m: string, content: string, closing: string)
    requires |front| > 0
    ensures EndsWith(Join(sep, front + [f, m + content, f] + ["", m + closing, m]),
                     f + sep + (m + content) + sep + f + sep + (sep + (m + closing) + sep + m))
  {
    var x := [f, m + content, f];
    var y := ["", m + closing, m];
    assert front + x + y == front + (x + y);
    JoinAppend(sep, front, x + y);
    JoinAppend(sep, x, y);
    Join3(sep, f, m + content, f);
    Join3(sep, "", m + closing, m);
    var j := Join(sep, front) + sep;
    assert "" + sep == sep;
    var w := f + sep + (m + content) + sep + f + sep + (sep + (m + closing) + sep + m);
    assert Join(sep, x + y) == w;
    assert Join(sep, front + x + y) == j + w;
    assert (j + w)[|j|..] == w;
  }

  /** Apart from the topic, part note, continuity and content lines, every
      line of the prompt is fixed text. */
  lemma FixedLines(topic: string, content: string, partNumber: int, totalParts: int, partInfo: string,
                   topic': string, content': string, partNumber': int, totalParts': int, partInfo': string)
    ensures forall i :: 0 <= i < 42 && i !in {1, 2, 26, 27, 37} ==>
              PromptLines(topic, content, partNumber, totalParts, partInfo)[i]
              == PromptLines(topic', content', partNumber', totalParts', partInfo')[i]
  {
  }
}

=== FILE: retry.dfy ===
/** The bounded retry loop around one model call, shared by the three
    transcript generators (`generate_transcript_chunk` in
    `transcript_maker/transcript_generator_parallel.py`, `generate_transcript`
    in `transcript_generator_parallel.py` and in `transcript_generator.py`).

    The model is an oracle: `responses[i]` is what the i-th call does, and
    a call past the end of the sequence raises. A response whose text is
    empty ends the loop at once with no transcript; only a raised call is
    retried, after a pause. */
module Retry {
  import opened Text

  /** `MAX_RETRIES`: the number of calls the loop may make. */
  const MaxRetries: nat := 3

  /** `RETRY_DELAY`: seconds of pause after a failed call that is not the last. */
  const RetryDelay: nat := 2

  /** One model call: it raised, or it answered with a (possibly empty) text. */
  datatype Response = Raised | Answered(text: string)

  /** What the loop did: its result, how many calls it made and how many
      pauses it took. */
  datatype Attempts = Attempts(result: Option<string>, calls: nat, sleeps: nat)

  /** The outcome of call `i`. */
  function ResponseAt(responses: seq<Response>, i: nat): Response
  {
    if i < |responses| then responses[i] else Raised
  }

  /** The loop from call `attempt` on. */
  function RetryFrom(responses: seq<Response>, attempt: nat): (r: Attempts)
    requires attempt < MaxRetries
    ensures attempt < r.calls <= MaxRetries
    ensures r.sleeps == r.calls - 1
    ensures forall j :: attempt <= j < r.calls - 1 ==> ResponseAt(responses, j).Raised?
    decreases MaxRetries - attempt
  {
    match ResponseAt(responses, attempt)
    case Answered(t) => Attempts(if t != "" then Some(t) else None, attempt + 1, attempt)
    case Raised =>
      if attempt < MaxRetries - 1 then RetryFrom(responses, attempt + 1)
      else Attempts(None, MaxRetries, attempt)
  }

  /** `for attempt in range(MAX_RETRIES)`: at most three calls, a pause
      after every raised call but the last, every call but the last one
      raised, the loop stops early only on an answer, and a transcript comes
      back exactly when the last call answered with non-empty text. */
  function Generate(responses: seq<Response>): (r: Attempts)
    ensures 1 <= r.calls <= MaxRetries
    ensures r.sleeps == r.calls - 1
    ensures forall j :: 0 <= j < r.calls - 1 ==> ResponseAt(responses, j).Raised?
    ensures r.calls < MaxRetries ==> ResponseAt(responses, r.calls - 1).Answered?
    ensures r.result.Some? <==>
              ResponseAt(responses, r.calls - 1).Answered? && ResponseAt(responses, r.calls - 1).text != ""
    ensures r.result.Some? ==> r.result.value == ResponseAt(responses, r.calls - 1).text
  {
    GenerateFrom(responses, 0);
    RetryFrom(responses, 0)
  }

  lemma {:induction false} GenerateFrom(responses: seq<Response>, attempt: nat)
    requires attempt < MaxRetries
    ensures var r := RetryFrom(responses, attempt);
            && (r.calls < MaxRetries ==> ResponseAt(responses, r.calls - 1).Answered?)
            && (r.result.Some? <==>
                  ResponseAt(responses, r.calls - 1).Answered? && ResponseAt(responses, r.calls - 1).text != "")
            && (r.result.Some? ==> r.result.value == ResponseAt(responses, r.calls - 1).text)
    decreases MaxRetries - attempt
  {
    if ResponseAt(responses, attempt).Raised? && attempt < MaxRetries - 1 {
      GenerateFrom(responses, attempt + 1);
    }
  }

  /** The first of the allowed calls that answers, if any: a reference
      definition by plain search. */
  function FirstAnswer(responses: seq<Response>, from: nat): (k: Option<nat>)
    requires from <= MaxRetries
    ensures k.Some? ==> from <= k.value < MaxRetries && ResponseAt(responses, k.value).Answered?
    ensures k.Some? ==> forall j :: from <= j < k.value ==> ResponseAt(responses, j).Raised?
    ensures k.None? ==> forall j :: from <= j < MaxRetries ==> ResponseAt(responses, j).Raised?
    decreases MaxRetries - from
  {
    if from == MaxRetries then None
    else if ResponseAt(responses, from).Answered? then Some(from)
    else FirstAnswer(responses, from + 1)
  }

  /** The loop agrees with the search: it makes one call more than the
      number of leading raised calls (three when all raise), and returns
      the first answer's text when that text is non-empty. */
  lemma GenerateIsFirstAnswer(responses: seq<Response>)
    ensures var r := Generate(responses);
            match FirstAnswer(responses, 0)
            case None => r.calls == MaxRetries && r.result.None?
            case Some(k) =>
              r.calls == k + 1
              && r.result == (if ResponseAt(responses, k).text != "" then Some(ResponseAt(responses, k).text) else None)
  {
  }

  /** An empty answer is final: no retry follows it. */
  lemma EmptyAnswerIsFinal(responses: seq<Response>)
    requires |responses| > 0 && responses[0] == Answered("")
    ensures Generate(responses) == Attempts(None, 1, 0)
  {
  }

  /** Three raised calls give up with no transcript after two pauses,
      whatever the model would have said on a fourth call. */
  lemma ThreeFailuresGiveUp(responses: seq<Response>)
    requires forall j :: 0 <= j < MaxRetries ==> ResponseAt(responses, j).Raised?
    ensures Generate(responses) == Attempts(None, 3, 2)
  {
    assert ResponseAt(responses, 0).Raised? && ResponseAt(responses, 1).Raised? && ResponseAt(responses, 2).Raised?;
  }

  /** The total pause the loop takes, in seconds. */
  lemma PauseBound(responses: seq<Response>)
    ensures Generate(responses).sleeps * RetryDelay <= 4
  {
  }
}

=== FILE: text.dfy ===
/** String and path helpers shared by every stage of the pipeline: the
    Python built-ins the source leans on (`str.join`, `str * n`,
    `str.strip`, `str.isalnum`, `str.capitalize`, `os.path.join`,
    `os.path.basename`, `os.path.splitext`, `str(int)`) restated over
    `seq<char>`. */
module Text {

  datatype Option<+T> = None | Some(value: T)

  /** A sequence whose first element is `x` and whose later elements are
      those of `rest`, in order, is `[x] + rest`. */
  lemma ConsOf<T>(r: seq<T>, x: T, rest: seq<T>)
    requires |r| == |rest| + 1 && r[0] == x
    requires forall i :: 1 <= i < |r| ==> r[i] == rest[i - 1]
    ensures r == [x] + rest
  {
    forall i | 0 <= i < |r|
      ensures r[i] == ([x] + rest)[i]
    {
    }
  }

  /** A sequence that starts with the elements of `a` and continues with
      those of `b`, in order, is `a + b`. */
  lemma ConcatOf<T>(r: seq<T>, a: seq<T>, b: seq<T>)
    requires |r| == |a| + |b|
    requires forall i :: 0 <= i < |a| ==> r[i] == a[i]
    requires forall i :: |a| <= i < |r| ==> r[i] == b[i - |a|]
    ensures r == a + b
  {
    forall i | 0 <= i < |r|
      ensures r[i] == (a + b)[i]
    {
    }
  }

  /** Taking the first element out of one sequence and a matching element
      out of a rearrangement of it leaves rearrangements of each other. */
  lemma RemoveMatched<T>(a: seq<T>, b: seq<T>, k: nat)
    requires multiset(a) == multiset(b) && |a| > 0 && k < |b| && b[k] == a[0]
    ensures multiset(a[1..]) == multiset(b[..k] + b[k + 1..])
  {
    var rest := b[..k] + b[k + 1..];
    assert b == b[..k] + [b[k]] + b[k + 1..];
    assert a == [a[0]] + a[1..];
    forall y
      ensures multiset(a[1..])[y] == multiset(rest)[y]
    {
      assert multiset(a)[y] == multiset{a[0]}[y] + multiset(a[1..])[y];
      assert multiset(b)[y] == multiset(b[..k])[y] + multiset{a[0]}[y] + multiset(b[k + 1..])[y];
      assert multiset(rest)[y] == multiset(b[..k])[y] + multiset(b[k + 1..])[y];
    }
  }

  /** Two rearrangements of each other that start alike stay rearrangements
      of each other once the first element is dropped. */
  lemma SameHeadTails<T>(a: seq<T>, b: seq<T>)
    requires multiset(a) == multiset(b) && |a| > 0 && |b| > 0 && a[0] == b[0]
    ensures multiset(a[1..]) == multiset(b[1..])
  {
    assert a == [a[0]] + a[1..];
    assert b == [b[0]] + b[1..];
    assert multiset(a[1..]) == multiset(a) - multiset{a[0]};
    assert multiset(b[1..]) == multiset(b) - multiset{b[0]};
  }

  /** `c * n` for a one-character string `c`. */
  function RepeatChar(c: char, n: nat): (r: string)
    ensures |r| == n
    ensures forall i :: 0 <= i < |r| ==> r[i] == c
  {
    if n == 0 then "" else RepeatChar(c, n - 1) + [c]
  }

  /** `"    " * level`: four spaces per nesting level. */
  function Indent(level: nat): (r: string)
    ensures |r| == 4 * level
    ensures forall i :: 0 <= i < |r| ==> r[i] == ' '
  {
    RepeatChar(' ', 4 * level)
  }

  /** `sep.join(parts)`, built the way a writer loop emits it: the parts in
      order, `sep` between neighbours and nowhere else. */
  function Join(sep: string, parts: seq<string>): (r: string)
  {
    if |parts| == 0 then ""
    else if |parts| == 1 then parts[0]
    else Join(sep, parts[..|parts| - 1]) + sep + parts[|parts| - 1]
  }

  /** Sum of the lengths of `parts`. */
  function TotalLength(parts: seq<string>): nat
  {
    if |parts| == 0 then 0 else TotalLength(parts[..|parts| - 1]) + |parts[|parts| - 1]|
  }

  lemma {:induction false} JoinLength(sep: string, parts: seq<string>)
    requires |parts| > 0
    ensures |Join(sep, parts)| == TotalLength(parts) + |sep| * (|parts| - 1)
  {
    if |parts| > 1 {
      var init := parts[..|parts| - 1];
      JoinLength(sep, init);
      var k := |parts| - 1;
      assert |sep| * (k - 1) + |sep| == |sep| * k by {
        MulStep(|sep|, k - 1);
      }
    }
  }

  lemma MulStep(a: nat, b: nat)
    ensures a * b + a == a * (b + 1)
  {
  }

  /** Joining splits at any inner boundary: `sep.join(a + b)` is
      `sep.join(a) + sep + sep.join(b)` when both halves are non-empty. */
  lemma {:induction false} JoinAppend(sep: string, a: seq<string>, b: seq<string>)
    requires |a| > 0 && |b| > 0
    ensures Join(sep, a + b) == Join(sep, a) + sep + Join(sep, b)
    decreases |b|
  {
    if |b| == 1 {
      assert (a + b)[..|a + b| - 1] == a;
    } else {
      var b' := b[..|b| - 1];
      assert (a + b)[..|a + b| - 1] == a + b';
      JoinAppend(sep, a, b');
    }
  }

  /** Three parts join with two separators. */
  lemma Join3(sep: string, a: string, b: string, c: string)
    ensures Join(sep, [a, b, c]) == a + sep + b + sep + c
  {
    assert [a, b, c][..2] == [a, b];
    assert [a, b][..1] == [a];
    assert Join(sep, [a]) == a;
    assert Join(sep, [a, b]) == a + sep + b;
  }

  /** A join is empty exactly when there is nothing to separate and every
      part is empty: two empty parts already join to `sep`. */
  lemma {:induction false} JoinEmptyIff(sep: string, parts: seq<string>)
    requires |sep| > 0
    ensures Join(sep, parts) == "" <==> (|parts| == 0 || (|parts| == 1 && parts[0] == ""))
  {
    if |parts| > 1 {
      assert |Join(sep, parts)| >= |sep|;
    }
  }

  // ---------------------------------------------------------------------
  // Decimal rendering of naturals (`str(n)`, `f"{n}"`).

  predicate IsDigit(c: char) { '0' <= c <= '9' }

  function DigitChar(d: nat): (c: char)
    requires d < 10
    ensures IsDigit(c)
  {
    (('0' as int) + d) as char
  }

  function NatToString(n: nat): (r: string)
    ensures |r| > 0
    ensures forall i :: 0 <= i < |r| ==> IsDigit(r[i])
    ensures r[0] == '0' <==> n == 0
  {
    if n < 10 then [DigitChar(n)] else NatToString(n / 10) + [DigitChar(n % 10)]
  }

  /** The decimal value of a string of digits: the inverse of `NatToString`. */
  function DigitsValue(s: string): nat
    requires forall i :: 0 <= i < |s| ==> IsDigit(s[i])
  {
    if |s| == 0 then 0
    else DigitsValue(s[..|s| - 1]) * 10 + DigitValue(s[|s| - 1])
  }

  function DigitValue(c: char): (d: nat)
    requires IsDigit(c)
    ensures d < 10 && DigitChar(d) == c
  {
    (c as int) - ('0' as int)
  }

  lemma {:induction false} NatToStringRoundTrip(n: nat)
    ensures DigitsValue(NatToString(n)) == n
  {
    if n >= 10 {
      var s := NatToString(n);
      assert s[..|s| - 1] == NatToString(n / 10);
      NatToStringRoundTrip(n / 10);
    }
  }

  /** Distinct numbers print differently. */
  lemma NatToStringInjective(m: nat, n: nat)
    requires NatToString(m) == NatToString(n)
    ensures m == n
  {
    NatToStringRoundTrip(m);
    NatToStringRoundTrip(n);
  }

  /** The number of leading digits of `s`. */
  function DigitRun(s: string): (n: nat)
    ensures n <= |s|
  {
    if |s| == 0 || !IsDigit(s[0]) then 0 else 1 + DigitRun(s[1..])
  }

  lemma {:induction false} DigitRunOf(a: string, x: string)
    requires forall i :: 0 <= i < |a| ==> IsDigit(a[i])
    requires |x| > 0 && !IsDigit(x[0])
    ensures DigitRun(a + x) == |a|
  {
    if |a| > 0 {
      assert (a + x)[1..] == a[1..] + x;
      DigitRunOf(a[1..], x);
    }
  }

  /** A run of digits followed by a non-digit splits a string in one way
      only: where the digits stop. */
  lemma DigitsPrefixUnique(a: string, x: string, b: string, y: string)
    requires forall i :: 0 <= i < |a| ==> IsDigit(a[i])
    requires forall i :: 0 <= i < |b| ==> IsDigit(b[i])
    requires |x| > 0 && !IsDigit(x[0]) && |y| > 0 && !IsDigit(y[0])
    requires a + x == b + y
    ensures a == b && x == y
  {
    DigitRunOf(a, x);
    DigitRunOf(b, y);
    assert a == (a + x)[..|a|];
    assert b == (b + y)[..|b|];
    assert x == (a + x)[|a|..];
    assert y == (b + y)[|b|..];
  }

  // ---------------------------------------------------------------------
  // Character classes.

  /** `str.isalnum` restricted to ASCII letters and digits. */
  predicate IsAlnum(c: char)
  {
    ('a' <= c <= 'z') || ('A' <= c <= 'Z') || IsDigit(c)
  }

  /** `str.isspace`: the characters Python's `str.strip()` removes. */
  predicate IsSpace(c: char)
  {
    var k := c as int;
    k == 32 || (9 <= k <= 13) || (28 <= k <= 31) || k == 0x85 || k == 0xA0
    || k == 0x1680 || (0x2000 <= k <= 0x200A) || k == 0x2028 || k == 0x2029
    || k == 0x202F || k == 0x205F || k == 0x3000
  }

  function ToUpper(c: char): char
  {
    if 'a' <= c <= 'z' then (c as int - 32) as char else c
  }

  function ToLower(c: char): char
  {
    if 'A' <= c <= 'Z' then (c as int + 32) as char else c
  }

  function LowerAll(s: string): (r: string)
    ensures |r| == |s|
    ensures forall i :: 0 <= i < |s| ==> r[i] == ToLower(s[i])
  {
    if |s| == 0 then "" else [ToLower(s[0])] + LowerAll(s[1..])
  }

  /** `str.capitalize`: first character upper case, the rest lower case. */
  function Capitalize(s: string): (r: string)
    ensures |r| == |s|
    ensures |s| > 0 ==> r[0] == ToUpper(s[0])
    ensures forall i :: 0 < i < |s| ==> r[i] == ToLower(s[i])
  {
    if |s| == 0 then "" else [ToUpper(s[0])] + LowerAll(s[1..])
  }

  // ---------------------------------------------------------------------
  // Prefixes, suffixes, stripping.

  predicate StartsWith(s: string, prefix: string)
  {
    |prefix| <= |s| && s[..|prefix|] == prefix
  }

  predicate EndsWith(s: string, suffix: string)
  {
    |suffix| <= |s| && s[|s| - |suffix|..] == suffix
  }

  function TrimStart(s: string): (r: string)
    ensures |r| <= |s| && r == s[|s| - |r|..]
    ensures forall i :: 0 <= i < |s| - |r| ==> IsSpace(s[i])
    ensures |r| > 0 ==> !IsSpace(r[0])
  {
    if |s| > 0 && IsSpace(s[0]) then TrimStart(s[1..]) else s
  }

  function TrimEnd(s: string): (r: string)
    ensures |r| <= |s| && r == s[..|r|]
    ensures forall i :: |r| <= i < |s| ==> IsSpace(s[i])
    ensures |r| > 0 ==> !IsSpace(r[|r| - 1])
  {
    if |s| > 0 && IsSpace(s[|s| - 1]) then TrimEnd(s[..|s| - 1]) else s
  }

  /** `str.strip()`: the longest slice with no leading or trailing whitespace. */
  function Strip(s: string): (r: string)
    ensures |r| > 0 ==> !IsSpace(r[0]) && !IsSpace(r[|r| - 1])
    ensures r == "" <==> forall i :: 0 <= i < |s| ==> IsSpace(s[i])
  {
    var t := TrimStart(s);
    var r := TrimEnd(t);
    assert |r| > 0 ==> r[0] == t[0];
    r
  }

  /** `s.split('\n')[0]`: everything before the first newline. */
  function FirstLine(s: string): (r: string)
    ensures StartsWith(s, r)
    ensures forall i :: 0 <= i < |r| ==> r[i] != '\n'
    ensures |r| < |s| ==> s[|r|] == '\n'
  {
    if |s| == 0 || s[0] == '\n' then "" else [s[0]] + FirstLine(s[1..])
  }

  /** `s.replace(a, b)` for single characters. */
  function ReplaceChar(s: string, a: char, b: char): (r: string)
    ensures |r| == |s|
    ensures forall i :: 0 <= i < |s| ==> r[i] == (if s[i] == a then b else s[i])
  {
    if |s| == 0 then "" else [if s[0] == a then b else s[0]] + ReplaceChar(s[1..], a, b)
  }

  // ---------------------------------------------------------------------
  // POSIX path helpers.

  /** `b` does not start with `/`, so `os.path.join` keeps what comes
      before it. */
  predicate Relative(b: string)
  {
    !(|b| > 0 && b[0] == '/')
  }

  /** `a` is non-empty and does not end in `/`, so joining puts one after it. */
  predicate NeedsSlash(a: string)
  {
    a != "" && a[|a| - 1] != '/'
  }

  /** What a relative name is appended to when joined under `a`. */
  function DirPrefix(a: string): (r: string)
    ensures NeedsSlash(a) ==> r == a + "/"
    ensures !NeedsSlash(a) ==> r == a
  {
    if NeedsSlash(a) then a + "/" else a
  }

  /** `os.path.join(a, b)`: an absolute `b` wins; otherwise a `/` is put
      between the two unless `a` is empty or already ends in one. */
  function PathJoin(a: string, b: string): (r: string)
    ensures EndsWith(r, b)
    ensures !Relative(b) ==> r == b
    ensures Relative(b) && NeedsSlash(a) ==> r == a + "/" + b
    ensures Relative(b) && !NeedsSlash(a) ==> r == a + b
    ensures Relative(b) ==> r == DirPrefix(a) + b
  {
    if |b| > 0 && b[0] == '/' then b
    else if a == "" || a[|a| - 1] == '/' then a + b
    else a + "/" + b
  }

  /** A suffix stays a suffix when the same text is appended to both. */
  lemma EndsWithAppend(s: string, suffix: string, t: string)
    requires EndsWith(s, suffix)
    ensures EndsWith(s + t, suffix + t)
  {
    assert (s + t)[|s + t| - |suffix + t|..] == s[|s| - |suffix|..] + t;
  }

  /** Whatever comes before it, a text ends with itself. */
  lemma EndsWithConcat(p: string, s: string)
    ensures EndsWith(p + s, s)
  {
    assert (p + s)[|p + s| - |s|..] == s;
  }

  /** A suffix of a suffix is a suffix. */
  lemma EndsWithTrans(s: string, t: string, u: string)
    requires EndsWith(s, t) && EndsWith(t, u)
    ensures EndsWith(s, u)
  {
    assert s[|s| - |u|..] == t[|t| - |u|..];
  }

  /** A relative name joined under a relative sub-directory (one that does
      not end in `/`) of any directory is the directory's prefix, the
      sub-directory, `/` and the name. */
  lemma PathJoinUnderValue(dir: string, sub: string, name: string)
    requires |sub| > 0 && sub[0] != '/' && sub[|sub| - 1] != '/'
    requires |name| > 0 && name[0] != '/'
    ensures PathJoin(PathJoin(dir, sub), name) == DirPrefix(dir) + sub + "/" + name
  {
    var d := PathJoin(dir, sub);
    assert d == DirPrefix(dir) + sub;
    assert d[|d| - 1] == sub[|sub| - 1];
    assert NeedsSlash(d);
  }

  /** A relative name joined under a relative sub-directory (one that does
      not end in `/`) of any directory ends with `sub/name`. */
  lemma PathJoinUnder(dir: string, sub: string, name: string)
    requires |sub| > 0 && sub[0] != '/' && sub[|sub| - 1] != '/'
    requires |name| > 0 && name[0] != '/'
    ensures EndsWith(PathJoin(PathJoin(dir, sub), name), sub + "/" + name)
  {
    var d := PathJoin(dir, sub);
    assert d[|d| - 1] == sub[|sub| - 1] by {
      assert d[|d| - |sub|..][|sub| - 1] == d[|d| - 1];
    }
    assert PathJoin(d, name) == d + ("/" + name);
    EndsWithAppend(d, sub, "/" + name);
    assert sub + "/" + name == sub + ("/" + name);
  }

  /** Under one directory, relative names keep their identity: joining is
      injective in the second argument. */
  lemma PathJoinInjective(dir: string, n: string, m: string)
    requires |n| > 0 && n[0] != '/'
    requires |m| > 0 && m[0] != '/'
    ensures PathJoin(dir, n) == PathJoin(dir, m) <==> n == m
  {
    var sep := if dir == "" || dir[|dir| - 1] == '/' then "" else "/";
    assert PathJoin(dir, n) == (dir + sep) + n;
    assert PathJoin(dir, m) == (dir + sep) + m;
    if PathJoin(dir, n) == PathJoin(dir, m) {
      assert n == PathJoin(dir, n)[|dir + sep|..];
      assert m == PathJoin(dir, m)[|dir + sep|..];
    }
  }

  /** Position just after the last `/`, or 0 when there is none. */
  function AfterLastSlash(s: string): (k: nat)
    ensures k <= |s|
    ensures k > 0 ==> s[k - 1] == '/'
    ensures forall i :: k <= i < |s| ==> s[i] != '/'
  {
    if |s| == 0 then 0
    else if s[|s| - 1] == '/' then |s|
    else AfterLastSlash(s[..|s| - 1])
  }

  /** Position `k` of `s` starts it or follows a `/`. */
  predicate SlashBefore(s: string, k: nat)
  {
    k == 0 || (k <= |s| && s[k - 1] == '/')
  }

  /** `os.path.basename`: the part after the last `/`, so the longest
      suffix without one: either the whole path or a suffix right after a
      `/`. */
  function BaseName(path: string): (r: string)
    ensures EndsWith(path, r)
    ensures forall i :: 0 <= i < |r| ==> r[i] != '/'
    ensures SlashBefore(path, |path| - |r|)
  {
    path[AfterLastSlash(path)..]
  }

  /** Index of the last `.` in `s`, if any. */
  function LastDot(s: string): (k: Option<nat>)
    ensures k.Some? ==> k.value < |s| && s[k.value] == '.'
    ensures k.Some? ==> forall i :: k.value < i < |s| ==> s[i] != '.'
    ensures k.None? ==> forall i :: 0 <= i < |s| ==> s[i] != '.'
  {
    if |s| == 0 then None
    else if s[|s| - 1] == '.' then Some(|s| - 1)
    else LastDot(s[..|s| - 1])
  }

  /** `os.path.splitext(name)[0]` for a name without `/`: the text before
      the last dot, unless every character before that dot is itself a dot
      (a leading-dot name such as `.profile` has no extension). */
  function Stem(name: string): (r: string)
    ensures StartsWith(name, r)
  {
    match LastDot(name)
    case None => name
    case Some(d) =>
      if exists i :: 0 <= i < d && name[i] != '.' then name[..d] else name
  }
}

=== FILE: transcript_common.dfy ===
/** The file-level helpers the three transcript generators share word for
    word (`get_text_files`, `extract_topic` and the output naming inside
    `process_file` of `transcript_generator.py`,
    `transcript_generator_parallel.py` and
    `transcript_maker/transcript_generator_parallel.py`). */
module TranscriptCommon {
  import opened Text
  import Retry

  /** The model's behaviour for request `i` (a chunk, or a file); a request
      with nothing recorded raises on every call. */
  function OracleAt(oracle: seq<seq<Retry.Response>>, i: nat): seq<Retry.Response>
  {
    if i < |oracle| then oracle[i] else []
  }

  /** What reading file `i` gives: an unreadable file reads as empty. */
  function ContentAt(contents: seq<string>, i: nat): string
  {
    if i < |contents| then contents[i] else ""
  }

  /** A transcript written to disk. */
  datatype Saved = Saved(path: string, transcript: string)

  /** A text made of whitespace only (the empty text included). */
  predicate Blank(s: string)
  {
    forall i :: 0 <= i < |s| ==> IsSpace(s[i])
  }

  /** The fallback topic: the file's base name without its extension, with
      underscores read as spaces. */
  function FileTopic(filename: string): (r: string)
    ensures |r| == |Stem(BaseName(filename))|
    ensures forall i :: 0 <= i < |r| ==>
              r[i] == (if Stem(BaseName(filename))[i] == '_' then ' ' else Stem(BaseName(filename))[i])
    ensures forall i :: 0 <= i < |r| ==> r[i] != '_' && r[i] != '/'
  {
    ReplaceChar(Stem(BaseName(filename)), '_', ' ')
  }

  /** `r` is the first line of the text in `content`: a non-empty piece of
      the content that starts at its first non-blank character and holds no
      newline. Either a newline follows it and more text comes after, or
      only whitespace follows it and it does not end in whitespace. */
  predicate LeadingLine(r: string, content: string)
  {
    var k := TopicStart(content);
    && r != "" && !IsSpace(r[0])
    && (forall i :: 0 <= i < |r| ==> r[i] != '\n')
    && k + |r| <= |content| && content[k..k + |r|] == r
    && ((k + |r| < |content| && content[k + |r|] == '\n' && !Blank(content[k + |r|..]))
        || (Blank(content[k + |r|..]) && !IsSpace(r[|r| - 1])))
  }

  /** Where a first line may stop: at the end of the content, at a
      newline, or where only whitespace follows. */
  predicate StopsAt(content: string, m: nat)
    requires m <= |content|
  {
    m == |content| || content[m] == '\n' || Blank(content[m..])
  }

  /** A leading line stops where it ends and at no earlier position. */
  lemma LeadingLineStops(r: string, content: string)
    requires LeadingLine(r, content)
    ensures StopsAt(content, TopicStart(content) + |r|)
    ensures forall m :: TopicStart(content) <= m < TopicStart(content) + |r| ==> !StopsAt(content, m)
  {
    var k := TopicStart(content);
    var e := k + |r|;
    forall m | k <= m < e
      ensures !StopsAt(content, m)
    {
      assert content[m] == r[m - k] by {
        assert content[k..e][m - k] == r[m - k];
      }
      if Blank(content[e..]) {
        assert content[m..][e - 1 - m] == r[|r| - 1] by {
          assert content[k..e][|r| - 1] == r[|r| - 1];
        }
      } else {
        var i :| 0 <= i < |content[e..]| && !IsSpace(content[e..][i]);
        assert content[m..][e - m + i] == content[e..][i];
      }
    }
  }

  /** The leading line is determined by the content: no two strings are
      both its first line. */
  lemma LeadingLineUnique(r: string, q: string, content: string)
    requires LeadingLine(r, content) && LeadingLine(q, content)
    ensures r == q
  {
    var k := TopicStart(content);
    LeadingLineStops(r, content);
    LeadingLineStops(q, content);
    if |r| != |q| {
      assert false;
    } else {
      assert r == content[k..k + |r|] == q;
    }
  }

  /** `extract_topic`: the first line of the stripped content, or the file
      topic when there is no text at all. */
  function ExtractTopic(content: string, filename: string): (r: string)
    ensures Blank(content) ==> r == FileTopic(filename)
    ensures !Blank(content) ==> LeadingLine(r, content)
  {
    var firstLine := if content != "" then FirstLine(Strip(content)) else "";
    if firstLine != "" then
      TopicFromContent(content);
      firstLine
    else FileTopic(filename)
  }

  /** Where the topic starts in the content: after its leading whitespace. */
  function TopicStart(content: string): nat
  {
    |content| - |TrimStart(content)|
  }

  /** The stripped content is the slice from the topic start, followed only
      by whitespace. */
  lemma StripIsSlice(content: string)
    ensures var k := TopicStart(content);
            var s := Strip(content);
            k + |s| <= |content| && content[k..k + |s|] == s && Blank(content[k + |s|..])
  {
    StripParts(content);
    SliceInSuffix(content, TopicStart(content), TrimStart(content), Strip(content));
  }

  /** Stripping drops the leading whitespace, then trailing whitespace from
      what is left. */
  lemma StripParts(content: string)
    ensures var t := TrimStart(content);
            var s := Strip(content);
            && TopicStart(content) <= |content| && t == content[TopicStart(content)..]
            && |s| <= |t| && s == t[..|s|]
            && forall i :: |s| <= i < |t| ==> IsSpace(t[i])
  {
    var t := TrimStart(content);
    assert TopicStart(content) == |content| - |t|;
    assert Strip(content) == TrimEnd(t);
  }

  /** A prefix of a suffix, followed there only by whitespace, is a slice
      followed only by whitespace. */
  lemma SliceInSuffix(c: string, k: nat, t: string, s: string)
    requires k <= |c| && t == c[k..]
    requires |s| <= |t| && s == t[..|s|]
    requires forall i :: |s| <= i < |t| ==> IsSpace(t[i])
    ensures k + |s| <= |c| && c[k..k + |s|] == s && Blank(c[k + |s|..])
  {
    assert c[k..k + |s|] == s by {
      forall i | 0 <= i < |s|
        ensures c[k..k + |s|][i] == s[i]
      {
        assert c[k + i] == t[i];
      }
    }
    var tail := c[k + |s|..];
    forall i | 0 <= i < |tail|
      ensures IsSpace(tail[i])
    {
      assert tail[i] == t[|s| + i];
    }
  }

  lemma TopicFromContent(content: string)
    requires !Blank(content)
    ensures LeadingLine(FirstLine(Strip(content)), content)
  {
    StripIsSlice(content);
    LeadingLineOf(content, TopicStart(content), Strip(content), FirstLine(Strip(content)));
  }

  /** The first line of a stripped slice that starts at the topic start and
      is followed only by whitespace is the content's leading line. */
  lemma LeadingLineOf(content: string, k: nat, s: string, r: string)
    requires k == TopicStart(content)
    requires k + |s| <= |content| && content[k..k + |s|] == s && Blank(content[k + |s|..])
    requires |s| > 0 && !IsSpace(s[0]) && !IsSpace(s[|s| - 1])
    requires StartsWith(s, r) && (forall i :: 0 <= i < |r| ==> r[i] != '\n')
    requires |r| < |s| ==> s[|r|] == '\n'
    ensures LeadingLine(r, content)
  {
    assert |r| > 0;
    assert r[0] == s[0];
    SliceOfSlice(content, k, s, r);
    LineEnd(content, k, s, r);
  }

  /** How the first line of a stripped slice ends: at a newline with text
      after it, or at the end of the slice, where only whitespace follows. */
  lemma LineEnd(content: string, k: nat, s: string, r: string)
    requires k + |s| <= |content| && content[k..k + |s|] == s && Blank(content[k + |s|..])
    requires |s| > 0 && !IsSpace(s[|s| - 1])
    requires |r| > 0 && |r| <= |s| && r == s[..|r|]
    requires |r| < |s| ==> s[|r|] == '\n'
    requires content[k..k + |r|] == r
    requires |r| < |s| ==> content[k + |r|] == s[|r|]
    requires |r| == |s| ==> content[k + |r|..] == content[k + |s|..]
    ensures (k + |r| < |content| && content[k + |r|] == '\n' && !Blank(content[k + |r|..]))
            || (Blank(content[k + |r|..]) && !IsSpace(r[|r| - 1]))
  {
    if |r| < |s| {
      assert content[k + |s| - 1] == s[|s| - 1] by {
        assert content[k..k + |s|][|s| - 1] == s[|s| - 1];
      }
      assert content[k + |r|..][|s| - 1 - |r|] == content[k + |s| - 1];
    } else {
      assert r[|r| - 1] == s[|s| - 1];
    }
  }

  /** A prefix of a slice is a slice from the same start, and the slice
      goes on with the next character of the longer one. */
  lemma SliceOfSlice(content: string, k: nat, s: string, r: string)
    requires k + |s| <= |content| && content[k..k + |s|] == s
    requires |r| <= |s| && r == s[..|r|]
    ensures content[k..k + |r|] == r
    ensures |r| < |s| ==> content[k + |r|] == s[|r|]
    ensures |r| == |s| ==> content[k + |r|..] == content[k + |s|..]
  {
    assert forall i :: 0 <= i < |s| ==> content[k + i] == s[i] by {
      forall i | 0 <= i < |s|
        ensures content[k + i] == s[i]
      {
        assert content[k..k + |s|][i] == content[k + i];
      }
    }
  }

  /** `get_text_files`: the `.txt` entries of the listing, in listing order,
      joined onto the directory. A directory that does not exist (`None`)
      raises `ValueError`, which is `None` again. */
  function TextFiles(directory: string, listing: Option<seq<string>>): (r: Option<seq<string>>)
    ensures r.Some? <==> listing.Some?
    ensures r.Some? ==> forall p :: p in r.value <==>
              exists name :: name in listing.value && EndsWith(name, ".txt") && p == PathJoin(directory, name)
  {
    match listing
    case None => None
    case Some(names) => Some(TextFilesOf(directory, names))
  }

  function TextFilesOf(directory: string, names: seq<string>): (r: seq<string>)
    ensures |r| <= |names|
    ensures forall p :: p in r <==>
              exists name :: name in names && EndsWith(name, ".txt") && p == PathJoin(directory, name)
  {
    if |names| == 0 then []
    else
      var rest := TextFilesOf(directory, names[1..]);
      assert forall name :: name in names <==> name == names[0] || name in names[1..];
      if EndsWith(names[0], ".txt") then [PathJoin(directory, names[0])] + rest else rest
  }

  /** The name a transcript is saved under: `transcript_` and the input's
      base name without extension, with `.txt`. */
  function TranscriptName(filePath: string): (r: string)
    ensures StartsWith(r, "transcript_") && EndsWith(r, ".txt")
    ensures EndsWith(r, Stem(BaseName(filePath)) + ".txt")
    ensures |r| == 15 + |Stem(BaseName(filePath))|
  {
    var stem := Stem(BaseName(filePath));
    var r := "transcript_" + stem + ".txt";
    assert r[|r| - |stem + ".txt"|..] == stem + ".txt";
    r
  }

  /** Where the transcript of `filePath` is saved under `outputDir`. */
  function TranscriptPath(outputDir: string, filePath: string): (r: string)
    ensures r == DirPrefix(outputDir) + TranscriptName(filePath)
    ensures NeedsSlash(outputDir) ==> r == outputDir + "/" + TranscriptName(filePath)
    ensures EndsWith(r, TranscriptName(filePath))
  {
    assert TranscriptName(filePath)[0] == 't';
    PathJoin(outputDir, TranscriptName(filePath))
  }

  /** Two inputs share a transcript file exactly when their base names have
      the same stem: the input's directory plays no part. */
  lemma TranscriptPathCollision(outputDir: string, p: string, q: string)
    ensures TranscriptPath(outputDir, p) == TranscriptPath(outputDir, q)
            <==> Stem(BaseName(p)) == Stem(BaseName(q))
  {
    var n := TranscriptName(p);
    var m := TranscriptName(q);
    assert n[0] == 't' && m[0] == 't';
    PathJoinInjective(outputDir, n, m);
    if n == m {
      assert Stem(BaseName(p)) == n[11..|n| - 4];
      assert Stem(BaseName(q)) == m[11..|m| - 4];
    }
  }
}

=== FILE: transcript_maker.dfy ===
/** The chunked transcript generator
    (`transcript_maker/transcript_generator_parallel.py`): a text file is
    read, its topic found, its content cut into chunks when it is long, a
    transcript asked for every chunk in turn, and the parts joined and saved
    as `output/transcripts-parallel/transcript_<stem>.txt`.

    The library splitter that cuts long content is a parameter (its result
    for this content), and so is the model: `oracle[i]` is what the calls for
    chunk `i` do. */
module TranscriptMaker {
  import opened Text
  import Retry
  import Prompt
  import opened TranscriptCommon

  const OutputDir := "output/transcripts-parallel"

  /** `MAX_CHUNK_SIZE`: content up to this many characters is sent whole. */
  const MaxChunkSize: nat := 6000

  const PartPrefix := "\nThis is part "

  const PartSuffix := " of the content."

  /** The note appended to the instruction line of a multi-part prompt;
      empty for a single part. */
  function PartInfo(partNumber: nat, totalParts: nat): (r: string)
    ensures r == "" <==> totalParts <= 1
    ensures totalParts > 1 ==> StartsWith(r, PartPrefix) && EndsWith(r, PartSuffix)
    ensures totalParts > 1 ==> StartsWith(r, PartPrefix + NatToString(partNumber + 1) + " of ")
                               && EndsWith(r, NatToString(totalParts) + PartSuffix)
                               && |r| == |PartPrefix| + |NatToString(partNumber + 1)| + 4
                                         + |NatToString(totalParts)| + |PartSuffix|
  {
    if totalParts > 1 then
      Framed(PartPrefix, NatToString(partNumber + 1), " of ", NatToString(totalParts), PartSuffix);
      PartPrefix + (NatToString(partNumber + 1) + (" of " + (NatToString(totalParts) + PartSuffix)))
    else ""
  }

  lemma Framed(pre: string, a: string, b: string, c: string, suf: string)
    requires |pre| > 0
    ensures var r := pre + (a + (b + (c + suf)));
            && r != "" && StartsWith(r, pre) && EndsWith(r, suf)
            && StartsWith(r, pre + a + b) && EndsWith(r, c + suf)
            && |r| == |pre| + |a| + |b| + |c| + |suf|
  {
    var r := pre + (a + (b + (c + suf)));
    assert r[..|pre|] == pre;
    assert r[|r| - |suf|..] == suf;
    assert r[..|pre + a + b|] == pre + a + b;
    assert r[|r| - |c + suf|..] == c + suf;
  }

  /** The note names the part: distinct positions of multi-part content get
      distinct notes. */
  lemma PartInfoInjective(n: nat, t: nat, n': nat, t': nat)
    requires t > 1 && t' > 1
    ensures PartInfo(n, t) == PartInfo(n', t') <==> n == n' && t == t'
  {
    if PartInfo(n, t) == PartInfo(n', t') {
      var a, a' := NatToString(n + 1), NatToString(n' + 1);
      var tail := " of " + (NatToString(t) + PartSuffix);
      var tail' := " of " + (NatToString(t') + PartSuffix);
      DropPrefix(PartPrefix, a + tail, a' + tail');
      assert tail[0] == ' ' && tail'[0] == ' ';
      DigitsPrefixUnique(a, tail, a', tail');
      NatToStringInjective(n + 1, n' + 1);
      DropPrefix(" of ", NatToString(t) + PartSuffix, NatToString(t') + PartSuffix);
      assert PartSuffix[0] == ' ';
      DigitsPrefixUnique(NatToString(t), PartSuffix, NatToString(t'), PartSuffix);
      NatToStringInjective(t, t');
    }
  }

  lemma DropPrefix(p: string, x: string, y: string)
    requires p + x == p + y
    ensures x == y
  {
    assert x == (p + x)[|p|..];
    assert y == (p + y)[|p|..];
  }

  lemma PartInfoExample()
    ensures PartInfo(0, 3) == PartPrefix + "1 of 3" + PartSuffix
  {
    OneAndThree();
  }

  lemma OneAndThree()
    ensures NatToString(1) == "1" && NatToString(3) == "3"
  {
  }

  /** `split_content`: content that fits is one chunk, unchanged; longer
      content is cut by the library splitter. */
  function SplitContent(content: string, librarySplit: seq<string>): (r: seq<string>)
    ensures |content| <= MaxChunkSize ==> r == [content]
    ensures |content| > MaxChunkSize ==> r == librarySplit
  {
    if |content| <= MaxChunkSize then [content] else librarySplit
  }

  /** The arguments `create_educational_transcript_prompt` is called with. */
  datatype PromptArgs = PromptArgs(topic: string, content: string, partNumber: nat, totalParts: nat, partInfo: string)

  /** The prompt text those arguments build. */
  function PromptText(a: PromptArgs): string
  {
    Prompt.CreatePrompt(a.topic, a.content, a.partNumber, a.totalParts, a.partInfo)
  }

  /** One chunk's request: the prompt sent, given by the arguments it is
      built from, and what the retry loop did. */
  datatype ChunkCall = ChunkCall(prompt: PromptArgs, attempts: Retry.Attempts)

  /** `generate_transcript_chunk`: the prompt is built with the part note,
      which is non-empty only when there are several parts; at most three
      calls are made, and a text comes back only when it is non-empty. */
  function GenerateChunk(content: string, topic: string, partNumber: nat, totalParts: nat,
                         responses: seq<Retry.Response>): (r: ChunkCall)
    ensures 1 <= r.attempts.calls <= Retry.MaxRetries
    ensures r.attempts.result.Some? ==> r.attempts.result.value != ""
  {
    ChunkCall(PromptArgs(topic, content, partNumber, totalParts, PartInfo(partNumber, totalParts)),
              Retry.Generate(responses))
  }

  /** A chunk's prompt opens with the line naming the topic and the
      instruction line carrying the part note. */
  lemma ChunkPromptOpening(content: string, topic: string, partNumber: nat, totalParts: nat,
                           responses: seq<Retry.Response>)
    ensures StartsWith(PromptText(GenerateChunk(content, topic, partNumber, totalParts, responses).prompt),
                       "\n" + (Prompt.Margin + Prompt.OpeningText + topic) + "\n"
                       + (Prompt.Margin + Prompt.InstructionText + PartInfo(partNumber, totalParts)) + "\n")
  {
    Prompt.OpeningLines(topic, content, partNumber, totalParts, PartInfo(partNumber, totalParts));
  }

  /** What the requests for chunk `i` bring back. */
  function ChunkOutcome(oracle: seq<seq<Retry.Response>>, i: nat): (r: Option<string>)
    ensures r.Some? ==> r.value != ""
  {
    Retry.Generate(OracleAt(oracle, i)).result
  }

  /** The requests made and the transcript obtained. */
  datatype Generation = Generation(calls: seq<ChunkCall>, transcript: Option<string>)

  /** How far the chunk loop got, and what it returned. */
  datatype Combined = Combined(requested: nat, transcript: Option<string>)

  /** The loop over the chunks from `i` on (of `count` in all), `parts`
      holding the texts of the earlier ones. A falsy part ends the loop; the
      retry loop never returns an empty text, so only a missing one can. */
  function CombineFrom(count: nat, oracle: seq<seq<Retry.Response>>, i: nat, parts: seq<string>): (c: Combined)
    requires i <= count
    ensures i <= c.requested <= count
    decreases count - i
  {
    if i == count then Combined(count, Some(Join("\n\n", parts)))
    else
      match ChunkOutcome(oracle, i)
      case None => Combined(i + 1, None)
      case Some(t) => CombineFrom(count, oracle, i + 1, parts + [t])
  }

  /** `generate_transcript`: a single chunk is sent as the original content
      with the default part numbers; otherwise the chunks are requested in
      order, each with its position, until one fails. */
  function GenerateTranscript(content: string, topic: string, chunks: seq<string>,
                              oracle: seq<seq<Retry.Response>>): (r: Generation)
    ensures |chunks| == 1 ==> |r.calls| == 1 && r.calls[0].prompt == PromptArgs(topic, content, 0, 1, "")
                              && r.transcript == ChunkOutcome(oracle, 0)
    ensures |chunks| != 1 ==> |r.calls| <= |chunks|
    ensures |chunks| != 1 ==> forall j :: 0 <= j < |r.calls| ==>
              r.calls[j].prompt == PromptArgs(topic, chunks[j], j, |chunks|, PartInfo(j, |chunks|))
    ensures forall j :: 0 <= j < |r.calls| ==> r.calls[j].attempts == Retry.Generate(OracleAt(oracle, j))
  {
    if |chunks| == 1 then
      var c := GenerateChunk(content, topic, 0, 1, OracleAt(oracle, 0));
      Generation([c], c.attempts.result)
    else
      var c := CombineFrom(|chunks|, oracle, 0, []);
      Generation(seq(c.requested, j requires 0 <= j < c.requested =>
                       GenerateChunk(chunks[j], topic, j, |chunks|, OracleAt(oracle, j))),
                 c.transcript)
  }

  // ---------------------------------------------------------------------
  // A reference reading of the chunk loop.

  /** The first chunk at or after `from` whose requests bring no text. */
  function FirstFailure(count: nat, oracle: seq<seq<Retry.Response>>, from: nat): (k: Option<nat>)
    requires from <= count
    ensures k.Some? ==> from <= k.value < count && ChunkOutcome(oracle, k.value).None?
    ensures k.Some? ==> forall j :: from <= j < k.value ==> ChunkOutcome(oracle, j).Some?
    ensures k.None? ==> forall j :: from <= j < count ==> ChunkOutcome(oracle, j).Some?
    decreases count - from
  {
    if from == count then None
    else if ChunkOutcome(oracle, from).None? then Some(from)
    else FirstFailure(count, oracle, from + 1)
  }

  /** The texts of the chunks from `from` on, when none of them fails. */
  function Texts(count: nat, oracle: seq<seq<Retry.Response>>, from: nat): (r: seq<string>)
    requires from <= count
    requires FirstFailure(count, oracle, from).None?
    ensures |r| == count - from
    decreases count - from
  {
    if from == count then []
    else [ChunkOutcome(oracle, from).value] + Texts(count, oracle, from + 1)
  }

  /** Where the loop stops, and what it returns. */
  lemma {:induction false} CombineFromOutcome(count: nat, oracle: seq<seq<Retry.Response>>, i: nat, parts: seq<string>)
    requires i <= count
    ensures var c := CombineFrom(count, oracle, i, parts);
            match FirstFailure(count, oracle, i)
            case Some(k) => c.transcript.None? && c.requested == k + 1
            case None => c.transcript == Some(Join("\n\n", parts + Texts(count, oracle, i))) && c.requested == count
    decreases count - i
  {
    if i < count {
      match ChunkOutcome(oracle, i)
      case None =>
      case Some(t) =>
        CombineFromOutcome(count, oracle, i + 1, parts + [t]);
        if FirstFailure(count, oracle, i).None? {
          assert parts + Texts(count, oracle, i) == parts + [t] + Texts(count, oracle, i + 1);
        }
    } else {
      assert parts + Texts(count, oracle, i) == parts;
    }
  }

  /** For content in several chunks (or none): chunk `j` is requested with
      its own position and part note; the first chunk that brings no text
      ends the loop with no transcript and no later chunk is requested;
      otherwise every chunk is requested and the transcript is their texts
      joined by blank lines. */
  lemma MultiChunkOutcome(content: string, topic: string, chunks: seq<string>, oracle: seq<seq<Retry.Response>>)
    requires |chunks| != 1
    ensures var g := GenerateTranscript(content, topic, chunks, oracle);
            && |g.calls| <= |chunks|
            && (forall j :: 0 <= j < |g.calls| ==>
                  g.calls[j].prompt == PromptArgs(topic, chunks[j], j, |chunks|, PartInfo(j, |chunks|)))
            && match FirstFailure(|chunks|, oracle, 0)
               case Some(k) => g.transcript.None? && |g.calls| == k + 1
               case None => g.transcript == Some(Join("\n\n", Texts(|chunks|, oracle, 0))) && |g.calls| == |chunks|
  {
    var g := GenerateTranscript(content, topic, chunks, oracle);
    var c := CombineFrom(|chunks|, oracle, 0, []);
    assert |g.calls| == c.requested && g.transcript == c.transcript;
    forall j | 0 <= j < |g.calls|
      ensures g.calls[j].prompt == PromptArgs(topic, chunks[j], j, |chunks|, PartInfo(j, |chunks|))
    {
      assert g.calls[j] == GenerateChunk(chunks[j], topic, j, |chunks|, OracleAt(oracle, j));
    }
    CombineFromOutcome(|chunks|, oracle, 0, []);
    if FirstFailure(|chunks|, oracle, 0).None? {
      assert [] + Texts(|chunks|, oracle, 0) == Texts(|chunks|, oracle, 0);
    }
  }

  /** Content that fits in one chunk costs one chunk request, on the content
      itself, whatever the splitter would have done. */
  lemma ShortContentIsOneRequest(content: string, topic: string, librarySplit: seq<string>,
                                 oracle: seq<seq<Retry.Response>>)
    requires |content| <= MaxChunkSize
    ensures var g := GenerateTranscript(content, topic, SplitContent(content, librarySplit), oracle);
            |g.calls| == 1 && g.transcript == Retry.Generate(OracleAt(oracle, 0)).result
  {
  }

  // ---------------------------------------------------------------------
  // `process_file`

  /** `process_file`: `Some` is the `True` return, with what was written.
      Empty content (an unreadable file reads as empty) and a falsy
      transcript both give `False`. */
  function ProcessFile(filePath: string, content: string, librarySplit: seq<string>,
                       oracle: seq<seq<Retry.Response>>): (r: Option<Saved>)
    ensures content == "" ==> r.None?
    ensures r.Some? ==> r.value.path == TranscriptPath(OutputDir, filePath) && r.value.transcript != ""
  {
    if content == "" then None
    else
      var topic := ExtractTopic(content, filePath);
      var g := GenerateTranscript(content, topic, SplitContent(content, librarySplit), oracle);
      match g.transcript
      case None => None
      case Some(t) => if t == "" then None else Some(Saved(TranscriptPath(OutputDir, filePath), t))
  }

  /** A file that fits in one chunk is saved exactly when it has content and
      the first chunk's requests bring a text, and the saved transcript is
      that text. */
  lemma ShortFileSavedIff(filePath: string, content: string, librarySplit: seq<string>,
                          oracle: seq<seq<Retry.Response>>)
    requires |content| <= MaxChunkSize
    ensures ProcessFile(filePath, content, librarySplit, oracle).Some?
            <==> content != "" && Retry.Generate(OracleAt(oracle, 0)).result.Some?
    ensures ProcessFile(filePath, content, librarySplit, oracle).Some? ==>
              ProcessFile(filePath, content, librarySplit, oracle).value.transcript
              == Retry.Generate(OracleAt(oracle, 0)).result.value
  {
    if content != "" {
      ShortContentIsOneRequest(content, ExtractTopic(content, filePath), librarySplit, oracle);
    }
  }

  /** A long file is saved exactly when every chunk's requests bring a text;
      the saved transcript is the chunks' texts joined by blank lines. */
  lemma LongFileSavedIff(filePath: string, content: string, librarySplit: seq<string>,
                         oracle: seq<seq<Retry.Response>>)
    requires |content| > MaxChunkSize && |librarySplit| > 1
    ensures ProcessFile(filePath, content, librarySplit, oracle).Some? <==> FirstFailure(|librarySplit|, oracle, 0).None?
    ensures ProcessFile(filePath, content, librarySplit, oracle).Some? ==>
              ProcessFile(filePath, content, librarySplit, oracle).value.transcript
              == Join("\n\n", Texts(|librarySplit|, oracle, 0))
  {
    LongFileTranscript(filePath, content, librarySplit, oracle);
    CombineFromOutcome(|librarySplit|, oracle, 0, []);
    if FirstFailure(|librarySplit|, oracle, 0).None? {
      assert [] + Texts(|librarySplit|, oracle, 0) == Texts(|librarySplit|, oracle, 0);
      TextsJoinNonEmpty(|librarySplit|, oracle);
    }
  }

  lemma LongFileTranscript(filePath: string, content: string, librarySplit: seq<string>,
                           oracle: seq<seq<Retry.Response>>)
    requires |content| > MaxChunkSize && |librarySplit| > 1
    ensures var t := CombineFrom(|librarySplit|, oracle, 0, []).transcript;
            ProcessFile(filePath, content, librarySplit, oracle)
            == if t.Some? && t.value != "" then Some(Saved(TranscriptPath(OutputDir, filePath), t.value)) else None
  {
    ManyChunksTranscript(content, ExtractTopic(content, filePath), librarySplit, oracle);
  }

  lemma ManyChunksTranscript(content: string, topic: string, chunks: seq<string>, oracle: seq<seq<Retry.Response>>)
    requires |chunks| != 1
    ensures GenerateTranscript(content, topic, chunks, oracle).transcript == CombineFrom(|chunks|, oracle, 0, []).transcript
  {
  }

  /** Non-empty texts never join to the empty text. */
  lemma TextsJoinNonEmpty(count: nat, oracle: seq<seq<Retry.Response>>)
    requires count > 0 && FirstFailure(count, oracle, 0).None?
    ensures Join("\n\n", Texts(count, oracle, 0)) != ""
  {
    var ts := Texts(count, oracle, 0);
    JoinEmptyIff("\n\n", ts);
    assert ts[0] == ChunkOutcome(oracle, 0).value;
  }
}

=== FILE: transcript_parallel.dfy ===
/** The thread-pool transcript generator (`transcript_generator_parallel.py`):
    every listed file is processed by a task of its own, each task reports a
    result record, and the run counts the records that report success in
    the order the tasks finish. The whole content goes to the model in one
    prompt; `oracle[i]` is what the calls for file `i` do. */
module TranscriptParallel {
  import opened Text
  import Retry
  import opened TranscriptCommon

  const InputDir := "output/sources"

  const OutputDir := "transcripts"

  /** The record `process_file` returns. */
  datatype FileRecord = FileRecord(index: nat, filePath: string, success: bool, outputPath: Option<string>)

  /** `process_file`: the record starts out failed; it is marked as a
      success, with the transcript's path, only when the file has content
      and the retry loop brings a text. */
  function ProcessFile(filePath: string, idx: nat, content: string, responses: seq<Retry.Response>): (r: FileRecord)
    ensures r.index == idx && r.filePath == filePath
    ensures r.success <==> r.outputPath.Some?
    ensures r.success <==> content != "" && Retry.Generate(responses).result.Some?
    ensures r.outputPath.Some? ==> r.outputPath.value == TranscriptPath(OutputDir, filePath)
  {
    var failed := FileRecord(idx, filePath, false, None);
    if content == "" then failed
    else
      var _ := ExtractTopic(content, filePath);
      match Retry.Generate(responses).result
      case None => failed
      case Some(t) =>
        if t == "" then failed
        else FileRecord(idx, filePath, true, Some(TranscriptPath(OutputDir, filePath)))
  }

  /** One task per file, submitted with the file's position. */
  function Tasks(files: seq<string>, contents: seq<string>, oracle: seq<seq<Retry.Response>>): (r: seq<FileRecord>)
    ensures |r| == |files|
    ensures forall i :: 0 <= i < |r| ==> r[i].index == i && r[i].filePath == files[i]
  {
    seq(|files|, i requires 0 <= i < |files| => ProcessFile(files[i], i, ContentAt(contents, i), OracleAt(oracle, i)))
  }

  /** `sum(1 for result in results if result["success"])`. */
  function SuccessCount(rs: seq<FileRecord>): (n: nat)
    ensures n <= |rs|
  {
    if |rs| == 0 then 0 else (if rs[0].success then 1 else 0) + SuccessCount(rs[1..])
  }

  lemma {:induction false} SuccessCountAppend(a: seq<FileRecord>, b: seq<FileRecord>)
    ensures SuccessCount(a + b) == SuccessCount(a) + SuccessCount(b)
  {
    if |a| > 0 {
      assert (a + b)[1..] == a[1..] + b;
      SuccessCountAppend(a[1..], b);
    } else {
      assert a + b == b;
    }
  }

  /** The count does not depend on the order the tasks finish in. */
  lemma {:induction false} SuccessCountPermutation(a: seq<FileRecord>, b: seq<FileRecord>)
    requires multiset(a) == multiset(b)
    ensures SuccessCount(a) == SuccessCount(b)
    decreases |a|
  {
    if |a| > 0 {
      assert a[0] in multiset(b);
      var k :| 0 <= k < |b| && b[k] == a[0];
      var rest := b[..k] + b[k + 1..];
      RemoveMatched(a, b, k);
      SuccessCountPermutation(a[1..], rest);
      assert b == b[..k] + [b[k]] + b[k + 1..];
      SuccessCountAppend(b[..k] + [b[k]], b[k + 1..]);
      SuccessCountAppend(b[..k], [b[k]]);
      SuccessCountAppend(b[..k], b[k + 1..]);
      assert [b[k]][1..] == [];
    }
  }

  /** File `i` has content and its requests bring a text. */
  predicate FileSucceeds(contents: seq<string>, oracle: seq<seq<Retry.Response>>, i: nat)
  {
    ContentAt(contents, i) != "" && Retry.Generate(OracleAt(oracle, i)).result.Some?
  }

  /** The successful files among positions `from` to `count`, by position:
      an independent description of what the run counts. */
  function SucceededFiles(count: nat, contents: seq<string>, oracle: seq<seq<Retry.Response>>, from: nat): set<nat>
  {
    set i: nat | from <= i < count && FileSucceeds(contents, oracle, i)
  }

  /** What a run reports. */
  datatype Report =
    | DirectoryMissing
    | NoFiles
    | Processed(total: nat, successCount: nat)

  /** `main`: list the `.txt` files, run one task per file, and count the
      successes over the records in completion order. `completed` is that
      order: any rearrangement of the tasks' records. */
  function Pipeline(listing: Option<seq<string>>, contents: seq<string>, oracle: seq<seq<Retry.Response>>,
                completed: seq<FileRecord>): (r: Report)
    requires listing.Some? ==>
               multiset(completed) == multiset(Tasks(TextFiles(InputDir, listing).value, contents, oracle))
    ensures r == DirectoryMissing <==> listing.None?
    ensures r == NoFiles <==> listing.Some? && TextFiles(InputDir, listing).value == []
    ensures r.Processed? <==> listing.Some? && TextFiles(InputDir, listing).value != []
    ensures r.Processed? ==> r.total == |TextFiles(InputDir, listing).value|
    ensures r.Processed? ==> r.successCount <= r.total
  {
    match TextFiles(InputDir, listing)
    case None => DirectoryMissing
    case Some(files) =>
      if files == [] then NoFiles
      else
        SuccessCountPermutation(completed, Tasks(files, contents, oracle));
        Processed(|files|, SuccessCount(completed))
  }

  lemma {:induction false} SuccessCountOfTasks(files: seq<string>, contents: seq<string>,
                                               oracle: seq<seq<Retry.Response>>, from: nat)
    requires from <= |files|
    ensures SuccessCount(Tasks(files, contents, oracle)[from..]) == |SucceededFiles(|files|, contents, oracle, from)|
    decreases |files| - from
  {
    var ts := Tasks(files, contents, oracle);
    if from == |files| {
      assert SucceededFiles(|files|, contents, oracle, from) == {};
    } else {
      SuccessCountOfTasks(files, contents, oracle, from + 1);
      assert ts[from..][1..] == ts[from + 1..];
      assert ts[from].success == FileSucceeds(contents, oracle, from);
      SucceededFilesStep(|files|, contents, oracle, from);
    }
  }

  lemma SucceededFilesStep(count: nat, contents: seq<string>, oracle: seq<seq<Retry.Response>>, from: nat)
    requires from < count
    ensures |SucceededFiles(count, contents, oracle, from)|
            == (if FileSucceeds(contents, oracle, from) then 1 else 0) + |SucceededFiles(count, contents, oracle, from + 1)|
  {
    var s := SucceededFiles(count, contents, oracle, from);
    var s' := SucceededFiles(count, contents, oracle, from + 1);
    if FileSucceeds(contents, oracle, from) {
      assert s == s' + {from};
    } else {
      assert s == s';
    }
  }

  /** With at least one listed `.txt` file, the run processes them all and
      reports as the count the number of those files that have content and
      whose requests bring a text, whatever order the tasks finish in. */
  lemma CountIsSuccessfulFiles(listing: Option<seq<string>>, contents: seq<string>, oracle: seq<seq<Retry.Response>>,
                               completed: seq<FileRecord>)
    requires listing.Some? ==>
               multiset(completed) == multiset(Tasks(TextFiles(InputDir, listing).value, contents, oracle))
    ensures var r := Pipeline(listing, contents, oracle, completed);
            listing.Some? && TextFiles(InputDir, listing).value != [] ==>
              && r.Processed?
              && r.total == |TextFiles(InputDir, listing).value|
              && r.successCount == |SucceededFiles(|TextFiles(InputDir, listing).value|, contents, oracle, 0)|
  {
    if listing.Some? {
      var files := TextFiles(InputDir, listing).value;
      SuccessCountOfTasks(files, contents, oracle, 0);
      var ts := Tasks(files, contents, oracle);
      assert ts[0..] == ts;
      SuccessCountPermutation(completed, ts);
    }
  }
}

=== FILE: transcript_sequential.dfy ===
/** The one-at-a-time transcript generator (`transcript_generator.py`): the
    listed files are processed in listing order and the loop leaves after
    the first transcript it saves, so a run writes at most one transcript.
    The whole content goes to the model in one prompt; `oracle[i]` is what
    the calls for file `i` do. */
module TranscriptSequential {
  import opened Text
  import Retry
  import opened TranscriptCommon

  const InputDir := "output_txt/sources"

  const OutputDir := "transcripts"

  /** `process_file`: `Some` is the `True` return, with what was written. */
  function ProcessFile(filePath: string, content: string, responses: seq<Retry.Response>): (r: Option<Saved>)
    ensures r.Some? <==> content != "" && Retry.Generate(responses).result.Some?
    ensures r.Some? ==> r.value == Saved(TranscriptPath(OutputDir, filePath), Retry.Generate(responses).result.value)
  {
    if content == "" then None
    else
      var _ := ExtractTopic(content, filePath);
      match Retry.Generate(responses).result
      case None => None
      case Some(t) => if t == "" then None else Some(Saved(TranscriptPath(OutputDir, filePath), t))
  }

  /** The outcome of every listed file, in listing order. */
  function Outcomes(files: seq<string>, contents: seq<string>, oracle: seq<seq<Retry.Response>>)
    : (r: seq<Option<Saved>>)
    ensures |r| == |files|
  {
    seq(|files|, i requires 0 <= i < |files| => ProcessFile(files[i], ContentAt(contents, i), OracleAt(oracle, i)))
  }

  /** The first outcome at or after `from` that saved a transcript. */
  function FirstSuccess(outcomes: seq<Option<Saved>>, from: nat): (k: Option<nat>)
    requires from <= |outcomes|
    ensures k.Some? ==> from <= k.value < |outcomes| && outcomes[k.value].Some?
    ensures k.Some? ==> forall j :: from <= j < k.value ==> outcomes[j].None?
    ensures k.None? ==> forall j :: from <= j < |outcomes| ==> outcomes[j].None?
    decreases |outcomes| - from
  {
    if from == |outcomes| then None
    else if outcomes[from].Some? then Some(from)
    else FirstSuccess(outcomes, from + 1)
  }

  /** How a run ends. */
  datatype Status = DirectoryMissing | NoFiles | Processed

  /** `main`: list the `.txt` files and process them in order until one is
      saved. Returns how the run ended, the count it reports, how many
      files it processed and the transcript it wrote. */
  method Pipeline(listing: Option<seq<string>>, contents: seq<string>, oracle: seq<seq<Retry.Response>>)
    returns (status: Status, successCount: nat, processed: nat, saved: Option<Saved>)
    ensures status == DirectoryMissing <==> listing.None?
    ensures status == NoFiles <==> listing.Some? && TextFiles(InputDir, listing).value == []
    ensures status == Processed <==> listing.Some? && TextFiles(InputDir, listing).value != []
    ensures status != Processed ==> successCount == 0 && processed == 0 && saved.None?
    ensures successCount <= 1
    ensures status == Processed ==>
              var files := TextFiles(InputDir, listing).value;
              var outcomes := Outcomes(files, contents, oracle);
              && files != []
              && match FirstSuccess(outcomes, 0)
                 case Some(k) => successCount == 1 && processed == k + 1 && saved == outcomes[k]
                 case None => successCount == 0 && processed == |files| && saved.None?
  {
    successCount, processed, saved := 0, 0, None;
    var found := TextFiles(InputDir, listing);
    if found.None? {
      return DirectoryMissing, successCount, processed, saved;
    }
    var files := found.value;
    if files == [] {
      return NoFiles, successCount, processed, saved;
    }
    status := Processed;
    ghost var outcomes := Outcomes(files, contents, oracle);
    var i := 0;
    while i < |files|
      invariant 0 <= i <= |files|
      invariant processed == i && successCount == 0 && saved.None?
      invariant FirstSuccess(outcomes, 0) == FirstSuccess(outcomes, i)
      decreases |files| - i
    {
      var outcome := ProcessFile(files[i], ContentAt(contents, i), OracleAt(oracle, i));
      assert outcome == outcomes[i];
      processed := i + 1;
      if outcome.Some? {
        successCount := 1;
        saved := outcome;
        break;
      }
      i := i + 1;
    }
  }
}

=== FILE: txt_generator.dfy ===
/** The plain-text renderer (`page_to_txt`) and the text merger
    (`merge_txt_files`). File contents are strings; the filesystem is a map
    from path to content. */
module TxtGenerator {
  import opened Text
  import opened Dto

  // ---------------------------------------------------------------------
  // File names.

  /** Every non-alphanumeric character of the title becomes `_`. */
  function SafeTitle(title: string): (r: string)
    ensures |r| == |title|
    ensures forall i :: 0 <= i < |title| ==> r[i] == (if IsAlnum(title[i]) then title[i] else '_')
  {
    if |title| == 0 then "" else [if IsAlnum(title[0]) then title[0] else '_'] + SafeTitle(title[1..])
  }

  /** A sanitised title holds only alphanumerics and `_`, so it contains no
      space and no `/`, and sanitising it again changes nothing. */
  lemma SafeTitleIsClean(title: string)
    ensures forall i :: 0 <= i < |SafeTitle(title)| ==>
              IsAlnum(SafeTitle(title)[i]) || SafeTitle(title)[i] == '_'
    ensures forall i :: 0 <= i < |SafeTitle(title)| ==>
              SafeTitle(title)[i] != ' ' && SafeTitle(title)[i] != '/'
    ensures SafeTitle(SafeTitle(title)) == SafeTitle(title)
  {
  }

  /** A title made of alphanumerics only is its own safe title. */
  lemma SafeTitleOfAlnum(title: string)
    requires forall i :: 0 <= i < |title| ==> IsAlnum(title[i])
    ensures SafeTitle(title) == title
  {
    assert forall i :: 0 <= i < |title| ==> SafeTitle(title)[i] == title[i];
  }

  /** `f"{index} - {safe_title}.txt"` */
  function TxtFileName(index: nat, title: string): (r: string)
    ensures StartsWith(r, NatToString(index) + " - ")
    ensures EndsWith(r, SafeTitle(title) + ".txt")
    ensures |r| == |NatToString(index)| + 3 + |SafeTitle(title)| + 4
    ensures EndsWith(r, ".txt")
  {
    var r := NatToString(index) + " - " + SafeTitle(title) + ".txt";
    assert r[|r| - |SafeTitle(title) + ".txt"|..] == SafeTitle(title) + ".txt";
    r
  }

  /** `os.path.join(os.path.join(output_dir, "sources"), file_name)`: the
      file sits in the `sources` directory under the output directory. */
  function TxtPath(outputDir: string, index: nat, title: string): (r: string)
    ensures r == DirPrefix(outputDir) + ("sources/" + TxtFileName(index, title))
    ensures NeedsSlash(outputDir) ==> r == outputDir + ("/sources/" + TxtFileName(index, title))
    ensures EndsWith(r, "sources/" + TxtFileName(index, title))
    ensures EndsWith(r, TxtFileName(index, title))
  {
    var name := TxtFileName(index, title);
    assert name[0] == NatToString(index)[0];
    SourcesJoin(outputDir, name);
    PathJoin(PathJoin(outputDir, "sources"), name)
  }

  /** A relative name joined under `sources` of any directory. */
  lemma SourcesJoin(outputDir: string, name: string)
    requires |name| > 0 && name[0] != '/'
    ensures var r := PathJoin(PathJoin(outputDir, "sources"), name);
            && r == DirPrefix(outputDir) + ("sources/" + name)
            && (NeedsSlash(outputDir) ==> r == outputDir + ("/sources/" + name))
            && EndsWith(r, "sources/" + name)
            && EndsWith(r, name)
  {
    PathJoinUnderValue(outputDir, "sources", name);
    SlashJoin(DirPrefix(outputDir), name);
    if NeedsSlash(outputDir) {
      SlashSources(outputDir, name);
    }
    EndsWithConcat(DirPrefix(outputDir), "sources/" + name);
  }

  lemma SlashJoin(prefix: string, name: string)
    ensures prefix + "sources" + "/" + name == prefix + ("sources/" + name)
  {
  }

  lemma SlashSources(dir: string, name: string)
    ensures (dir + "/") + ("sources/" + name) == dir + ("/sources/" + name)
  {
  }

  /** Position of the first space, or the length when there is none. */
  function FirstSpace(s: string): (k: nat)
    ensures k <= |s|
    ensures forall i :: 0 <= i < k ==> s[i] != ' '
  {
    if |s| == 0 || s[0] == ' ' then 0 else 1 + FirstSpace(s[1..])
  }

  lemma {:induction false} FirstSpaceAfter(a: string, rest: string)
    requires forall i :: 0 <= i < |a| ==> a[i] != ' '
    requires |rest| > 0 && rest[0] == ' '
    ensures FirstSpace(a + rest) == |a|
  {
    if |a| > 0 {
      assert (a + rest)[1..] == a[1..] + rest;
      FirstSpaceAfter(a[1..], rest);
    } else {
      assert a + rest == rest;
    }
  }

  /** The index prefix keeps text file names apart: two pages share a file
      name only if they have the same index, whatever their titles. */
  lemma TxtFileNameDeterminesIndex(i: nat, j: nat, t: string, u: string)
    ensures TxtFileName(i, t) == TxtFileName(j, u) ==> i == j
  {
    TxtFileNameSplit(i, t);
    TxtFileNameSplit(j, u);
    if TxtFileName(i, t) == TxtFileName(j, u) {
      SpaceFreePrefix(NatToString(i), " - " + SafeTitle(t) + ".txt", NatToString(j), " - " + SafeTitle(u) + ".txt");
      NatToStringInjective(i, j);
    }
  }

  /** A text file name is the space-free index, then text led by a space. */
  lemma TxtFileNameSplit(i: nat, t: string)
    ensures TxtFileName(i, t) == NatToString(i) + (" - " + SafeTitle(t) + ".txt")
    ensures forall k :: 0 <= k < |NatToString(i)| ==> NatToString(i)[k] != ' '
  {
  }

  /** Two space-free words each followed by a space-led text: when the
      results agree, so do the words. */
  lemma SpaceFreePrefix(a: string, x: string, b: string, y: string)
    requires forall k :: 0 <= k < |a| ==> a[k] != ' '
    requires forall k :: 0 <= k < |b| ==> b[k] != ' '
    requires |x| > 0 && x[0] == ' ' && |y| > 0 && y[0] == ' '
    requires a + x == b + y
    ensures a == b
  {
    FirstSpaceAfter(a, x);
    FirstSpaceAfter(b, y);
    assert a == (a + x)[..|a|];
    assert b == (b + y)[..|b|];
  }

  /** In one output directory, two pages share a text path only if they
      have the same index. */
  lemma TxtPathDeterminesIndex(dir: string, i: nat, j: nat, t: string, u: string)
    ensures TxtPath(dir, i, t) == TxtPath(dir, j, u) ==> i == j
  {
    TxtFileNameDeterminesIndex(i, j, t, u);
    var d := PathJoin(dir, "sources");
    var n := TxtFileName(i, t);
    var m := TxtFileName(j, u);
    assert n[0] == NatToString(i)[0];
    assert m[0] == NatToString(j)[0];
    var sep := if d == "" || d[|d| - 1] == '/' then "" else "/";
    assert PathJoin(d, n) == (d + sep) + n;
    assert PathJoin(d, m) == (d + sep) + m;
    if PathJoin(d, n) == PathJoin(d, m) {
      assert n == PathJoin(d, n)[|d + sep|..];
      assert m == PathJoin(d, m)[|d + sep|..];
    }
  }

  // ---------------------------------------------------------------------
  // Rendering one page.

  predicate IsListItem(kind: string)
  {
    kind == "bulleted_list_item" || kind == "numbered_list_item"
  }

  predicate IsHeading(kind: string)
  {
    kind == "heading_1" || kind == "heading_2" || kind == "heading_3"
  }

  /** The kinds rendered as `indent + marker + content`. */
  predicate HasMarker(kind: string)
  {
    IsListItem(kind) || kind == "toggle" || kind == "quote" || kind == "to_do"
  }

  /** The two-character marker of a marker kind: bullet, star, right-pointing
      triangle, `>`, white square, each followed by a space. */
  function Marker(kind: string): (r: string)
    requires HasMarker(kind)
    ensures |r| == 2 && r[1] == ' ' && r[0] != ' '
  {
    if kind == "bulleted_list_item" then "\U{2022} "
    else if kind == "numbered_list_item" then "* "
    else if kind == "toggle" then "\U{25B6} "
    else if kind == "quote" then "> "
    else "\U{25A1} "
  }

  /** The first title lines: the title, an `=` underline as long as the
      title, and one blank line. */
  function Header(title: string): (r: string)
    ensures |r| == 2 * |title| + 3
    ensures r[..|title|] == title && r[|title|] == '\n'
    ensures forall i :: |title| < i <= 2 * |title| ==> r[i] == '='
    ensures r[2 * |title| + 1..] == "\n\n"
  {
    title + "\n" + RepeatChar('=', |title|) + "\n\n"
  }

  /** The lines of one block, before the spacing rule. A heading opens
      with a blank line; every other block opens with its indent, and
      every kind but a code block closes with the content on the last
      line. */
  function BlockBody(b: NotionBlock): (r: string)
    ensures |r| > 0 && r[|r| - 1] == '\n'
    ensures IsHeading(b.kind) ==> r[0] == '\n'
    ensures !IsHeading(b.kind) ==> StartsWith(r, Indent(b.indentLevel))
    ensures !IsHeading(b.kind) && b.kind != "code" ==> EndsWith(r, b.content + "\n")
    ensures !IsHeading(b.kind) && !HasMarker(b.kind) && b.kind != "code" ==>
              |r| == |Indent(b.indentLevel)| + |b.content| + 1
  {
    var ind := Indent(b.indentLevel);
    if b.kind == "heading_1" then
      "\n" + b.content + "\n" + RepeatChar('-', |b.content|) + "\n"
    else if b.kind == "heading_2" then
      "\n" + ind + b.content + "\n" + ind + RepeatChar('-', |b.content|) + "\n"
    else if b.kind == "heading_3" then
      "\n" + ind + b.content + "\n" + ind + RepeatChar('~', |b.content|) + "\n"
    else if HasMarker(b.kind) then
      ind + Marker(b.kind) + b.content + "\n"
    else if b.kind == "code" then
      ind + "```\n" + ind + b.content + "\n" + ind + "```\n"
    else
      ind + b.content + "\n"
  }

  /** One block as written: its lines, then a blank line unless it is a
      list item. So every block but a list item ends with a blank line,
      and a list item is its single line, keeping consecutive items
      together. */
  function RenderBlock(b: NotionBlock): (r: string)
    ensures |r| > 0 && r[|r| - 1] == '\n'
    ensures !IsListItem(b.kind) ==> EndsWith(r, "\n\n")
    ensures IsListItem(b.kind) ==> r == Indent(b.indentLevel) + Marker(b.kind) + b.content + "\n"
  {
    var body := BlockBody(b);
    if IsListItem(b.kind) then body
    else
      var r := body + "\n";
      assert r[|r| - 2] == body[|body| - 1];
      assert r[|r| - 2..] == "\n\n";
      r
  }

  /** Headings: a blank line, the text, then an underline exactly as long
      as the text; `-` for levels 1 and 2, `~` for level 3; level 1 is never
      indented. */
  lemma HeadingLayout(b: NotionBlock)
    requires IsHeading(b.kind)
    ensures var ind := if b.kind == "heading_1" then "" else Indent(b.indentLevel);
            var rule := if b.kind == "heading_3" then '~' else '-';
            RenderBlock(b) == "\n" + ind + b.content + "\n" + ind + RepeatChar(rule, |b.content|) + "\n\n"
  {
    var ind := if b.kind == "heading_1" then "" else Indent(b.indentLevel);
    var rule := if b.kind == "heading_3" then '~' else '-';
    assert BlockBody(b) == "\n" + ind + b.content + "\n" + ind + RepeatChar(rule, |b.content|) + "\n";
    assert !IsListItem(b.kind);
    assert RenderBlock(b) == BlockBody(b) + "\n";
  }

  /** The blocks one after the other: empty only for no blocks, and
      otherwise ending at the end of a line. */
  function RenderBlocks(bs: seq<NotionBlock>): (r: string)
    ensures r == "" <==> |bs| == 0
    ensures |bs| > 0 ==> r[|r| - 1] == '\n'
  {
    if |bs| == 0 then "" else RenderBlock(bs[0]) + RenderBlocks(bs[1..])
  }

  /** Rendering is block by block: the text of a block list is the text of
      its halves, one after the other. */
  lemma {:induction false} RenderBlocksAppend(a: seq<NotionBlock>, b: seq<NotionBlock>)
    ensures RenderBlocks(a + b) == RenderBlocks(a) + RenderBlocks(b)
  {
    if |a| == 0 {
      assert a + b == b;
    } else {
      assert (a + b)[0] == a[0];
      assert (a + b)[1..] == a[1..] + b;
      RenderBlocksAppend(a[1..], b);
    }
  }

  /** The whole text file of a page. */
  function RenderTxt(page: NotionPage): (r: string)
    ensures StartsWith(r, Header(page.title))
    ensures r[|Header(page.title)|..] == RenderBlocks(page.blocks)
  {
    Header(page.title) + RenderBlocks(page.blocks)
  }

  /** A top-level heading ignores the indent level. */
  lemma HeadingOneIgnoresIndent(b: NotionBlock, level: nat)
    requires b.kind == "heading_1"
    ensures RenderBlock(b) == RenderBlock(b.(indentLevel := level))
  {
  }

  /** At level 0, `heading_1` and `heading_2` are written identically, so
      the text alone cannot tell them apart. */
  lemma HeadingOneAndTwoCoincideAtTopLevel(content: string, hc: bool)
    ensures RenderBlock(NotionBlock("heading_1", content, 0, hc))
         == RenderBlock(NotionBlock("heading_2", content, 0, hc))
  {
  }

  // ---------------------------------------------------------------------
  // Reading markers back.

  function LeadingSpaces(s: string): (k: nat)
    ensures k <= |s|
    ensures forall i :: 0 <= i < k ==> s[i] == ' '
    ensures k < |s| ==> s[k] != ' '
  {
    if |s| > 0 && s[0] == ' ' then 1 + LeadingSpaces(s[1..]) else 0
  }

  lemma {:induction false} LeadingSpacesExact(s: string, k: nat)
    requires k < |s| && s[k] != ' '
    requires forall i :: 0 <= i < k ==> s[i] == ' '
    ensures LeadingSpaces(s) == k
  {
    if k > 0 {
      LeadingSpacesExact(s[1..], k - 1);
    }
  }

  lemma LeadingSpacesOfIndent(level: nat, rest: string)
    requires |rest| > 0 && rest[0] != ' '
    ensures LeadingSpaces(Indent(level) + rest) == 4 * level
    ensures (Indent(level) + rest)[4 * level..] == rest
  {
    var s := Indent(level) + rest;
    assert s[4 * level] == rest[0];
    LeadingSpacesExact(s, 4 * level);
  }

  function KindOfMarker(c: char): Option<string>
  {
    if c == '\U{2022}' then Some("bulleted_list_item")
    else if c == '*' then Some("numbered_list_item")
    else if c == '\U{25B6}' then Some("toggle")
    else if c == '>' then Some("quote")
    else if c == '\U{25A1}' then Some("to_do")
    else None
  }

  /** What a reader of the text file recovers from one block. */
  datatype ParsedBlock = ParsedBlock(kind: string, level: nat, content: string)

  /** Reads one rendered marker block or fenced code block back: the indent
      depth from the leading spaces, the kind from the marker or the fence,
      the content from what lies between them and the line ending(s). */
  function ParseBlock(s: string): Option<ParsedBlock>
  {
    var k := LeadingSpaces(s);
    if k % 4 != 0 then None
    else if |s| - k >= 2 && s[k + 1] == ' ' && KindOfMarker(s[k]).Some? then ParseMarked(s[k..], k / 4)
    else ParseFenced(s[k..], k / 4)
  }

  /** `rest` starts with a marker and a space. */
  function ParseMarked(rest: string, level: nat): Option<ParsedBlock>
    requires |rest| >= 2 && KindOfMarker(rest[0]).Some?
  {
    var kind := KindOfMarker(rest[0]).value;
    var tail := if IsListItem(kind) then "\n" else "\n\n";
    if |rest| >= 2 + |tail| && EndsWith(rest, tail) then
      Some(ParsedBlock(kind, level, rest[2..|rest| - |tail|]))
    else None
  }

  /** `rest` should be a fence line, the indented content, a closing fence
      line and a blank line. */
  function ParseFenced(rest: string, level: nat): Option<ParsedBlock>
  {
    var k := 4 * level;
    if |rest| >= 2 * k + 10 && rest[..4] == "```\n" then
      Some(ParsedBlock("code", level, rest[4 + k..|rest| - (k + 6)]))
    else None
  }

  lemma MarkerKindRoundTrip(kind: string)
    requires HasMarker(kind)
    ensures KindOfMarker(Marker(kind)[0]) == Some(kind)
  {
    if kind == "bulleted_list_item" {
    } else if kind == "numbered_list_item" {
    } else if kind == "toggle" {
    } else if kind == "quote" {
    } else {
    }
  }

  /** Round trip: a marker block or a code block read back from its text
      gives its kind, depth and content, whatever the content is. */
  lemma ParseRenderRoundTrip(b: NotionBlock)
    requires HasMarker(b.kind) || b.kind == "code"
    ensures ParseBlock(RenderBlock(b)) == Some(ParsedBlock(b.kind, b.indentLevel, b.content))
  {
    if HasMarker(b.kind) {
      ParseMarkerRoundTrip(b);
    } else {
      ParseCodeRoundTrip(b);
    }
  }

  lemma ParseMarkerRoundTrip(b: NotionBlock)
    requires HasMarker(b.kind)
    ensures ParseBlock(RenderBlock(b)) == Some(ParsedBlock(b.kind, b.indentLevel, b.content))
  {
    var tail := if IsListItem(b.kind) then "\n" else "\n\n";
    var rest := Marker(b.kind) + b.content + tail;
    RenderMarkerShape(b);
    MarkerKindRoundTrip(b.kind);
    ParseLeadingMarker(b.indentLevel, rest);
    ParseMarkedOf(b.kind, b.content, b.indentLevel);
  }

  lemma ParseLeadingMarker(level: nat, rest: string)
    requires |rest| >= 2 && rest[1] == ' ' && KindOfMarker(rest[0]).Some?
    ensures ParseBlock(Indent(level) + rest) == ParseMarked(rest, level)
  {
    var s := Indent(level) + rest;
    var k := 4 * level;
    LeadingSpacesOfIndent(level, rest);
    FourTimes(level);
    assert s[k..] == rest;
  }

  lemma ParseMarkedOf(kind: string, content: string, level: nat)
    requires HasMarker(kind) && KindOfMarker(Marker(kind)[0]) == Some(kind)
    ensures var rest := Marker(kind) + content + (if IsListItem(kind) then "\n" else "\n\n");
            ParseMarked(rest, level) == Some(ParsedBlock(kind, level, content))
  {
    var tail := if IsListItem(kind) then "\n" else "\n\n";
    var rest := Marker(kind) + content + tail;
    assert rest[|rest| - |tail|..] == tail;
    assert rest[2..|rest| - |tail|] == content;
  }

  lemma RenderMarkerShape(b: NotionBlock)
    requires HasMarker(b.kind)
    ensures RenderBlock(b) == Indent(b.indentLevel) + (Marker(b.kind) + b.content + (if IsListItem(b.kind) then "\n" else "\n\n"))
  {
    assert !IsHeading(b.kind);
    assert BlockBody(b) == Indent(b.indentLevel) + Marker(b.kind) + b.content + "\n";
  }

  lemma ParseCodeRoundTrip(b: NotionBlock)
    requires b.kind == "code"
    ensures ParseBlock(RenderBlock(b)) == Some(ParsedBlock(b.kind, b.indentLevel, b.content))
  {
    var rest := CodeRest(b.indentLevel, b.content);
    RenderCodeShape(b);
    ParseFencedCode(b.indentLevel, b.content);
    ParseUnmarked(b.indentLevel, rest);
  }

  /** A code block after its indent: fence, indented content, fence, blank line. */
  function CodeRest(level: nat, content: string): string
  {
    var ind := Indent(level);
    "```\n" + ind + content + ("\n" + ind + "```\n\n")
  }

  lemma RenderCodeShape(b: NotionBlock)
    requires b.kind == "code"
    ensures RenderBlock(b) == Indent(b.indentLevel) + CodeRest(b.indentLevel, b.content)
  {
    var ind := Indent(b.indentLevel);
    assert !IsHeading(b.kind) && !HasMarker(b.kind) && !IsListItem(b.kind);
    assert BlockBody(b) == ind + "```\n" + ind + b.content + "\n" + ind + "```\n";
  }

  lemma ParseFencedCode(level: nat, content: string)
    ensures ParseFenced(CodeRest(level, content), level) == Some(ParsedBlock("code", level, content))
  {
    var k := 4 * level;
    var rest := CodeRest(level, content);
    assert rest[..4] == "```\n";
    assert |rest| == 4 + k + |content| + k + 6;
    assert rest[4 + k..|rest| - (k + 6)] == content;
  }

  lemma ParseUnmarked(level: nat, rest: string)
    requires |rest| > 1 && rest[0] == '`' && rest[1] == '`'
    ensures ParseBlock(Indent(level) + rest) == ParseFenced(rest, level)
  {
    var s := Indent(level) + rest;
    var k := 4 * level;
    LeadingSpacesOfIndent(level, rest);
    FourTimes(level);
    assert s[k + 1] == '`';
  }

  lemma FourTimes(level: nat)
    ensures (4 * level) % 4 == 0 && (4 * level) / 4 == level
  {
  }

  // ---------------------------------------------------------------------
  // Merging.

  /** The line between two merged files: a blank line, 80 `=`, a blank line. */
  const Separator: string := "\n\n" + RepeatChar('=', 80) + "\n\n"

  /** The merged file for the given contents, in order: nothing for no
      file, a copy for one, and otherwise exactly the inputs plus one
      84-character separator between each neighbouring pair, ending with
      the last input. */
  function MergeContents(contents: seq<string>): (r: string)
    ensures |contents| == 0 ==> r == ""
    ensures |contents| == 1 ==> r == contents[0]
    ensures |contents| > 0 ==> |r| == TotalLength(contents) + 84 * (|contents| - 1)
    ensures |contents| > 0 ==> EndsWith(r, contents[|contents| - 1])
  {
    if |contents| == 0 then ""
    else
      JoinLength(Separator, contents);
      assert |Separator| == 84;
      Join(Separator, contents)
  }

  /** Merging splits along the input order: the merged file of `a + b` is
      that of `a`, a separator, then that of `b`. */
  lemma MergeSplits(a: seq<string>, b: seq<string>)
    requires |a| > 0 && |b| > 0
    ensures MergeContents(a + b) == MergeContents(a) + Separator + MergeContents(b)
  {
    JoinAppend(Separator, a, b);
  }

  predicate AllReadable(paths: seq<string>, files: map<string, string>)
  {
    forall i :: 0 <= i < |paths| ==> paths[i] in files
  }

  function Contents(paths: seq<string>, files: map<string, string>): (r: seq<string>)
    requires AllReadable(paths, files)
    ensures |r| == |paths|
    ensures forall i :: 0 <= i < |paths| ==> r[i] == files[paths[i]]
  {
    seq(|paths|, i requires 0 <= i < |paths| => files[paths[i]])
  }

  /** One more readable input adds a separator (unless it is the first)
      and its content to the merge of those before it. */
  lemma MergeStep(paths: seq<string>, files: map<string, string>, i: nat)
    requires i < |paths| && AllReadable(paths[..i], files) && paths[i] in files
    ensures AllReadable(paths[..i + 1], files)
    ensures MergeContents(Contents(paths[..i + 1], files))
            == MergeContents(Contents(paths[..i], files)) + (if i > 0 then Separator else "") + files[paths[i]]
  {
    ContentsSnoc(paths, files, i);
    MergeSnoc(Contents(paths[..i], files), files[paths[i]]);
  }

  lemma ContentsSnoc(paths: seq<string>, files: map<string, string>, i: nat)
    requires i < |paths| && AllReadable(paths[..i], files) && paths[i] in files
    ensures AllReadable(paths[..i + 1], files)
    ensures Contents(paths[..i + 1], files) == Contents(paths[..i], files) + [files[paths[i]]]
  {
    assert forall j :: 0 <= j < i + 1 ==> paths[..i + 1][j] == paths[j];
  }

  /** The merge of `before` followed by one more content. */
  lemma MergeSnoc(before: seq<string>, x: string)
    ensures MergeContents(before + [x]) == MergeContents(before) + (if |before| > 0 then Separator else "") + x
  {
    if |before| > 0 {
      MergeSplits(before, [x]);
    } else {
      assert before + [x] == [x];
    }
  }

  /** `merge_txt_files`. The output file is opened before any input is
      read, and the separator is written before the next input is opened,
      so a missing input at position i leaves the merge of the first i
      files followed by one separator (none when i is 0). `written` is what
      the output file holds; `missing` names the first unreadable input. */
  method MergeTxtFiles(paths: seq<string>, files: map<string, string>)
    returns (written: string, missing: Option<nat>)
    ensures missing.None? <==> AllReadable(paths, files)
    ensures missing.None? ==> written == MergeContents(Contents(paths, files))
    ensures missing.Some? ==>
              var i := missing.value;
              i < |paths| && paths[i] !in files && AllReadable(paths[..i], files)
              && written == MergeContents(Contents(paths[..i], files)) + (if i > 0 then Separator else "")
  {
    written := "";
    var i := 0;
    while i < |paths|
      invariant 0 <= i <= |paths|
      invariant AllReadable(paths[..i], files)
      invariant written == MergeContents(Contents(paths[..i], files))
    {
      if i > 0 {
        written := written + Separator;
      }
      if paths[i] !in files {
        missing := Some(i);
        return;
      }
      MergeStep(paths, files, i);
      written := written + files[paths[i]];
      i := i + 1;
    }
    assert paths[..i] == paths;
    missing := None;
  }

  // ---------------------------------------------------------------------
  // The whole renderer.

  /** A written text file. */
  datatype TxtFile = TxtFile(path: string, content: string)

  /** `page_to_txt`: the path under `sources/` and the text written there. */
  function PageToTxt(page: NotionPage, outputDir: string, index: nat): (r: TxtFile)
    ensures r.path == TxtPath(outputDir, index, page.title)
    ensures EndsWith(r.path, ".txt")
    ensures StartsWith(r.content, page.title + "\n")
    ensures r.content == Header(page.title) + RenderBlocks(page.blocks)
  {
    TitleLineFirst(page);
    var path := TxtPath(outputDir, index, page.title);
    EndsWithTrans(path, TxtFileName(index, page.title), ".txt");
    TxtFile(path, RenderTxt(page))
  }

  /** The rendered file opens with the title on a line of its own. */
  lemma TitleLineFirst(page: NotionPage)
    ensures StartsWith(RenderTxt(page), page.title + "\n")
  {
    var t := page.title;
    var h := Header(t);
    var r := RenderTxt(page);
    assert r[..|t| + 1] == h[..|t| + 1];
    assert h[..|t| + 1] == h[..|t|] + [h[|t|]];
  }

  /** The worked example: a page titled "My Notes!" with a heading, a
      paragraph and an indented bullet. */
  lemma WorkedExample()
    ensures RenderTxt(NotionPage("p", "My Notes!", [
              NotionBlock("heading_1", "Intro", 0, false),
              NotionBlock("paragraph", "Hello world", 0, false),
              NotionBlock("bulleted_list_item", "Point A", 1, false)]))
         == "My Notes!\n=========\n\n" + "\nIntro\n-----\n\n" + "Hello world\n\n" + "    \U{2022} Point A\n"
  {
    var b0 := NotionBlock("heading_1", "Intro", 0, false);
    var b1 := NotionBlock("paragraph", "Hello world", 0, false);
    var b2 := NotionBlock("bulleted_list_item", "Point A", 1, false);
    ExampleHeading(b0);
    ExampleParagraph(b1);
    ExampleBullet(b2);
    RenderThree(b0, b1, b2);
    ExampleHeader();
    Regroup("My Notes!\n=========\n\n", "\nIntro\n-----\n\n", "Hello world\n\n", "    \U{2022} Point A\n");
  }

  lemma RenderThree(b0: NotionBlock, b1: NotionBlock, b2: NotionBlock)
    ensures RenderBlocks([b0, b1, b2]) == RenderBlock(b0) + (RenderBlock(b1) + RenderBlock(b2))
  {
    assert [b0, b1, b2][1..] == [b1, b2];
    assert [b1, b2][1..] == [b2];
    assert [b2][1..] == [];
    assert RenderBlocks([b2]) == RenderBlock(b2) + "";
    assert RenderBlock(b2) + "" == RenderBlock(b2);
  }

  lemma ExampleHeader()
    ensures Header("My Notes!") == "My Notes!\n=========\n\n"
  {
    assert RepeatChar('=', 9) == "=========";
  }

  lemma Regroup(x: string, a: string, b: string, c: string)
    ensures x + (a + (b + c)) == x + a + b + c
  {
  }

  /** The worked example's file name part. */
  lemma ExampleSafeTitle()
    ensures SafeTitle("My Notes!") == "My_Notes_"
  {
    var t := "My Notes!";
    var r := SafeTitle(t);
    assert |r| == 9;
    assert r[0] == 'M' && r[1] == 'y' && r[2] == '_';
    assert r[3] == 'N' && r[4] == 'o' && r[5] == 't' && r[6] == 'e' && r[7] == 's' && r[8] == '_';
  }

  lemma ExampleHeading(b: NotionBlock)
    requires b == NotionBlock("heading_1", "Intro", 0, false)
    ensures RenderBlock(b) == "\nIntro\n-----\n\n"
  {
    assert RepeatChar('-', 5) == "-----";
  }

  lemma ExampleParagraph(b: NotionBlock)
    requires b == NotionBlock("paragraph", "Hello world", 0, false)
    ensures RenderBlock(b) == "Hello world\n\n"
  {
    assert Indent(0) == "";
  }

  lemma ExampleBullet(b: NotionBlock)
    requires b == NotionBlock("bulleted_list_item", "Point A", 1, false)
    ensures RenderBlock(b) == "    \U{2022} Point A\n"
  {
    assert Indent(1) == "    ";
  }
}
